=== FILE: README.md ===
# Regis Innovation Center site: a verified model of its page scripts and endpoints

This project models the behaviour of the Regis Innovation Center website's
interactive core, with one Dafny module for each source file:

- `StudentImpact` covers the about page's horizontal "student impact" panel
  navigator. 'next' and 'prev' bounce back and forth along the row of panels.
  The model includes the scrolling lock, swipes and keys, the progress bar and
  auto-play.
- `AboutRotators` covers the about page's three index rotators: the
  testimonials, the student carousel and the phone-mockup videos.
- `MainSite` covers the home page's showcase rotation, the e-mail check, the
  events carousel and its swipe, the loading button, the active navigation
  link and the header's scrolled class.
- `Calendar` covers the events listing. It reads an event card's date and
  time, builds a Google Calendar link and writes an iCalendar file.
- `EventDetails` covers the event details page: the `?event=` parameter with
  its fallback, the page's own date reading, and its calendar links.
- `Mentor` covers the mentor sign-up form (collecting the fields, validating
  them, the submit button), the stat counters and the checkbox labels.
- `StoryDetails` covers the story page's stat counters and its share buttons.
- `TheChallenge` covers the pitch-competition page: award counters, the
  progress bar and stage dots, and the one-time reveal of journey cards.
- `Stories` covers the stories page slideshow.
- `EventsApi` covers the `api/events.php` endpoint: the catalogue, the
  category, featured and limit filters, the date ordering, the lookup by id
  and adding an event.
- `ContactApi` covers the `api/contact.php` endpoint: sanitising the input,
  the error list, and the notification mail and auto-reply.
- `JsRuntime` holds the JavaScript and PHP built-ins these modules rely on:
  `trim`, `String(n)`, `padStart`, `parseInt`, `split` and `join`, `%`, and
  upper-casing the first character.

Timers, observers and event listeners become explicit methods. For example,
`CompleteTransition` runs when a pending timeout fires and `AutoplayTick`
when an interval fires. Page elements whose classes are toggled in place are
`array<bool>` fields, and objects whose state the scripts update are classes.

## Model

| member | source | states |
|---|---|---|
| StudentImpact.NextIsBounce | assets/js/about.js:909-933 | 'next' keeps going in the bounce direction and turns round at either end of the row. |
| StudentImpact.PlanMove | assets/js/about.js:900-955 | No contract of its own. NextIsBounce and IndexIsClamped state its target and direction. |
| StudentImpact.BounceNext | assets/js/about.js:909-933 | From a panel in a row of at least two, the move lands on a neighbouring panel inside the row, and the new direction is the sense of that move. |
| StudentImpact.PrevIsReversedNext | assets/js/about.js:934-955 | 'prev' is exactly 'next' with the bounce direction reversed first. |
| StudentImpact.RelativeMoveStaysInRow | assets/js/about.js:909-955 | With two panels or more, 'next' and 'prev' always aim at a neighbouring panel inside the row, and the direction they leave is +1 or -1. |
| StudentImpact.IndexIsClamped | assets/js/about.js:905-908 | A panel number is clamped into 0..n-1 and leaves the bounce direction unchanged. |
| StudentImpact.Clamp | assets/js/about.js:907 | In a non-empty row the result is a panel number. A panel number already in range is kept. |
| StudentImpact.BounceSequence | assets/js/about.js:909-933 | k 'next' requests from panel 0 follow the ping-pong sequence 0, 1, ..., n-1, n-2, ..., 0, whose period is 2(n-1), and stay in range. |
| StudentImpact.BounceNeverRepeats | assets/js/about.js:909-933 | Consecutive panels of that sequence are neighbours, never the same panel. |
| StudentImpact.ProgressTracksPanel | assets/js/about.js:1061-1088 | The progress bar is never empty and grows strictly with the panel. It is full exactly when the right edge is disabled, and the edges are disabled only at the ends. |
| StudentImpact.ScrollUI | assets/js/about.js:1061-1088 | No contract of its own. ProgressTracksPanel states the bar and the edges. |
| StudentImpact.SwipeRequest | assets/js/about.js:845-859 | A swipe of more than 50 px to the left asks for 'next', one of more than 50 px to the right asks for 'prev', and anything shorter asks for nothing (each as an if-and-only-if). |
| StudentImpact.KeyRequest | assets/js/about.js:863-889 | ArrowLeft asks for 'prev', ArrowRight or Space asks for 'next', and every other key is ignored (each as an if-and-only-if). |
| StudentImpact.Navigator.constructor | assets/js/about.js:787-808 | Starts on panel 0, going right, unlocked, with no auto-play and the left edge disabled. |
| StudentImpact.Navigator.UpdateScrollUI | assets/js/about.js:1061-1088 | The edge and progress state becomes that of the current panel, and nothing else changes. |
| StudentImpact.Navigator.ScrollToPanel | assets/js/about.js:892-1002 | Does nothing while locked or without a track. Otherwise it moves to the planned panel when that panel is in range and not the current one, takes the lock and updates the UI; in every other case nothing moves. |
| StudentImpact.Navigator.CompleteTransition | assets/js/about.js:996-998 | The unlock callback releases the lock and changes nothing else. |
| StudentImpact.Navigator.TouchStart | assets/js/about.js:841-843 | Records where the touch started and changes nothing else. |
| StudentImpact.Navigator.TouchEnd | assets/js/about.js:845-859 | Does nothing while locked, on a short swipe, or on a page without the track. Otherwise it behaves as ScrollToPanel with the swipe's request. |
| StudentImpact.Navigator.KeyDown | assets/js/about.js:863-889 | Does nothing while locked, while the section is out of view, on another key, or on a page without the track. Otherwise it behaves as ScrollToPanel with the key's request. |
| StudentImpact.Navigator.ClearAutoPlayTimer | assets/js/about.js:1267-1272 | No auto-play step remains pending, and nothing else changes. |
| StudentImpact.Navigator.StartAutoPlayTimer | assets/js/about.js:1256-1265 | Exactly one auto-play step is pending, and nothing else changes. |
| StudentImpact.Navigator.SectionVisibility | assets/js/about.js:1232-1251 | Auto-play is armed exactly while the section intersects the viewport. |
| StudentImpact.Navigator.AutoPlayTick | assets/js/about.js:1256-1265 | When unlocked, the step requests 'next' and re-arms the timer; on a page without the track the panel and direction stay. When locked, nothing moves and the timer is not re-armed. |
| StudentImpact.PingPongScenario | assets/js/about.js:892-1002 | Four 'next' requests from panel 0 of three, each after the previous unlock, visit 1, 2, 1 and 0. |
| AboutRotators.NextIndex | assets/js/about.js:1328-1331 | `(i + 1) % n` stays in range, steps forward by one, and wraps from the last index to 0. |
| AboutRotators.AdvanceIsModular | assets/js/about.js:1328-1339 | k advances from an in-range index land on (i + k) mod n. |
| AboutRotators.FullCycle | assets/js/about.js:1328-1339 | n advances come back to the start, and no shorter positive number of advances does. |
| AboutRotators.OnlyAtCount | assets/js/about.js:1306-1326 | After the active-class toggle, exactly one item is active when the index is in range, and none otherwise. |
| AboutRotators.MarkOnly | assets/js/about.js:1313-1319 | The in-place `forEach` leaves exactly the flags `i === index`. |
| AboutRotators.Testimonials.constructor | assets/js/about.js:1341-1362 | With items, the first item and dot are the only active ones. With none, nothing changes. The interval is armed. |
| AboutRotators.Testimonials.ShowTestimonial | assets/js/about.js:1306-1326 | With no items nothing changes. Otherwise exactly the item and dot at the index are active. |
| AboutRotators.Testimonials.NextTestimonial | assets/js/about.js:1328-1331 | Shows `(current + 1) % 2`. |
| AboutRotators.Testimonials.DotClicked | assets/js/about.js:1346-1353 | Shows the clicked testimonial and restarts the interval. |
| AboutRotators.Testimonials.AutoplayTick | assets/js/about.js:1333-1339 | One tick advances to the next testimonial, and only its item and dot are active afterwards. Without items nothing changes. |
| AboutRotators.WrapClampInRange | assets/js/about.js:1397-1419 | The corrected slide index is always in range and keeps an in-range index. Within one step outside the range it agrees with a modulo. |
| AboutRotators.WrapClampIsNotModulo | assets/js/about.js:1397-1419 | Farther out the correction is not a modulo: 4 of 3 gives 0, and -2 of 3 gives 2. |
| AboutRotators.StudentCarousel.constructor | assets/js/about.js:1376-1395 | Starts on slide 0, with the track at 0, only indicator 0 active and the interval armed. |
| AboutRotators.StudentCarousel.GoToSlide | assets/js/about.js:1397-1419 | The index is corrected, exactly that slide and indicator are active, the track moves to -100·index % and the interval restarts. |
| AboutRotators.StudentCarousel.NextSlide | assets/js/about.js:1421-1423 | Moves to the next slide, wrapping from the last to the first. |
| AboutRotators.StudentCarousel.PrevSlide | assets/js/about.js:1425-1427 | Moves to the previous slide, wrapping from the first to the last. Only that slide and its indicator are active, and the track moves to it. |
| AboutRotators.StudentCarousel.KeyDown | assets/js/about.js:1444-1447 | ArrowLeft goes back and ArrowRight goes forward, each leaving only the new slide and its indicator active with the track moved to it. Any other key changes nothing. |
| AboutRotators.StudentCarousel.MouseEnter | assets/js/about.js:1450-1457 | Hovering stops the interval and keeps the slide and the track position. |
| AboutRotators.StudentCarousel.MouseLeave | assets/js/about.js:1450-1457 | Leaving restarts the interval and keeps the slide and the track position. |
| AboutRotators.StudentCarousel.AutoplayTick | assets/js/about.js:1429-1437 | One tick advances to the next slide. Only that slide and its indicator are active, and the track moves to it. |
| AboutRotators.PhoneVideos.constructor | assets/js/about.js:1524-1527 | Starts on video 0, with only video 0 and card 0 active and the interval armed. |
| AboutRotators.PhoneVideos.ShowVideo | assets/js/about.js:1493-1511 | Exactly the video and the card at the index are active. |
| AboutRotators.PhoneVideos.NextVideo | assets/js/about.js:1513-1516 | Shows `(current + 1) % total`: only that video and the card at its index are active. |
| AboutRotators.PhoneVideos.CardClicked | assets/js/about.js:1540-1546 | Shows the clicked card's video and restarts the interval. Only that video and that card are active. |
| AboutRotators.PhoneVideos.MouseEnter | assets/js/about.js:1530-1537 | Hovering stops the interval. |
| AboutRotators.PhoneVideos.MouseLeave | assets/js/about.js:1530-1537 | Leaving restarts the interval. |
| AboutRotators.PhoneVideos.AutoplayTick | assets/js/about.js:1518-1521 | One tick advances to the next video. Only that video and the card at its index are active. |
| MainSite.PrevIndex | assets/js/main.js:317-320 | `(i - 1 + n) % n` stays in range, steps back by one, and wraps from 0 to the last index. |
| MainSite.ShowcaseStepsAreInverse | assets/js/main.js:312-320 | The next step and the previous step undo each other. |
| MainSite.Showcase.constructor | assets/js/main.js:286-294 | Starts on image 0 with no interval running. |
| MainSite.Showcase.ShowImage | assets/js/main.js:296-310 | Exactly the image at the index is active. |
| MainSite.Showcase.ShowNextImage | assets/js/main.js:312-315 | Advances with wrap-around and marks only the new image. |
| MainSite.Showcase.ShowPrevImage | assets/js/main.js:317-320 | Steps back with wrap-around and marks only the new image. |
| MainSite.Showcase.ResetAutoRotate | assets/js/main.js:322-325 | Clears the tracked interval and starts one new one. When one interval was live, one remains. |
| MainSite.Showcase.NextClicked | assets/js/main.js:328-340 | The next image, alone active, with the rotation restarted. |
| MainSite.Showcase.PrevClicked | assets/js/main.js:328-340 | The previous image, alone active, with the rotation restarted. |
| MainSite.Showcase.StartRotationAsWritten | assets/js/main.js:343-345 | The start timeout adds an interval without clearing the one already running. |
| MainSite.Showcase.StartRotation | assets/js/main.js:343-345 | The corrected start keeps exactly one live interval. |
| MainSite.Showcase.RotateTick | assets/js/main.js:322-325 | A tick advances one image, and only that image is active. |
| MainSite.EarlyClickLeavesTwoIntervals | assets/js/main.js:322-345 | As written, a click before the start timeout leaves two intervals running, and a later click still leaves two. |
| MainSite.EarlyClickCorrected | assets/js/main.js:322-345 | With the corrected start the same clicks leave one interval. |
| MainSite.IsValidEmailMatchesPattern | assets/js/main.js:942-945 | `isValidEmail` holds exactly when the text is word `@` word `.` word, with no whitespace and no `@` in the words. |
| MainSite.EmailSplit | assets/js/main.js:942-945 | No contract of its own. It is the reference reading of the pattern that IsValidEmailMatchesPattern matches. |
| MainSite.IsValidEmail | assets/js/main.js:942-945 | An accepted address contains no whitespace. |
| MainSite.ScrollStep | assets/js/main.js:1000-1012 | The scroll step is card + 35 px up to a 768 px window, and three cards + 40 px each beyond that. |
| MainSite.HandleSwipe | assets/js/main.js:1048-1061 | A travel of more than 50 px to the right goes left and one of more than 50 px to the left goes right (each as an if-and-only-if). |
| MainSite.SwipeIgnoresTime | assets/js/main.js:1048-1061 | The swipe's elapsed time never changes the outcome. |
| MainSite.ClampScroll | assets/js/main.js:1000-1012 | The browser keeps the scroll position within 0..max and leaves an in-range target alone. |
| MainSite.EventsCarousel.constructor | assets/js/main.js:977-1074 | Starts at scroll 0 with the arrows in the `updateArrowStates` rule: the left arrow is disabled, and the right one is disabled exactly when there is at most 1 px to scroll. |
| MainSite.EventsCarousel.UpdateArrowStates | assets/js/main.js:1015-1031 | The left arrow is disabled exactly at 0, and the right arrow exactly within 1 px of the end. |
| MainSite.EventsCarousel.ScrollCarousel | assets/js/main.js:1000-1012 | Scrolls by one step in the direction, clamped, and keeps the arrows in the `updateArrowStates` rule. |
| MainSite.EventsCarousel.TouchEnd | assets/js/main.js:1038-1061 | A short swipe leaves the scroll and the arrows alone. A long one scrolls one step its way. Either way the arrows keep the `updateArrowStates` rule. |
| MainSite.EventsCarousel.InitialScroll | assets/js/main.js:986-995 | The delayed start scrolls to the seventh card, `(cardWidth + 40) * 6` clamped to the scroll range, and keeps the arrows in the `updateArrowStates` rule. |
| MainSite.ScrollReachesEnds | assets/js/main.js:1000-1031 | A step that would pass either end lands on it and disables that arrow. A step strictly inside leaves the left arrow enabled. |
| MainSite.Button.constructor | assets/js/main.js:948-957 | A fresh button is enabled, with no saved text. |
| MainSite.Button.SetLoading | assets/js/main.js:948-957 | Loading saves the text, shows "Loading..." and disables the button. Stopping restores the saved text when a non-empty one was saved, keeps the current text otherwise, and enables the button. |
| MainSite.LoadingRoundTrip | assets/js/main.js:948-957 | Loading and then stopping restores a non-empty original text, but an empty text comes back as "Loading...". |
| MainSite.LastCovering | assets/js/main.js:665-686 | Finds the last section whose band (from 140 px above its top, for its height) covers the scroll position, or reports that none does. |
| MainSite.CurrentSection | assets/js/main.js:665-686 | The loop over the sections yields the id of the last covering section, or "" when none covers. |
| MainSite.UpdateActiveNavLink | assets/js/main.js:665-686 | A navigation link is active exactly when its href is `#` followed by the current section's id. |
| MainSite.CurrentIdProperties | assets/js/main.js:665-686 | No covering section gives "", a covering last section wins, and every later covering section overrides an earlier one. |
| MainSite.CurrentId | assets/js/main.js:665-686 | No contract of its own. CurrentIdProperties states which section it picks. |
| MainSite.Header.constructor | assets/js/main.js:395-396 | Starts not scrolled. |
| MainSite.Header.OnScroll | assets/js/main.js:397-406 | The scrolled flag and class follow `scrollY > 50`, and the class is touched only when the flag changes. |
| Calendar.FirstMatchFrom | assets/js/events.js:496-505 | Finds the leftmost position where the time pattern matches, or reports that there is none. |
| Calendar.MatchAt | assets/js/events.js:496-505 | A match has non-empty hour and minute digits, with the colon between them. |
| Calendar.To24Bijection | assets/js/events.js:496-505 | The 12-to-24 hour conversion maps 1..12 × AM/PM one-to-one onto 0..23, and hours below 12 are exactly the AM ones. |
| Calendar.ParseTimeOfDisplay12 | assets/js/events.js:496-505 | `parseTime` reads back a displayed `h:mm AM/PM` as the corresponding 24-hour clock. |
| Calendar.ParseTimeWithoutColon | assets/js/events.js:496-505 | Text without a colon falls back to 9:00. |
| Calendar.MonthIndexOfName | assets/js/events.js:487-488 | Each month abbreviation maps to its own index. |
| Calendar.MonthIndexRange | assets/js/events.js:487-488 | The month index is within 0..11, and an unknown name gives January. |
| Calendar.DayOf | assets/js/events.js:489 | The day is never 0, since `parseInt(day) \|\| 1` replaces it. |
| Calendar.DayOfNumber | assets/js/events.js:489 | A written day number is read back, with 0 replaced by 1. |
| Calendar.TimeRange | assets/js/events.js:492-494 | The start and end texts are never empty. |
| Calendar.NoSeparatorWithoutDash | assets/js/events.js:492-494 | Text without a " - " separator splits into itself. |
| Calendar.TimeRangeOfPair | assets/js/events.js:492-494 | "a - b" with trimmed, dash-free ends splits back into (a, b). |
| Calendar.TimeRangeWithoutTimes | assets/js/events.js:492-494 | Time text without a dash or a colon gives an event from 9:00 to 10:00. |
| Calendar.EventTimesFor | assets/js/events.js:508-511 | Start and end share the card's year, month and day. |
| Calendar.ParseCardDateTimeOfCard | assets/js/events.js:486-514 | A card showing month, day and two 12-hour times is read back as those components, in the card's year. |
| Calendar.FormatDateForCalendarRoundTrip | assets/js/events.js:516-523 | The `YYYYMMDDTHHMMSS` stamp has 15 characters and parses back to the date it formats. |
| Calendar.FormatCategoryIsUpperFirst | assets/js/events.js:247-258 | "tech-talk" becomes "Tech Talk". Every other category has its first letter upper-cased, which agrees with the table. |
| Calendar.EscapeNewlines | assets/js/events.js:584 | The escaped description contains no line feed. |
| Calendar.UnescapeEscapeNewlines | assets/js/events.js:584 | For text without backslashes, the escaping is undone exactly. |
| Calendar.OrDefault | assets/js/events.js:475-484 | A missing or empty text gives the fallback. |
| Calendar.DetailsFromCard | assets/js/events.js:475-484 | Title and location are never empty. |
| Calendar.IcsLines | assets/js/events.js:574-589 | The calendar has 14 lines, from BEGIN:VCALENDAR to END:VCALENDAR, with DTSTART, DTEND and the escaped DESCRIPTION in place. |
| Calendar.IcsLinesHaveNoLineFeed | assets/js/events.js:574-589 | With line-free title, location and stamps, no line contains a line feed. |
| Calendar.IcsLinesRoundTrip | assets/js/events.js:574-589 | Splitting the CRLF-joined file gives back exactly its 14 lines. |
| Calendar.SafeStem | assets/js/events.js:594 | Every non-alphanumeric character of the title becomes a dash, and the length is kept. |
| Calendar.IcsFileNameProperties | assets/js/events.js:594 | The name is the title's length plus ".ics". The stem holds only ASCII letters, digits and dashes, keeps the title's letters and digits, and sanitising it again changes nothing. |
| Calendar.DownloadIcsFromCard | assets/js/events.js:561-599 | There is no file exactly when there is no card. Otherwise the file is named after the title. When the title, location and stamps are single lines, its content splits at CRLF into 14 lines from BEGIN:VCALENDAR to END:VCALENDAR. Lines 6 and 7 are DTSTART and DTEND of the card's parsed start and end, and the summary, escaped description and location follow. |
| Calendar.AddToGoogleCalendarFromCard | assets/js/events.js:525-541 | There is no link exactly when there is no card. Otherwise the link carries the encoded title, the `dates` value, the encoded description and the encoded location, in that order. When the card's parsed start and end are real dates, `dates` is two 15-character stamps around a slash that read back to them. |
| Calendar.GoogleDatesRoundTrip | assets/js/events.js:516-541 | For real dates, the `dates` value is 31 characters with `/` at index 15, and each half reads back to its date. |
| Calendar.IcsContentReadsAsEvent | assets/js/events.js:574-589 | When the single-line fields hold no line feed, the file content splits back into the 14 lines with the event's stamps, title, description and location. |
| Calendar.PrintedCardTimes | assets/js/events.js:486-514 | A card printed as a month abbreviation, a day number and two 12-hour times is read back as those times in the listing's year. |
| Calendar.GoogleLinkOfPrintedCard | assets/js/events.js:525-541 | The link made from a printed card has `dates` reading back to the printed date and times. |
| Calendar.IcsFileOfPrintedCard | assets/js/events.js:561-599 | The file made from a printed card has DTSTART and DTEND at the printed date and times. |
| Calendar.To24 | assets/js/events.js:496-505 | For 1 to 12 o'clock the result is an hour of the day, in the afternoon exactly for PM, with the same hour on the 12-hour dial. |
| Calendar.MonthIndex | assets/js/events.js:487-488 | Always a month from 0 to 11. A name outside the table gives January. |
| Calendar.CardYear | assets/js/events.js:486-514 | The listing's year is 2025 or 2026. |
| Calendar.ParseCardDateTime | assets/js/events.js:486-514 | Start and end share the card's month, the listing's year for that month, and the card's day. |
| Calendar.ParseTime | assets/js/events.js:496-505 | No contract of its own. ParseTimeOfDisplay12 and ParseTimeWithoutColon state what it reads. |
| Calendar.FormatDateForCalendar | assets/js/events.js:516-523 | No contract of its own. FormatDateForCalendarRoundTrip states its layout and read-back. |
| Calendar.ParseCalendarStamp | assets/js/events.js:516-523 | No contract of its own. It is the reader FormatDateForCalendarRoundTrip inverts. |
| Calendar.FormatCategory | assets/js/events.js:247-258 | No contract of its own. FormatCategoryIsUpperFirst states that only "tech-talk" needs the table. |
| Calendar.IcsFileName | assets/js/events.js:594 | No contract of its own. IcsFileNameProperties states the name's shape. |
| Calendar.GoogleCalendarUrl | assets/js/events.js:525-541 | No contract of its own. AddToGoogleCalendarFromCard states its fields. |
| Calendar.MatchPrefix | assets/js/events.js:496-505 | A match has non-empty hour and minute digit runs, with a colon right after the hours. |
| Calendar.MinutesAndPeriod | assets/js/events.js:496-505 | A match has a non-empty minute digit run. |
| EventDetails.ParamFrom | assets/js/event-details.js:43-48 | Finds the first `[?&]name=` occurrence at or after a position, or reports that there is none. |
| EventDetails.RawUrlParameter | assets/js/event-details.js:43-48 | There is no value exactly when no `?name=` or `&name=` occurs. Otherwise the value is the one the pattern captures at the first occurrence: it starts right after `name=` and runs up to the next `&` or `#`, or to the end. |
| EventDetails.ParamValueUnique | assets/js/event-details.js:43-48 | At most one position and one value fit the pattern's match. |
| EventDetails.RawUrlParameterIsTheMatch | assets/js/event-details.js:43-48 | A value fits the pattern's match at a first occurrence exactly when it is the captured value. |
| EventDetails.PlusToSpace | assets/js/event-details.js:43-48 | Every `+` becomes a space, and nothing else changes. |
| EventDetails.GetUrlParameter | assets/js/event-details.js:43-48 | A query without the parameter gives "". Otherwise the result is the matched value, decoded after each `+` becomes a space; when the decoding throws (a malformed escape), there is no result. |
| EventDetails.RawUrlParameterOfQuery | assets/js/event-details.js:43-48 | `?name=value` followed by a separator reads back the value. |
| EventDetails.SelectEvent | assets/js/event-details.js:51-53 | A known id selects its event, and anything else selects the default event. |
| EventDetails.LoadEventDetails | assets/js/event-details.js:51-72 | When decoding the `event` parameter throws, nothing is written and the page keeps its static content. Otherwise every element the page fills shows the table entry the parameter names: title, month and day, time, location, description, image and its alternative text, the sidebar's date, time and location, and the document title. An empty or unknown name shows the default entry. |
| EventDetails.NoQueryShowsDefault | assets/js/event-details.js:51-72 | Without a query every element shows the "Open House - Night 2" entry. |
| EventDetails.MalformedEventLeavesPage | assets/js/event-details.js:47-52 | A parameter value whose decoding throws leaves every element unwritten. |
| EventDetails.KnownEventIsShown | assets/js/event-details.js:51-72 | `?event=id` for a known id shows that event in every element. |
| EventDetails.LinkedEventIsShown | assets/js/event-details.js:43-72 | Wherever the `event` parameter sits in the query, a value that decodes to a known name shows that event in every element. |
| EventDetails.PageYear | assets/js/event-details.js:126 | The page's year is 2025 or 2026. |
| EventDetails.ParsePageDateTime | assets/js/event-details.js:117-151 | Start and end share the page's month, the page's year for that month, and the day. |
| EventDetails.GoogleTimesAsWritten | assets/js/event-details.js:163-174 | No contract of its own. GoogleAsWrittenIsAlwaysJanuary states its dates. |
| EventDetails.AddToGoogleCalendar | assets/js/event-details.js:163-174 | The link carries the encoded title, the `dates` value for the page's month, and the encoded description and location. For real dates `dates` reads back to the page's start and end. |
| EventDetails.DownloadIcs | assets/js/event-details.js:178-211 | The file is named after the title. When the single-line fields hold no line feed, it splits back into the 14 lines with the page's stamps, title, description and location. |
| EventDetails.YearRulesAgreeOnlyInOctober | assets/js/event-details.js:126 | The details page's year rule and the listing's year rule agree only for October. |
| EventDetails.TableDatesFollowPageYear | assets/js/event-details.js:6-40 | Every event in the page's table is in 2025, and the page's year rule also gives 2025. |
| EventDetails.PageMonth | assets/js/event-details.js:122 | The month is within 0..11, and a missing month text gives January. |
| EventDetails.PageParseMatchesListing | assets/js/event-details.js:117-151 | The page reads month, day and times as the listing does. The two readings differ only in the year, and they agree exactly for October. |
| EventDetails.GoogleAsWrittenIsAlwaysJanuary | assets/js/event-details.js:163-174 | As written, the Google link's start and end are always in January 2026, whatever the event's month. |
| EventDetails.GoogleAsWrittenMisdatesOpenHouse | assets/js/event-details.js:163-174 | As written, the Oct 16 open house gets a link for January 16 2026, while the corrected rule gives October 16 2025. |
| EventDetails.GoogleTimes | assets/js/event-details.js:163-174 | The corrected times use the event's own month and the page's year. |
| EventDetails.DownloadIcsMatchesGoogle | assets/js/event-details.js:178-211 | The iCalendar download uses the same start and end as the corrected Google link. |
| EventDetails.IcsTimes | assets/js/event-details.js:178-211 | The file's DTSTART and DTEND lines are the formatted event times. |
| EventsApi.CatalogueShape | api/events.php:8-81 | The catalogue holds six events with ids 1 to 6 in order, and it is already in date order. |
| EventsApi.Catalogue | api/events.php:8-81 | No contract of its own. CatalogueShape states its contents. |
| EventsApi.SkipPhpSpace | api/events.php:90 | The leading whitespace that PHP's integer cast skips is removed. |
| EventsApi.PhpIntCastOfIntToString | api/events.php:90 | `(int)` reads back every written integer. |
| EventsApi.PhpIntCastOfDigits | api/events.php:90 | `(int)` on decimal digits, with or without a leading minus, gives their value, negated after a minus. |
| EventsApi.PhpIntCastOfNonNumeric | api/events.php:90 | Text starting with a non-numeric character casts to 0. |
| EventsApi.PhpIntCast | api/events.php:90 | No contract of its own. PhpIntCastOfNonNumeric states the cast of non-numeric text. |
| EventsApi.SliceFromStart | api/events.php:114-116 | `array_slice($a, 0, n)` keeps a prefix: n items for positive n, and all but the last -n for negative n. |
| EventsApi.ApplyLimit | api/events.php:114-116 | The limit keeps a prefix, and a missing or zero limit keeps everything. |
| EventsApi.Filter | api/events.php:95-106 | Every kept event satisfies the filter. |
| EventsApi.LimitCounts | api/events.php:114-116 | The limit never adds a copy of any event. |
| EventsApi.FilterCounts | api/events.php:95-106 | The filter keeps every copy of a matching event and drops every copy of the others. |
| EventsApi.SortByDate | api/events.php:109-111 | The in-place sort leaves the events ordered by date, as a permutation of the input. |
| EventsApi.InsertInto | api/events.php:109-111 | One insertion step: the prefix one longer is in date order afterwards and the array holds the same events. |
| EventsApi.EventsEndpoint.constructor | api/events.php:8-81 | The endpoint starts with the catalogue. |
| EventsApi.EventsEndpoint.HandleRequest | api/events.php:87-127 | A method other than GET gets 405 "Method not allowed". GET returns, in date order, the catalogue events passing the category and featured filters, cut to the limit. |
| EventsApi.ListEvents | api/events.php:87-120 | The GET answer: the category filter applies only for a truthy category, the featured filter only for "true", then the events are sorted by date as a permutation and cut to the limit. |
| EventsApi.AnswerInDateOrder | api/events.php:108-116 | A GET answer is in date order, the limit included. |
| EventsApi.EventsEndpoint.GetEventById | api/events.php:131-139 | Returns an event with that id from the catalogue, and none exactly when no event has it. |
| EventsApi.EventsEndpoint.AddEvent | api/events.php:142-148 | The stored event gets id max+1, larger than every existing id, and is appended. |
| EventsApi.FilterKeepingAll | api/events.php:95-106 | A filter every event passes keeps the list unchanged. |
| EventsApi.MaxId | api/events.php:145 | The maximum id is at least every id and is one of them. |
| EventsApi.LimitKeepsDateOrder | api/events.php:109-116 | Cutting a date-ordered list keeps it ordered. |
| EventsApi.AnswerMatchesFilters | api/events.php:95-116 | Every answered event has the requested category when one is given, and is featured when only featured events are asked for. |
| EventsApi.Listing | api/events.php:95-116 | No contract of its own. It is the specification the GET branch is proved against. |
| EventsApi.AnswerFromCatalogue | api/events.php:95-116 | The answer never holds more copies of an event than the catalogue does. |
| ContactApi.TrimLeft | api/contact.php:16-21 | Only trim characters are removed from the front, and the result starts with a non-trim character. |
| ContactApi.TrimRight | api/contact.php:16-21 | Only trim characters are removed from the back, and the result ends with a non-trim character. |
| ContactApi.PhpTrim | api/contact.php:16-21 | `trim` never lengthens the text, and what it leaves starts and ends with a character that is not a trim character. |
| ContactApi.PhpTrimIsInfix | api/contact.php:16-21 | What `trim` leaves is one contiguous slice of the input, and everything cut off before and after it is a trim character. |
| ContactApi.PhpTrimIdempotent | api/contact.php:16-21 | Trimming twice is trimming once. |
| ContactApi.StripSlashes | api/contact.php:16-21 | `stripslashes` never lengthens the text. |
| ContactApi.StripAddSlashes | api/contact.php:16-21 | `stripslashes` undoes `addslashes`. |
| ContactApi.AddSlashes | api/contact.php:16-21 | Escaping never shortens the text. StripAddSlashes states that `stripslashes` undoes it. |
| ContactApi.StripSlashesWithoutBackslash | api/contact.php:16-21 | Text without a backslash is unchanged. |
| ContactApi.HtmlSpecialChars | api/contact.php:16-21 | The encoded text holds no `<`, `>` or `"`, and no `'` when single quotes are encoded. |
| ContactApi.DecodeHtmlSpecialChars | api/contact.php:16-21 | Decoding the entities gives back the original text. |
| ContactApi.DecodeEntity | api/contact.php:16-21 | Each of the five entities `htmlspecialchars` writes decodes back to its own character. |
| ContactApi.HtmlDecode | api/contact.php:16-21 | No contract of its own. DecodeHtmlSpecialChars states that it undoes the escaping. |
| ContactApi.DoubleEncoding | api/contact.php:16-21 | An already-encoded `&amp;` is encoded again. |
| ContactApi.ValidateInputProperties | api/contact.php:16-21 | The sanitised field holds no `<`, `>` or `"`, and decoding its entities gives back the trimmed, unslashed input. |
| ContactApi.ValidateInput | api/contact.php:16-21 | No contract of its own. ValidateInputProperties states what the sanitised field holds. |
| ContactApi.BlankIsMissing | api/contact.php:24-48 | A blank field, and one that is just "0" between blanks, counts as missing. |
| ContactApi.CollectErrors | api/contact.php:30-48 | The list is the name, e-mail, subject and message errors in that order. Each error is present exactly when its condition holds, in the source's order, and the list is empty exactly when name, a valid e-mail, subject and message are all given. |
| ContactApi.NameErrors | api/contact.php:30-32 | At most one error: "Name is required" exactly when the name is empty to PHP. |
| ContactApi.EmailErrors | api/contact.php:34-38 | At most one error: "required" when the e-mail is empty, otherwise "invalid" when the check rejects it. |
| ContactApi.SubjectErrors | api/contact.php:40-42 | At most one error: "Subject is required" exactly when the subject is empty to PHP. |
| ContactApi.MessageErrors | api/contact.php:44-46 | At most one error: "Message is required" exactly when the message is empty to PHP. |
| ContactApi.EmailErrorsExclusive | api/contact.php:34-38 | "required" and "invalid" are never reported together for the e-mail. |
| ContactApi.HandleContact | api/contact.php:9-126 | A method other than POST gets 405 and sends nothing. Invalid input gets an unsuccessful reply and sends nothing. Its error list is non-empty and is the name, e-mail, subject and message errors of the sanitised form, in that order. Valid input sends the notification first, and the reply succeeds exactly when mail() accepts it. |
| ContactApi.Deliver | api/contact.php:57-126 | The notification is always sent first. Success and the auto-reply follow exactly when mail() accepts it, and otherwise the failure message is returned. |
| JsRuntime.SplitJoinLines | api/contact.php:78-83 | Lines without a line feed, joined with CRLF, split back into the same lines. |
| JsRuntime.TrimStart | assets/js/events.js:493-494 | The result is a suffix of the text, everything removed is white space, and it does not start with white space. |
| JsRuntime.TrimEnd | assets/js/events.js:493-494 | The result is a prefix of the text, everything removed is white space, and it does not end with white space. |
| JsRuntime.Trim | assets/js/events.js:493-494 | No contract of its own. TrimStart, TrimEnd and TrimOfNonSpaceEnds state its result. |
| JsRuntime.TrimOfNonSpaceEnds | assets/js/events.js:493-494 | Text that neither starts nor ends with white space is left as it is. |
| JsRuntime.NatToString | assets/js/events.js:518-521 | A non-empty digit string with no leading zero whose value is the number. |
| JsRuntime.IntToString | assets/js/events.js:518-521 | The digits of the magnitude, with a minus sign exactly for a negative number. |
| JsRuntime.PadStart | assets/js/events.js:518-521 | Text at least as wide is kept. Shorter text is padded on the left with the fill to the width and ends with the text. |
| JsRuntime.ParseInt | assets/js/events.js:489 | No contract of its own. ParseIntOfIntToString states that it reads back a printed integer. |
| JsRuntime.ParseIntOfIntToString | assets/js/events.js:489 | Reading a printed integer gives the integer back. |
| JsRuntime.IndexOf | assets/js/mentor.js:152 | The result is the first position where the separator occurs, and there is none exactly when it never occurs. |
| JsRuntime.Split | assets/js/events.js:492 | Splitting always gives at least one part. |
| JsRuntime.SplitAtFirst | assets/js/events.js:492 | The first part runs up to the first separator, and the rest is the split of the text after it. |
| JsRuntime.Join | assets/js/events.js:589 | No contract of its own. JoinSplit and SplitJoin state that it inverts Split. |
| JsRuntime.JoinCons | assets/js/events.js:589 | Joining a head before at least one part puts the separator between them. |
| JsRuntime.JoinSplit | assets/js/events.js:492 | Joining the parts of a split with the same separator gives the text back. |
| JsRuntime.SplitJoin | assets/js/events.js:589 | When no part holds the separator's last character, splitting the joined text gives the parts back. |
| JsRuntime.JsRem | assets/js/about.js:1329 | Agrees with Euclidean `%` for a non-negative dividend. For a negative one it lies between -b and 0, as JavaScript's remainder does. |
| JsRuntime.UpperAscii | assets/js/events.js:257 | A lower-case ASCII letter becomes its capital. Any other character is kept. |
| JsRuntime.UpperFirst | assets/js/events.js:257 | Same length. The first character is capitalised and the rest kept. |
| JsRuntime.KeepDigits | assets/js/story-details.js:69 | The result is digits only and no longer than the text. |
| ContactApi.NotificationHeadersRoundTrip | api/contact.php:78-83 | The CRLF-joined headers split back into the same header lines. |
| ContactApi.NotificationMail | api/contact.php:57-86 | No contract of its own. HandleContact states when it is sent, and NotificationHeadersRoundTrip states its headers. |
| ContactApi.AutoReplyMail | api/contact.php:92-120 | No contract of its own. HandleContact states that it is sent second, after a successful notification. |
| Mentor.FormToObject | assets/js/mentor.js:28-37 | The loop over the form entries builds the aggregate map. |
| Mentor.AvailabilityIsCollected | assets/js/mentor.js:28-37 | Availability is present exactly when some entry has that key, and then it holds every availability value in order. |
| Mentor.AddEntry | assets/js/mentor.js:28-37 | No contract of its own. AvailabilityIsCollected and OtherKeyKeepsLast state its effect. |
| Mentor.Aggregate | assets/js/mentor.js:26-37 | No contract of its own. AvailabilityIsCollected and OtherKeyKeepsLast state its result. |
| Mentor.OtherKeyKeepsLast | assets/js/mentor.js:28-37 | Any other key is present exactly when some entry has it, and then it holds the last such entry's value. |
| Mentor.LastIndexOf | assets/js/mentor.js:28-37 | Finds the last entry with the key, or reports that there is none. |
| Mentor.CheckMentorForm | assets/js/mentor.js:40-50 | A missing name or e-mail is reported first, then an invalid e-mail, otherwise the form is accepted (each as an if-and-only-if). |
| Mentor.CompleteFormIsAccepted | assets/js/mentor.js:28-50 | A form whose last first name, last name and e-mail are filled and valid is accepted. |
| Mentor.MentorForm.constructor | assets/js/mentor.js:19-27 | The button starts enabled, with its HTML. |
| Mentor.MentorForm.Submit | assets/js/mentor.js:19-72 | A rejected form leaves the button alone. An accepted one saves its HTML, shows "Submitting..." and disables it. |
| Mentor.MentorForm.SubmissionDone | assets/js/mentor.js:59-72 | The timeout restores the saved HTML and enables the button. |
| Mentor.SubmitRoundTrip | assets/js/mentor.js:19-72 | Submitting and completing leaves the button as it was and enabled. |
| Mentor.CounterTarget | assets/js/mentor.js:130 | The counter has no target exactly when the text holds no digit. |
| Mentor.CounterEndOf | assets/js/mentor.js:136-157 | The counter stops exactly when it has a target. Otherwise it never stops. |
| Mentor.FrameText | assets/js/mentor.js:144-156 | No contract of its own. CounterEndOf states the text of the last frame. |
| Mentor.CounterEndsOnStat | assets/js/mentor.js:136-157 | A stat such as "$25K+" ends showing exactly its own text. |
| Mentor.CounterEndsOnOrdinal | assets/js/mentor.js:151-153 | An ordinal such as "25th" ends showing its own text. |
| Mentor.CounterWithoutDigitsRunsForever | assets/js/mentor.js:136-141 | Text without digits never reaches its stop condition. |
| Mentor.CheckboxLabel.constructor | assets/js/mentor.js:203-206 | Keeps the checkbox's initial state. |
| Mentor.CheckboxLabel.Handler | assets/js/mentor.js:207-211 | The handler toggles the box unless the click was on the box itself. |
| Mentor.CheckboxLabel.ClickAsWritten | assets/js/mentor.js:203-212 | As written, a click on the box toggles it once, but a click on the label text leaves it unchanged. |
| Mentor.CheckboxLabel.Click | assets/js/mentor.js:203-212 | The corrected click always toggles exactly once. |
| Mentor.LabelTextClickAsWritten | assets/js/mentor.js:203-212 | As written, an unchecked box stays unchecked after a click on its label text. |
| StoryDetails.StatEndOf | assets/js/story-details.js:61-102 | The counter stops exactly when the text holds a digit. |
| StoryDetails.StatFrame | assets/js/story-details.js:89-100 | No contract of its own. StatEndOf states the text of the last frame. |
| StoryDetails.TargetOfMarked | assets/js/story-details.js:69 | Digits between digit-free marks are read as the target. |
| StoryDetails.StatEndsOnOwnText | assets/js/story-details.js:84-100 | "$nM", "n%", "nM" and "n", each with or without "+", end showing exactly their own text. |
| StoryDetails.DollarMillionsEndsOnOwnText | assets/js/story-details.js:92-100 | "$nM" and "$nM+" end on their own text. |
| StoryDetails.PercentEndsOnOwnText | assets/js/story-details.js:92-100 | "n%" ends on its own text. |
| StoryDetails.MillionsEndsOnOwnText | assets/js/story-details.js:92-100 | "nM" and "nM+" end on their own text. |
| StoryDetails.PlainEndsOnOwnText | assets/js/story-details.js:92-100 | "n" and "n+" end on their own text. |
| StoryDetails.DecimalMillionsLoseThePoint | assets/js/story-details.js:69-100 | "2.5M" ends as "25M". |
| StoryDetails.DollarWithoutMillionsIsDropped | assets/js/story-details.js:92-100 | A "$" without "M" is dropped from the final text. |
| StoryDetails.PercentDropsPlus | assets/js/story-details.js:92-100 | "n%+" ends as "n%". |
| StoryDetails.ButtonPlatform | assets/js/story-details.js:176-177 | "linkedin" wins, then "twitter", and otherwise the platform is e-mail (each as an if-and-only-if). |
| StoryDetails.ButtonPlatformOfName | assets/js/story-details.js:176-177 | A button carrying a platform's class shares on that platform. |
| StoryDetails.ShareDescription | assets/js/story-details.js:203 | The description is the first 200 characters of the lead followed by "...". |
| StoryDetails.ShareUrl | assets/js/story-details.js:207-217 | LinkedIn gets its share address with the encoded page address. Twitter adds the encoded title as `text`. E-mail gets the encoded title as subject and, as body, the encoded description, a blank line and the page address. |
| StoryDetails.MailBody | assets/js/story-details.js:203-215 | The e-mail body starts with the shortened lead and ends with a blank line and the page address. |
| StoryDetails.ShareUrlFields | assets/js/story-details.js:207-217 | Each link is its base followed by the query fields joined with `&`. Since the encoding never yields `&`, splitting the query at `&` gives each encoded field back. |
| StoryDetails.PlatformNamed | assets/js/story-details.js:207-217 | The platform a name selects, the inverse of the platform's name. Any other name selects none. |
| StoryDetails.HandleShareNamed | assets/js/story-details.js:200-229 | An unknown platform name opens nothing but still shows "Shared via" with the name. A known one behaves as HandleShare. |
| StoryDetails.ShareSuccessMessage | assets/js/story-details.js:232-252 | No contract of its own. ShareSuccessMessages states the three texts. |
| StoryDetails.ShareSuccessMessages | assets/js/story-details.js:228 | The messages are "Shared via Linkedin!", "Shared via Twitter!" and "Shared via Email!". |
| StoryDetails.HandleShare | assets/js/story-details.js:200-229 | E-mail navigates and the others open a pop-up, to the platform's non-empty link, with its success message. |
| TheChallenge.AnimateAwardCounter | assets/js/the-challenge.js:35-60 | There is no animation exactly when the target is NaN or 0, or the number element is missing. Otherwise it counts to the parsed target. |
| TheChallenge.AwardCounterReadsItsTarget | assets/js/the-challenge.js:35-60 | A non-zero written target is counted to exactly. |
| TheChallenge.DotRule | assets/js/the-challenge.js:95-104 | A dot is never both active and completed. |
| TheChallenge.ActiveDotIsTheStage | assets/js/the-challenge.js:95-104 | The active classes mark exactly the stage's dot. |
| TheChallenge.StageWithinDots | assets/js/the-challenge.js:95-104 | For a stage within the dots, one dot is active, every earlier one is completed and every later one is neither. |
| TheChallenge.StageOutsideDots | assets/js/the-challenge.js:95-104 | A NaN stage clears every dot, and a stage past the end completes them all, with none active. |
| TheChallenge.ProgressPercent | assets/js/the-challenge.js:91 | The width is stage × 20 %, and NaN for a NaN stage. |
| TheChallenge.ProgressBounds | assets/js/the-challenge.js:91 | The bar is full exactly at stage 5 and empty exactly at stage 0. |
| TheChallenge.JourneyProgress.constructor | assets/js/the-challenge.js:90 | The bar starts without a width. |
| TheChallenge.JourneyProgress.UpdateProgress | assets/js/the-challenge.js:90-105 | The width and every dot's classes are set to those of the stage. |
| TheChallenge.RevealDelay | assets/js/the-challenge.js:122 | The delay is stage × 100 ms, and 0 for NaN or negative stages. |
| TheChallenge.JourneyCard.constructor | assets/js/the-challenge.js:109-120 | A card starts unmarked, with nothing scheduled. |
| TheChallenge.JourneyCard.IntersectAsWritten | assets/js/the-challenge.js:121-134 | As written, every intersection before the mark schedules another reveal. |
| TheChallenge.JourneyCard.Intersect | assets/js/the-challenge.js:121-134 | The corrected intersection marks the card and schedules at most one reveal ever. |
| TheChallenge.JourneyCard.Reveal | assets/js/the-challenge.js:123-134 | A scheduled reveal runs, marks the card and keeps the at-most-once invariant. |
| TheChallenge.TwoIntersectionsAsWritten | assets/js/the-challenge.js:121-134 | As written, two intersections before the delay reveal the card twice. |
| TheChallenge.TwoIntersections | assets/js/the-challenge.js:121-134 | With the correction the same intersections reveal it once. |
| Stories.Slideshow.constructor | assets/js/stories.js:324-357 | Without slides nothing starts. Otherwise slide 0 is shown: its phase 2 is pending, and every slide is faded. |
| Stories.Slideshow.ShowSlide | assets/js/stories.js:331-336 | Phase 1 takes `active` off every slide and fades every slide, then schedules phase 2. |
| Stories.Slideshow.SettleSlide | assets/js/stories.js:339-342 | Phase 2 makes the chosen slide active and unfaded, and changes no other slide. |
| Stories.Slideshow.NextSlide | assets/js/stories.js:345-348 | Moves to the next slide, wrapping to the first, and shows it. |
| Stories.NoSlidesNeverStart | assets/js/stories.js:326 | A page without slides never starts the slideshow. |
| Stories.ShowAndSettle | assets/js/stories.js:331-343 | Both phases leave exactly the chosen slide active and it alone unfaded. |

## Left out

- Date objects: only the component tuple passed to `new Date` is modelled. `toISOString`, the iCalendar date formatter of the detail page and the `Date.now()` UID are parameters of the model.
- Calendar.FormatDateForCalendar prints the tuple's components as they are. JavaScript's `Date` first rolls an out-of-range component over (day 32 of October becomes 1 November), and that rollover is not modelled. The round trip is stated only for real dates (`Normal`), where there is nothing to roll over.
- Calendar.SafeStem counts a JavaScript string in Unicode code points (`char`), not UTF-16 code units. A character outside the Basic Multilingual Plane becomes two dashes in the browser and one in the model.
- StoryDetails.ShareDescription counts Unicode code points too, whereas `substring(0, 200)` counts UTF-16 code units. For a lead with characters outside the Basic Multilingual Plane the browser keeps fewer characters, and can cut a surrogate pair in half.
- JsRuntime.UpperFirst capitalises ASCII letters only, through JsRuntime.UpperAscii. `toUpperCase` also maps other letters (such as "é" to "É" or "ß" to "SS"), so Calendar.FormatCategory differs from the source for categories starting with a non-ASCII letter.
- Mentor.CounterEndsOnStat and StoryDetails.StatEndsOnOwnText use unbounded integers. JavaScript numbers are doubles, so above 2^53 the parsed value is rounded, and from 10^21 on `toString` prints an exponent form. For such stats the source does not end on its own text.
- ContactApi.HtmlSpecialChars works on characters and assumes valid text. On invalid UTF-8 PHP's `htmlspecialchars` returns "" before PHP 8.1 and substitutes U+FFFD from 8.1 on; neither is modelled.
- StoryDetails.ShareUrlFields assumes, as a requirement, that `encodeURIComponent` never yields `&`. This holds for the real function, which the model keeps as a parameter.
- `encodeURIComponent` and `decodeURIComponent` are function parameters, and their escaping is not modelled. The decoder is partial: `None` stands for the URIError it throws on a malformed escape.
- The Outlook calendar link in `assets/js/events.js:543-559` is left out. It repeats the Google link's reading of the card with a different URL layout.
- Lookups in JavaScript objects by keys such as "constructor" that hit the object prototype are left out. Only the tables' own keys are modelled.
- EventDetails.GetUrlParameter takes the parameter name literally. Names holding regular-expression metacharacters are not modelled.
- The intermediate frames of the number counters use floating point (`Math.floor` of a float increment) and are not modelled. Only where each counter ends, or that it never ends, is modelled.
- TheChallenge.ProgressPercent uses exact rational arithmetic instead of binary floating point.
- StudentImpact.ScrollUI computes the progress as an exact rational, where the source computes a binary double and writes it into the style as a percentage string (such as "66.66666666666667%"). The rounding and the string are not modelled.
- TheChallenge.AnimateAwardCounter does not model the final `toLocaleString` formatting. The `counted` guard of `initAwardCounters` is not modelled either, since its only call is commented out in `assets/js/the-challenge.js:4`.
- The browser clamps scroll positions. This is modelled as MainSite.ClampScroll and is not part of the scripts themselves.
- Timers, intervals and observers are modelled as explicit methods that the caller invokes in the order the events happen. Real time, animation frames, parallax, hover styling and other DOM choreography are left out.
- In the mentor form, resetting the form and scrolling are left out, as is displaying the alert (its text is Mentor.SubmitCheck.Alert). The `fetch` block of the source is commented out.
- The `console.log` calls and the `error_log` calls of `api/contact.php` (lines 90 and 124) are left out.
- PHP's `filter_var(FILTER_VALIDATE_EMAIL)` and `mail()` are parameters: a predicate, and a boolean saying whether the notification was accepted.
- EventsApi.PhpIntCast: the model of PHP's `(int)` cast reads leading whitespace, a sign and decimal digits. Exponent and hexadecimal forms are not modelled.
- EventsApi.EventsEndpoint.GetEventById compares ids as integers. PHP's `$event['id'] == $id` is a loose comparison, so a string argument such as " 1" or "1.0" would also match id 1 under PHP's numeric-string rules. The model takes the argument as an integer already.
- EventsApi.SortByDate is an insertion sort standing in for `usort`. The model shows the result is date-ordered and a permutation; the order of equal dates is not claimed to match PHP's.
- The `strtotime` comparisons in `api/events.php` are modelled as integer day numbers.
- The calendar file follows RFC 5545 only as far as the source does: the line folding of section 3.1 and the TEXT escaping of section 3.3.11 (commas, semicolons, backslashes) are not performed by the source and are not modelled.
- ContactApi.CollectErrors reports errors as an enumeration whose `Text()` gives the messages. The JSON encoding of replies is not modelled.

## Findings

| source | as written | input that shows it | evidently intended | confidence | as-written member | corrected member |
|---|---|---|---|---|---|---|
| assets/js/event-details.js:163-174 | `addToGoogleCalendar` parses `event.dateText`, a field the event object does not have, so the month text is undefined and the link's dates fall in January of 2026 | the open house on Oct 16, 6:00 PM - 8:00 PM gets a link starting on January 16 2026 | the event's own month (`monthText`), as `downloadICS` uses | high, not executed | EventDetails.GoogleAsWrittenMisdatesOpenHouse | EventDetails.GoogleTimes |
| assets/js/the-challenge.js:121-134 | the card gets its `animated` class only inside the delayed callback, so the guard does not stop a second intersection within the delay | a card intersecting twice within its `stage × 100` ms delay is revealed twice | mark the card when its reveal is scheduled, so that it is revealed once | medium, not executed | TheChallenge.TwoIntersectionsAsWritten | TheChallenge.TwoIntersections |
| assets/js/main.js:343-345 | the start timeout assigns a new interval without clearing the current one | a click on next within the first 2 s starts one interval, then the timeout starts a second, and the first can never be cleared | restart the rotation through `resetAutoRotate`, keeping a single interval | medium, not executed | MainSite.EarlyClickLeavesTwoIntervals | MainSite.EarlyClickCorrected |
| assets/js/mentor.js:203-212 | the label's handler toggles the nested checkbox, and the browser's label activation toggles it again | a click on the label's text leaves an unchecked box unchecked | toggle once per click, either by the handler or by the label activation | medium, not executed | Mentor.LabelTextClickAsWritten | Mentor.CheckboxLabel.Click |

=== FILE: about_rotators.dfy ===
/** The three index rotators of the about page: the founders' testimonials,
    the student-run programme carousel and the phone mock-up videos. Each
    keeps a current index and marks exactly the item at that index (and the
    matching dot, indicator or info card) active; interval timers are
    explicit tick methods and an "armed" flag. */
module AboutRotators {
  import opened JsRuntime

  /** Number of testimonials the rotation assumes. */
  const TotalTestimonials: int := 2

  /** `(i + 1) % n` with the JavaScript remainder. */
  function NextIndex(i: int, n: int): (r: int)
    requires n > 0
    ensures 0 <= i < n ==> 0 <= r < n
    ensures 0 <= i < n - 1 ==> r == i + 1
    ensures i == n - 1 ==> r == 0
  {
    JsRem(i + 1, n)
  }

  /** `k` successive advances from `i`. */
  function Advance(i: int, k: nat, n: int): int
    requires n > 0
  {
    if k == 0 then i else NextIndex(Advance(i, k - 1, n), n)
  }

  /** From an index in range, `k` advances land on `(i + k) mod n`. */
  lemma {:induction false} AdvanceIsModular(i: int, k: nat, n: int)
    requires n > 0 && 0 <= i < n
    ensures Advance(i, k, n) == (i + k) % n
  {
    if k == 0 {
      ModUnique(i, n, 0, i);
    } else {
      AdvanceIsModular(i, k - 1, n);
      var r := (i + k - 1) % n;
      ModSucc(i + k - 1, n);
      if r == n - 1 {
        ModUnique(r + 1, n, 1, 0);
      } else {
        ModUnique(r + 1, n, 0, r + 1);
      }
    }
  }

  /** A full round of `n` advances comes back to the start, and no shorter
      round does: every item is shown once per cycle. */
  lemma FullCycle(i: int, k: nat, n: int)
    requires n > 0 && 0 <= i < n
    ensures Advance(i, n, n) == i
    ensures 0 < k < n ==> Advance(i, k, n) != i
  {
    AdvanceIsModular(i, n, n);
    ModUnique(i + n, n, 1, i);
    AdvanceIsModular(i, k, n);
    if 0 < k < n {
      if i + k < n {
        ModUnique(i + k, n, 0, i + k);
      } else {
        ModUnique(i + k, n, 1, i + k - n);
      }
    }
  }

  /** The flags `toggle('active', i === index)` leaves on a list. */
  function OnlyAt(n: nat, index: int): (flags: seq<bool>)
    ensures |flags| == n
  {
    seq(n, i => i == index)
  }

  function CountTrue(flags: seq<bool>): nat {
    if flags == [] then 0 else (if flags[|flags| - 1] then 1 else 0) + CountTrue(flags[..|flags| - 1])
  }

  /** Exactly one item is marked when the index is in range, none otherwise. */
  lemma {:induction false} OnlyAtCount(n: nat, index: int)
    ensures CountTrue(OnlyAt(n, index)) == if 0 <= index < n then 1 else 0
  {
    if n > 0 {
      OnlyAtCount(n - 1, index);
      assert OnlyAt(n, index)[..n - 1] == OnlyAt(n - 1, index);
    }
  }

  /** The `forEach` that toggles 'active' on every element of a list. */
  method MarkOnly(a: array<bool>, index: int)
    modifies a
    ensures a[..] == OnlyAt(a.Length, index)
  {
    var i := 0;
    while i < a.Length
      invariant 0 <= i <= a.Length
      invariant forall j :: 0 <= j < i ==> a[j] == (j == index)
    {
      a[i] := i == index;
      i := i + 1;
    }
  }

  // ---------------------------------------------------------------------
  // Testimonials
  // ---------------------------------------------------------------------

  class Testimonials {
    /** Visible and 'active' flag of each testimonial item. */
    const items: array<bool>
    /** 'active' flag of each dot. */
    const dots: array<bool>
    var current: int
    /** True while the 5000 ms interval is running. */
    var autoplayArmed: bool

    ghost predicate Valid()
      reads this
    {
      items != dots
    }

    /** Module-level initial values followed by `initTestimonials`. */
    constructor (items: array<bool>, dots: array<bool>)
      requires items != dots
      modifies items, dots
      ensures Valid() && this.items == items && this.dots == dots
      ensures autoplayArmed
      ensures items.Length > 0 ==> current == 0 && items[..] == OnlyAt(items.Length, 0) && dots[..] == OnlyAt(dots.Length, 0)
      ensures items.Length == 0 ==> current == 0 && unchanged(items) && unchanged(dots)
    {
      this.items := items;
      this.dots := dots;
      current := 0;
      autoplayArmed := false;
      new;
      ShowTestimonial(0);
      autoplayArmed := true;
    }

    /** `showTestimonial`: with no items nothing changes; otherwise the item
        and the dot at `index` become active, all others inactive, and the
        index becomes current (even when it is out of range). */
    method ShowTestimonial(index: int)
      requires Valid()
      modifies items, dots, this
      ensures Valid() && autoplayArmed == old(autoplayArmed)
      ensures items.Length == 0 ==> current == old(current) && unchanged(items) && unchanged(dots)
      ensures items.Length > 0 ==>
        current == index && items[..] == OnlyAt(items.Length, index) && dots[..] == OnlyAt(dots.Length, index)
    {
      if items.Length == 0 {
        return;
      }
      MarkOnly(items, index);
      MarkOnly(dots, index);
      current := index;
    }

    /** `nextTestimonial`: shows `(current + 1) % 2`. */
    method NextTestimonial()
      requires Valid()
      modifies items, dots, this
      ensures Valid() && autoplayArmed == old(autoplayArmed)
      ensures items.Length == 0 ==> current == old(current) && unchanged(items) && unchanged(dots)
      ensures items.Length > 0 ==>
        var next := NextIndex(old(current), TotalTestimonials);
        current == next && items[..] == OnlyAt(items.Length, next) && dots[..] == OnlyAt(dots.Length, next)
    {
      ShowTestimonial(NextIndex(current, TotalTestimonials));
    }

    /** A dot click: show that testimonial and restart the interval. */
    method DotClicked(index: int)
      requires Valid() && 0 <= index < dots.Length
      modifies items, dots, this
      ensures Valid() && autoplayArmed
      ensures items.Length > 0 ==>
        current == index && items[..] == OnlyAt(items.Length, index) && dots[..] == OnlyAt(dots.Length, index)
    {
      autoplayArmed := false;
      ShowTestimonial(index);
      autoplayArmed := true;
    }

    /** One firing of the interval. */
    method AutoplayTick()
      requires Valid() && autoplayArmed
      modifies items, dots, this
      ensures Valid() && autoplayArmed
      ensures items.Length == 0 ==> current == old(current) && unchanged(items) && unchanged(dots)
      ensures items.Length > 0 ==>
        var next := NextIndex(old(current), TotalTestimonials);
        current == next && items[..] == OnlyAt(items.Length, next) && dots[..] == OnlyAt(dots.Length, next)
    {
      NextTestimonial();
    }
  }

  // ---------------------------------------------------------------------
  // Student-run programme carousel
  // ---------------------------------------------------------------------

  /** `goToSlide`'s index correction: below range goes to the last slide,
      at or above range to the first; not a modulo. */
  function WrapClamp(index: int, total: int): int
    requires total > 0
  {
    if index < 0 then total - 1 else if index >= total then 0 else index
  }

  /** The corrected index is always in range; an in-range index is kept, and
      one step past either end wraps round like a modulo would. */
  lemma WrapClampInRange(index: int, total: int)
    requires total > 0
    ensures 0 <= WrapClamp(index, total) < total
    ensures 0 <= index < total ==> WrapClamp(index, total) == index
    ensures -1 <= index <= total ==> WrapClamp(index, total) == JsRem(index + total, total)
  {
    if index == -1 {
      ModUnique(index + total, total, 0, total - 1);
    } else if index == total {
      ModUnique(index + total, total, 2, 0);
    } else if 0 <= index < total {
      ModUnique(index + total, total, 1, index);
    }
  }

  /** Farther out it is not a modulo: two past the end gives slide 0. */
  lemma WrapClampIsNotModulo()
    ensures WrapClamp(4, 3) == 0 && 4 % 3 == 1
    ensures WrapClamp(-2, 3) == 2 && -2 % 3 == 1
  {
  }

  class StudentCarousel {
    /** 'active' flag of each slide. */
    const slides: array<bool>
    /** 'active' flag of each indicator button, one per slide. */
    const indicators: array<bool>
    var current: int
    /** The track's `translateX`, in percent. */
    var translatePercent: int
    /** True while the 4000 ms interval is running. */
    var autoplayArmed: bool

    ghost predicate Valid()
      reads this
    {
      && slides.Length > 0 && indicators.Length == slides.Length && slides != indicators
      && 0 <= current < slides.Length
    }

    /** `initStudentCarousel` on a page that has a track and at least one
        slide: the indicators are created with the first active, and the
        interval is started. */
    constructor (slides: array<bool>, indicators: array<bool>)
      requires slides.Length > 0 && indicators.Length == slides.Length && slides != indicators
      modifies indicators
      ensures Valid() && this.slides == slides && this.indicators == indicators
      ensures current == 0 && translatePercent == 0 && autoplayArmed && indicators[..] == OnlyAt(indicators.Length, 0)
    {
      this.slides := slides;
      this.indicators := indicators;
      current := 0;
      translatePercent := 0;
      autoplayArmed := false;
      new;
      MarkOnly(indicators, 0);
      autoplayArmed := true;
    }

    /** `goToSlide`: corrects the index, marks that slide and indicator,
        moves the track and restarts the interval. */
    method GoToSlide(index: int)
      requires Valid()
      modifies this, slides, indicators
      ensures Valid()
      ensures current == WrapClamp(index, slides.Length) && 0 <= current < slides.Length
      ensures slides[..] == OnlyAt(slides.Length, current) && indicators[..] == OnlyAt(indicators.Length, current)
      ensures translatePercent == -100 * current && autoplayArmed
    {
      var i := WrapClamp(index, slides.Length);
      WrapClampInRange(index, slides.Length);
      current := i;
      MarkOnly(slides, i);
      translatePercent := -100 * i;
      MarkOnly(indicators, i);
      autoplayArmed := true;
    }

    /** `nextSlide`: the following slide, the first after the last. */
    method NextSlide()
      requires Valid()
      modifies this, slides, indicators
      ensures Valid() && autoplayArmed
      ensures current == NextIndex(old(current), slides.Length)
      ensures slides[..] == OnlyAt(slides.Length, current) && indicators[..] == OnlyAt(indicators.Length, current)
      ensures translatePercent == -100 * current
    {
      WrapClampInRange(current + 1, slides.Length);
      GoToSlide(current + 1);
    }

    /** `prevSlide`: the preceding slide, the last before the first. */
    method PrevSlide()
      requires Valid()
      modifies this, slides, indicators
      ensures Valid() && autoplayArmed
      ensures old(current) > 0 ==> current == old(current) - 1
      ensures old(current) == 0 ==> current == slides.Length - 1
      ensures slides[..] == OnlyAt(slides.Length, current) && indicators[..] == OnlyAt(indicators.Length, current)
      ensures translatePercent == -100 * current
    {
      GoToSlide(current - 1);
    }

    /** The keyboard listener: ArrowLeft and ArrowRight only. */
    method KeyDown(key: string)
      requires Valid()
      modifies this, slides, indicators
      ensures Valid()
      ensures key == "ArrowLeft" ==> current == WrapClamp(old(current) - 1, slides.Length) && autoplayArmed
      ensures key == "ArrowRight" ==> current == NextIndex(old(current), slides.Length) && autoplayArmed
      ensures key == "ArrowLeft" || key == "ArrowRight" ==>
        slides[..] == OnlyAt(slides.Length, current) && indicators[..] == OnlyAt(indicators.Length, current)
        && translatePercent == -100 * current
      ensures key != "ArrowLeft" && key != "ArrowRight" ==>
        current == old(current) && autoplayArmed == old(autoplayArmed) && translatePercent == old(translatePercent)
        && unchanged(slides) && unchanged(indicators)
    {
      if key == "ArrowLeft" {
        PrevSlide();
      }
      if key == "ArrowRight" {
        NextSlide();
      }
    }

    /** Hovering the viewport stops the interval. */
    method MouseEnter()
      requires Valid()
      modifies this
      ensures Valid() && !autoplayArmed && current == old(current) && translatePercent == old(translatePercent)
    {
      autoplayArmed := false;
    }

    /** Leaving the viewport starts it again. */
    method MouseLeave()
      requires Valid()
      modifies this
      ensures Valid() && autoplayArmed && current == old(current) && translatePercent == old(translatePercent)
    {
      autoplayArmed := true;
    }

    /** One firing of the interval: `nextSlide`. */
    method AutoplayTick()
      requires Valid() && autoplayArmed
      modifies this, slides, indicators
      ensures Valid() && autoplayArmed
      ensures current == NextIndex(old(current), slides.Length)
      ensures slides[..] == OnlyAt(slides.Length, current) && indicators[..] == OnlyAt(indicators.Length, current)
      ensures translatePercent == -100 * current
    {
      NextSlide();
    }
  }

  // ---------------------------------------------------------------------
  // Phone mock-up videos
  // ---------------------------------------------------------------------

  class PhoneVideos {
    /** 'active' (and playing) flag of each video item. */
    const videos: array<bool>
    /** 'active' flag of each info card; there may be more or fewer cards than videos. */
    const cards: array<bool>
    var current: int
    /** True while the 5000 ms interval is running. */
    var autoplayArmed: bool

    ghost predicate Valid()
      reads this
    {
      videos.Length > 0 && videos != cards
    }

    /** `initPhoneMockupVideos` on a page with at least one video. */
    constructor (videos: array<bool>, cards: array<bool>)
      requires videos.Length > 0 && videos != cards
      modifies videos, cards
      ensures Valid() && this.videos == videos && this.cards == cards
      ensures current == 0 && autoplayArmed
      ensures videos[..] == OnlyAt(videos.Length, 0) && cards[..] == OnlyAt(cards.Length, 0)
    {
      this.videos := videos;
      this.cards := cards;
      current := 0;
      autoplayArmed := false;
      new;
      ShowVideo(0);
      autoplayArmed := true;
    }

    /** `showVideo`: plays the video at `index`, pauses the rest, marks the
        matching info card. */
    method ShowVideo(index: int)
      requires Valid()
      modifies this, videos, cards
      ensures Valid() && autoplayArmed == old(autoplayArmed)
      ensures current == index
      ensures videos[..] == OnlyAt(videos.Length, index) && cards[..] == OnlyAt(cards.Length, index)
    {
      MarkOnly(videos, index);
      MarkOnly(cards, index);
      current := index;
    }

    /** `nextVideo`: `(current + 1) % total`. */
    method NextVideo()
      requires Valid()
      modifies this, videos, cards
      ensures Valid() && autoplayArmed == old(autoplayArmed)
      ensures current == NextIndex(old(current), videos.Length)
      ensures videos[..] == OnlyAt(videos.Length, current) && cards[..] == OnlyAt(cards.Length, current)
    {
      ShowVideo(NextIndex(current, videos.Length));
    }

    /** A click on an info card shows that video and restarts the interval. */
    method CardClicked(index: int)
      requires Valid() && 0 <= index < cards.Length
      modifies this, videos, cards
      ensures Valid() && autoplayArmed && current == index
      ensures videos[..] == OnlyAt(videos.Length, index) && cards[..] == OnlyAt(cards.Length, index)
    {
      ShowVideo(index);
      autoplayArmed := true;
    }

    method MouseEnter()
      requires Valid()
      modifies this
      ensures Valid() && !autoplayArmed && current == old(current)
    {
      autoplayArmed := false;
    }

    method MouseLeave()
      requires Valid()
      modifies this
      ensures Valid() && autoplayArmed && current == old(current)
    {
      autoplayArmed := true;
    }

    method AutoplayTick()
      requires Valid() && autoplayArmed
      modifies this, videos, cards
      ensures Valid() && autoplayArmed
      ensures current == NextIndex(old(current), videos.Length)
      ensures videos[..] == OnlyAt(videos.Length, current) && cards[..] == OnlyAt(cards.Length, current)
    {
      NextVideo();
    }
  }
}

=== FILE: calendar.dfy ===
/** Calendar export from the events listing: an event card's month, day and
    time texts become start and end date components, which are written in
    the local DATE-TIME form of section 3.3.5 of RFC 5545 for the Google
    Calendar link, or put into a small iCalendar file whose lines are joined
    with CRLF (section 3.1 of RFC 5545) and whose DESCRIPTION has its line
    breaks escaped (section 3.3.11 of RFC 5545). `new Date` is not modelled:
    the date is the component tuple handed to it. */
module Calendar {
  import opened JsRuntime

  datatype Clock = Clock(hours: int, minutes: int)

  /** The arguments of `new Date(year, month, day, hours, minutes)`;
      `month` counts from 0. */
  datatype DateParts = DateParts(year: int, month: int, day: int, hours: int, minutes: int)

  datatype EventTimes = EventTimes(start: DateParts, end: DateParts)

  // ---------------------------------------------------------------------
  // parseTime: the pattern (\d+):(\d+)\s*(AM|PM), case-insensitive
  // ---------------------------------------------------------------------

  /** What the pattern captures: the two digit groups and whether the
      period is PM. */
  datatype TimeMatch = TimeMatch(hourDigits: string, minuteDigits: string, pm: bool)

  /** Length of the run of `\s` characters at the start of `s`. */
  function SpaceRun(s: string): (k: nat)
    ensures k <= |s| && (forall i :: 0 <= i < k ==> IsJsSpace(s[i]))
    ensures k < |s| ==> !IsJsSpace(s[k])
  {
    if s != [] && IsJsSpace(s[0]) then 1 + SpaceRun(s[1..]) else 0
  }

  predicate IsMeridiem(a: char, b: char) {
    (UpperAscii(a) == 'A' || UpperAscii(a) == 'P') && UpperAscii(b) == 'M'
  }

  /** A match of the pattern starting exactly at `p`. Each quantifier is
      greedy and backtracking cannot help (a shorter digit run leaves a digit
      where `:`, `\s`, `A` or `P` is needed), so the match is determined by
      the maximal runs. */
  function MatchAt(s: string, p: nat): (m: Option<TimeMatch>)
    requires p <= |s|
    ensures m.Some? ==> |m.value.hourDigits| > 0 && |m.value.minuteDigits| > 0
    ensures m.Some? ==> Digits10(m.value.hourDigits) && Digits10(m.value.minuteDigits)
    ensures m.Some? ==> p + |m.value.hourDigits| < |s| && s[p + |m.value.hourDigits|] == ':'
  {
    MatchPrefix(s[p..])
  }

  /** The match at the start of `t`: a digit run, a colon, then the rest of
      the pattern. */
  function MatchPrefix(t: string): (m: Option<TimeMatch>)
    ensures m.Some? ==> |m.value.hourDigits| > 0 && |m.value.minuteDigits| > 0
    ensures m.Some? ==> Digits10(m.value.hourDigits) && Digits10(m.value.minuteDigits)
    ensures m.Some? ==> |m.value.hourDigits| < |t| && t[|m.value.hourDigits|] == ':'
  {
    var k1 := DigitRun(t, 10);
    if k1 == 0 || k1 >= |t| || t[k1] != ':' then None
    else
      match MinutesAndPeriod(t[k1 + 1..])
      case None => None
      case Some(rest) =>
        DigitPrefix(t);
        Some(TimeMatch(t[..k1], rest.0, rest.1))
  }

  /** What follows the colon: a digit run, `\s*`, then `AM` or `PM` in any
      case. Gives the minute digits and whether the period is PM. */
  function MinutesAndPeriod(u: string): (r: Option<(string, bool)>)
    ensures r.Some? ==> |r.value.0| > 0 && Digits10(r.value.0)
  {
    var k2 := DigitRun(u, 10);
    var w := k2 + SpaceRun(u[k2..]);
    if k2 == 0 || w + 2 > |u| || !IsMeridiem(u[w], u[w + 1]) then None
    else
      DigitPrefix(u);
      Some((u[..k2], UpperAscii(u[w]) == 'P'))
  }

  /** Every character is a decimal digit. */
  predicate Digits10(t: string) {
    forall i :: 0 <= i < |t| ==> IsRadixDigit(t[i], 10)
  }

  /** The leading digit run is all digits. */
  lemma DigitPrefix(t: string)
    ensures Digits10(t[..DigitRun(t, 10)])
  {
    var k := DigitRun(t, 10);
    assert forall i :: 0 <= i < k ==> t[..k][i] == t[i];
  }

  /** `String.prototype.match` without the global flag: the leftmost match. */
  function FirstMatchFrom(s: string, p: nat): (r: Option<nat>)
    requires p <= |s|
    ensures r.Some? ==> p <= r.value <= |s| && MatchAt(s, r.value).Some?
    ensures r.Some? ==> forall j :: p <= j < r.value ==> MatchAt(s, j).None?
    ensures r.None? ==> forall j :: p <= j <= |s| ==> MatchAt(s, j).None?
    decreases |s| - p
  {
    if MatchAt(s, p).Some? then Some(p)
    else if p == |s| then None
    else
      var r := FirstMatchFrom(s, p + 1);
      NoMatchBefore(s, p, if r.Some? then r.value else |s| + 1);
      r
  }

  /** No match at `p` and none from `p + 1` up to `e` is none from `p`. */
  lemma NoMatchBefore(s: string, p: nat, e: nat)
    requires p < |s| && e <= |s| + 1 && MatchAt(s, p).None?
    requires forall j :: p + 1 <= j < e ==> MatchAt(s, j).None?
    ensures forall j :: p <= j < e ==> MatchAt(s, j).None?
  {
  }

  /** The conversion of `parseTime`: 12 PM stays 12, 12 AM is 0, other PM
      hours gain 12, other AM hours are kept. */
  function To24(hours: int, pm: bool): (h: int)
    ensures 1 <= hours <= 12 ==> 0 <= h <= 23 && (h >= 12 <==> pm) && h % 12 == hours % 12
  {
    if pm && hours != 12 then hours + 12
    else if !pm && hours == 12 then 0
    else hours
  }

  /** `parseTime`: 9:00 when the text has no match. */
  function ParseTime(s: string): Clock {
    var pos := FirstMatchFrom(s, 0);
    if pos.None? then Clock(9, 0)
    else
      var m := MatchAt(s, pos.value).value;
      Clock(To24(ValueIn(m.hourDigits, 10), m.pm), ValueIn(m.minuteDigits, 10))
  }

  /** On the twelve-hour clock the conversion is a bijection onto 0..23 that
      puts AM before noon and PM after. */
  lemma To24Bijection(h1: int, pm1: bool, h2: int, pm2: bool)
    requires 1 <= h1 <= 12 && 1 <= h2 <= 12
    ensures 0 <= To24(h1, pm1) <= 23
    ensures To24(h1, pm1) < 12 <==> !pm1
    ensures To24(h1, pm1) == To24(h2, pm2) ==> h1 == h2 && pm1 == pm2
  {
  }

  /** Two-digit minutes, as the site's cards print them. */
  function TwoDigits(n: nat): (s: string)
    ensures n < 100 ==> |s| == 2
    ensures forall i :: 0 <= i < |s| ==> IsRadixDigit(s[i], 10)
  {
    NatToStringLength(n);
    PadStart(NatToString(n), 2, '0')
  }

  lemma ValueOfTwoDigits(n: nat)
    ensures ValueIn(TwoDigits(n), 10) == n
  {
    var d := NatToString(n);
    if |d| < 2 {
      assert TwoDigits(n) == Repeat('0', 2 - |d|) + d;
      ValueInLeadingZeros(2 - |d|, d);
    }
  }

  /** A clock time written the way the cards write it, e.g. "6:00 PM". */
  function Display12(hours: nat, minutes: nat, pm: bool): string {
    NatToString(hours) + ":" + TwoDigits(minutes) + " " + (if pm then "PM" else "AM")
  }

  /** The pattern matches a displayed time at its first character and
      captures its hour, its minutes and its period. */
  lemma MatchAtDisplay12(hours: nat, minutes: nat, pm: bool)
    ensures MatchAt(Display12(hours, minutes, pm), 0)
         == Some(TimeMatch(NatToString(hours), TwoDigits(minutes), pm))
  {
    var h := NatToString(hours);
    var m := TwoDigits(minutes);
    var x := if pm then "PM" else "AM";
    Display12Nested(hours, minutes, pm);
    MeridiemOf(pm);
    MatchAtOfShape(h, m, x, Display12(hours, minutes, pm));
  }

  lemma Display12Nested(hours: nat, minutes: nat, pm: bool)
    ensures Display12(hours, minutes, pm)
         == NatToString(hours) + (":" + (TwoDigits(minutes) + (" " + (if pm then "PM" else "AM"))))
  {
  }

  lemma MeridiemOf(pm: bool)
    ensures var x := if pm then "PM" else "AM";
      |x| == 2 && IsMeridiem(x[0], x[1]) && (UpperAscii(x[0]) == 'P' <==> pm)
  {
  }

  lemma MatchAtOfShape(h: string, m: string, x: string, s: string)
    requires |h| > 0 && Digits10(h)
    requires |m| > 0 && Digits10(m)
    requires |x| == 2 && IsMeridiem(x[0], x[1])
    requires s == h + (":" + (m + (" " + x)))
    ensures MatchAt(s, 0) == Some(TimeMatch(h, m, UpperAscii(x[0]) == 'P'))
  {
    assert s[0..] == s;
    MinutesAndPeriodOfShape(m, x);
    MatchPrefixOfShape(h, m + (" " + x), s);
  }

  lemma MatchPrefixOfShape(h: string, u: string, t: string)
    requires |h| > 0 && Digits10(h)
    requires t == h + (":" + u)
    requires MinutesAndPeriod(u).Some?
    ensures MatchPrefix(t) == Some(TimeMatch(h, MinutesAndPeriod(u).value.0, MinutesAndPeriod(u).value.1))
  {
    DigitRunOfDigitsThen(h, ":" + u);
    assert t[|h|] == ':' && t[|h| + 1..] == u && t[..|h|] == h;
  }

  lemma MinutesAndPeriodOfShape(m: string, x: string)
    requires |m| > 0 && Digits10(m)
    requires |x| == 2 && IsMeridiem(x[0], x[1])
    ensures MinutesAndPeriod(m + (" " + x)) == Some((m, UpperAscii(x[0]) == 'P'))
  {
    var u := m + (" " + x);
    DigitRunOfDigitsThen(m, " " + x);
    assert u[|m|..] == " " + x;
    SpaceThenMeridiem(x);
    var w := |m| + 1;
    assert u[w] == x[0] && u[w + 1] == x[1];
    assert u[..|m|] == m;
  }

  /** One space before the period. */
  lemma SpaceThenMeridiem(x: string)
    requires |x| == 2 && IsMeridiem(x[0], x[1])
    ensures SpaceRun(" " + x) == 1
  {
    var t := " " + x;
    assert t[1..] == x;
    assert !IsJsSpace(x[0]);
  }

  /** `parseTime` reads a card's time back into 24-hour components. */
  lemma ParseTimeOfDisplay12(hours: nat, minutes: nat, pm: bool)
    requires 1 <= hours <= 12 && minutes <= 59
    ensures ParseTime(Display12(hours, minutes, pm)) == Clock(To24(hours, pm), minutes)
  {
    MatchAtDisplay12(hours, minutes, pm);
    ValueOfTwoDigits(minutes);
  }

  /** Text without a colon never matches: the time defaults to 9:00. */
  lemma ParseTimeWithoutColon(s: string)
    requires NoColon(s)
    ensures ParseTime(s) == Clock(9, 0)
  {
  }

  // ---------------------------------------------------------------------
  // Month, day, year and the time range
  // ---------------------------------------------------------------------

  const MonthNames: seq<string> := ["Jan", "Feb", "Mar", "Apr", "May", "Jun", "Jul", "Aug", "Sep", "Oct", "Nov", "Dec"]

  const MonthTable: map<string, int> :=
    map["Jan" := 0, "Feb" := 1, "Mar" := 2, "Apr" := 3, "May" := 4, "Jun" := 5,
        "Jul" := 6, "Aug" := 7, "Sep" := 8, "Oct" := 9, "Nov" := 10, "Dec" := 11]

  /** `months[monthText] || 0`: an unknown name is January. */
  function MonthIndex(monthText: string): (m: int)
    ensures 0 <= m <= 11
    ensures monthText !in MonthTable ==> m == 0
  {
    if monthText in MonthTable then MonthTable[monthText] else 0
  }

  /** The table inverts the list of abbreviations. */
  lemma MonthIndexOfName(i: int)
    requires 0 <= i < 12
    ensures MonthIndex(MonthNames[i]) == i
  {
  }

  lemma MonthIndexRange(monthText: string)
    ensures 0 <= MonthIndex(monthText) <= 11
    ensures monthText !in MonthNames ==> MonthIndex(monthText) == 0
  {
  }

  /** `parseInt(dayText) || 1`: NaN and 0 give 1. */
  function DayOf(dayText: string): (d: int)
    ensures d != 0
  {
    var v := ParseInt(dayText);
    if v.None? || v.value == 0 then 1 else v.value
  }

  lemma DayOfNumber(d: int)
    ensures DayOf(IntToString(d)) == if d == 0 then 1 else d
  {
    ParseIntOfIntToString(d);
  }

  /** The listing's year rule: January to October are 2025, November and
      December 2026. */
  function CardYear(month: int): (y: int)
    ensures y == 2025 || y == 2026
  {
    if month < 10 then 2025 else 2026
  }

  /** The split of the time text on " - " with the trimmed halves, each
      defaulting when missing or blank. */
  function TimeRange(timeText: string): (r: (string, string))
    ensures r.0 != "" && r.1 != ""
  {
    var parts := Split(timeText, " - ");
    var start := Trim(parts[0]);
    var end := if |parts| > 1 then Trim(parts[1]) else "";
    (if start == "" then "9:00 AM" else start, if end == "" then "10:00 AM" else end)
  }

  predicate NoDash(s: string) {
    forall i :: 0 <= i < |s| ==> s[i] != '-'
  }

  lemma NoSeparatorWithoutDash(s: string)
    requires NoDash(s)
    ensures Split(s, " - ") == [s]
  {
    forall j | 0 <= j
      ensures !OccursAt(s, " - ", j)
    {
      if j + 3 <= |s| {
        assert s[j..j + 3][1] == s[j + 1];
      }
    }
  }

  /** "a - b" splits into its two times. */
  lemma TimeRangeOfPair(a: string, b: string)
    requires NoDash(a) && NoDash(b)
    requires a != [] && !IsJsSpace(a[0]) && !IsJsSpace(a[|a| - 1])
    requires b != [] && !IsJsSpace(b[0]) && !IsJsSpace(b[|b| - 1])
    ensures TimeRange(a + " - " + b) == (a, b)
  {
    var s := a + " - " + b;
    forall j | 0 <= j < |a|
      ensures !OccursAt(s, " - ", j)
    {
      if j + 3 <= |s| {
        assert s[j..j + 3][1] == s[j + 1];
        if j + 1 < |a| {
          assert s[j + 1] == a[j + 1];
        }
      }
    }
    assert OccursAt(s, " - ", |a|) by {
      assert s[|a|..|a| + 3] == " - ";
    }
    assert IndexOf(s, " - ") == Some(|a|);
    assert s[..|a|] == a;
    assert s[|a| + 3..] == b;
    NoSeparatorWithoutDash(b);
    assert Split(s, " - ") == [a, b];
    TrimOfNonSpaceEnds(a);
    TrimOfNonSpaceEnds(b);
  }

  /** Text with neither a dash nor a colon (such as "All Day") runs from
      9:00 to 10:00. */
  lemma TimeRangeWithoutTimes(timeText: string)
    requires NoDash(timeText) && NoColon(timeText)
    ensures var r := TimeRange(timeText);
      ParseTime(r.0) == Clock(9, 0) && ParseTime(r.1) == Clock(10, 0)
  {
    NoSeparatorWithoutDash(timeText);
    TrimKeepsNoColon(timeText);
    ParseTimeWithoutColon(Trim(timeText));
    DefaultClocks();
  }

  predicate NoColon(s: string) {
    forall i :: 0 <= i < |s| ==> s[i] != ':'
  }

  lemma TrimKeepsNoColon(s: string)
    requires NoColon(s)
    ensures NoColon(Trim(s))
  {
    var u := TrimStart(s);
    SuffixKeepsNoColon(s, u);
    PrefixKeepsNoColon(u, TrimEnd(u));
  }

  lemma SuffixKeepsNoColon(s: string, u: string)
    requires NoColon(s) && |u| <= |s| && u == s[|s| - |u|..]
    ensures NoColon(u)
  {
    forall i | 0 <= i < |u|
      ensures u[i] != ':'
    {
      assert u[i] == s[|s| - |u| + i];
    }
  }

  lemma PrefixKeepsNoColon(u: string, t: string)
    requires NoColon(u) && |t| <= |u| && t == u[..|t|]
    ensures NoColon(t)
  {
    forall i | 0 <= i < |t|
      ensures t[i] != ':'
    {
      assert t[i] == u[i];
    }
  }

  /** The fallback times read as 9:00 and 10:00. */
  lemma DefaultClocks()
    ensures ParseTime("9:00 AM") == Clock(9, 0) && ParseTime("10:00 AM") == Clock(10, 0)
  {
    NineText();
    TenText();
    ParseTimeOfDisplay12(9, 0, false);
    ParseTimeOfDisplay12(10, 0, false);
  }

  lemma NineText()
    ensures Display12(9, 0, false) == "9:00 AM"
  {
  }

  lemma TenText()
    ensures Display12(10, 0, false) == "10:00 AM"
  {
  }

  /** Start and end components from the components of the card. */
  function EventTimesFor(year: int, month: int, day: int, timeText: string): (t: EventTimes)
    ensures t.start.year == t.end.year == year && t.start.month == t.end.month == month
    ensures t.start.day == t.end.day == day
  {
    var r := TimeRange(timeText);
    var a := ParseTime(r.0);
    var b := ParseTime(r.1);
    EventTimes(DateParts(year, month, day, a.hours, a.minutes), DateParts(year, month, day, b.hours, b.minutes))
  }

  /** `parseEventDateTimeFromCard`. */
  function ParseCardDateTime(monthText: string, dayText: string, timeText: string): (t: EventTimes)
    ensures t.start.month == t.end.month == MonthIndex(monthText)
    ensures t.start.year == t.end.year == CardYear(MonthIndex(monthText))
    ensures t.start.day == t.end.day == DayOf(dayText)
  {
    var month := MonthIndex(monthText);
    EventTimesFor(CardYear(month), month, DayOf(dayText), timeText)
  }

  /** A card as the listing prints it is read back exactly. */
  lemma ParseCardDateTimeOfCard(monthIndex: int, day: nat, h1: nat, m1: nat, pm1: bool, h2: nat, m2: nat, pm2: bool)
    requires 0 <= monthIndex < 12 && day >= 1
    requires 1 <= h1 <= 12 && m1 <= 59 && 1 <= h2 <= 12 && m2 <= 59
    ensures ParseCardDateTime(MonthNames[monthIndex], NatToString(day),
                              Display12(h1, m1, pm1) + " - " + Display12(h2, m2, pm2))
         == EventTimes(DateParts(CardYear(monthIndex), monthIndex, day, To24(h1, pm1), m1),
                       DateParts(CardYear(monthIndex), monthIndex, day, To24(h2, pm2), m2))
  {
    MonthIndexOfName(monthIndex);
    DayOfNumber(day);
    Display12Shape(h1, m1, pm1);
    Display12Shape(h2, m2, pm2);
    TimeRangeOfPair(Display12(h1, m1, pm1), Display12(h2, m2, pm2));
    ParseTimeOfDisplay12(h1, m1, pm1);
    ParseTimeOfDisplay12(h2, m2, pm2);
  }

  lemma Display12Shape(hours: nat, minutes: nat, pm: bool)
    ensures var s := Display12(hours, minutes, pm);
      NoDash(s) && s != [] && !IsJsSpace(s[0]) && !IsJsSpace(s[|s| - 1])
  {
    var h := NatToString(hours);
    var s := Display12(hours, minutes, pm);
    assert IsDigit(h[0]) && s[0] == h[0];
    forall i | 0 <= i < |s|
      ensures s[i] != '-'
    {
      var m := TwoDigits(minutes);
      if i < |h| {
        assert s[i] == h[i] && IsRadixDigit(h[i], 10);
      } else if |h| < i < |h| + 1 + |m| {
        assert s[i] == m[i - |h| - 1] && IsRadixDigit(m[i - |h| - 1], 10);
      }
    }
  }

  // ---------------------------------------------------------------------
  // formatDateForCalendar: YYYYMMDD "T" HHMMSS
  // ---------------------------------------------------------------------

  /** `String(n).padStart(2, '0')`. */
  function Pad2(n: int): string {
    PadStart(IntToString(n), 2, '0')
  }

  /** `formatDateForCalendar`, applied to the components. */
  function FormatDateForCalendar(d: DateParts): string {
    IntToString(d.year) + Pad2(d.month + 1) + Pad2(d.day) + "T" + Pad2(d.hours) + Pad2(d.minutes) + "00"
  }

  /** Components a real date has, with a four-digit year. */
  predicate Normal(d: DateParts) {
    1000 <= d.year <= 9999 && 0 <= d.month <= 11 && 1 <= d.day <= 31
    && 0 <= d.hours <= 23 && 0 <= d.minutes <= 59
  }

  /** The fields of a stamp of the form YYYYMMDDTHHMM00. */
  function ParseCalendarStamp(s: string): DateParts
    requires |s| == 15
    requires forall i :: 0 <= i < 15 && i != 8 ==> IsRadixDigit(s[i], 10)
  {
    DateParts(ValueIn(s[..4], 10), ValueIn(s[4..6], 10) - 1, ValueIn(s[6..8], 10),
              ValueIn(s[9..11], 10), ValueIn(s[11..13], 10))
  }

  lemma Pad2Facts(n: int)
    requires 0 <= n < 100
    ensures Pad2(n) == TwoDigits(n) && |Pad2(n)| == 2 && ValueIn(Pad2(n), 10) == n
  {
    ValueOfTwoDigits(n);
  }

  /** For a normal date the stamp is fifteen characters with 'T' at index 8,
      digits elsewhere, and it reads back to the same components. */
  lemma FormatDateForCalendarRoundTrip(d: DateParts)
    requires Normal(d)
    ensures var s := FormatDateForCalendar(d);
      && |s| == 15 && s[8] == 'T'
      && (forall i :: 0 <= i < 15 && i != 8 ==> IsRadixDigit(s[i], 10))
      && ParseCalendarStamp(s) == d
  {
    NatToStringLength(d.year);
    Pad2Facts(d.month + 1);
    Pad2Facts(d.day);
    Pad2Facts(d.hours);
    Pad2Facts(d.minutes);
    StampLayout(IntToString(d.year), Pad2(d.month + 1), Pad2(d.day), Pad2(d.hours), Pad2(d.minutes));
  }

  /** Where each field sits in a stamp assembled from its parts. */
  lemma StampLayout(y: string, mo: string, da: string, ho: string, mi: string)
    requires |y| == 4 && |mo| == 2 && |da| == 2 && |ho| == 2 && |mi| == 2
    requires forall i :: 0 <= i < |y| ==> IsRadixDigit(y[i], 10)
    requires forall i :: 0 <= i < 2 ==> IsRadixDigit(mo[i], 10) && IsRadixDigit(da[i], 10)
    requires forall i :: 0 <= i < 2 ==> IsRadixDigit(ho[i], 10) && IsRadixDigit(mi[i], 10)
    ensures var s := y + mo + da + "T" + ho + mi + "00";
      && |s| == 15 && s[8] == 'T'
      && (forall i :: 0 <= i < 15 && i != 8 ==> IsRadixDigit(s[i], 10))
      && s[..4] == y && s[4..6] == mo && s[6..8] == da && s[9..11] == ho && s[11..13] == mi
  {
    var s := y + mo + da + "T" + ho + mi + "00";
    forall i | 0 <= i < 15 && i != 8
      ensures IsRadixDigit(s[i], 10)
    {
      if i < 4 { assert s[i] == y[i]; }
      else if i < 6 { assert s[i] == mo[i - 4]; }
      else if i < 8 { assert s[i] == da[i - 6]; }
      else if i < 11 { assert s[i] == ho[i - 9]; }
      else if i < 13 { assert s[i] == mi[i - 11]; }
      else { assert s[i] == '0'; }
    }
  }

  // ---------------------------------------------------------------------
  // Category labels
  // ---------------------------------------------------------------------

  const CategoryLabels: map<string, string> :=
    map["workshop" := "Workshop", "showcase" := "Showcase", "competition" := "Competition",
        "networking" := "Networking", "tech-talk" := "Tech Talk", "bootcamp" := "Bootcamp"]

  /** `formatCategory`: the mapped label, otherwise the key with its first
      letter upper-cased. */
  function FormatCategory(category: string): string {
    if category in CategoryLabels then CategoryLabels[category] else UpperFirst(category)
  }

  /** Only "tech-talk" needs the table: every other label is the key with an
      upper-case first letter. */
  lemma FormatCategoryIsUpperFirst(category: string)
    ensures FormatCategory(category) == if category == "tech-talk" then "Tech Talk" else UpperFirst(category)
  {
    if category in CategoryLabels && category != "tech-talk" {
      assert category[1..] == CategoryLabels[category][1..];
    }
  }

  // ---------------------------------------------------------------------
  // The iCalendar file
  // ---------------------------------------------------------------------

  /** `replace(/\n/g, '\\n')`: every line feed becomes a backslash and `n`. */
  function EscapeNewlines(s: string): (r: string)
    ensures NoLineFeed(r)
    ensures |r| >= |s|
  {
    if s == [] then []
    else
      var head := if s[0] == '\n' then "\\n" else [s[0]];
      var rest := EscapeNewlines(s[1..]);
      assert forall i :: |head| <= i < |head + rest| ==> (head + rest)[i] == rest[i - |head|];
      head + rest
  }

  /** Reading an escaped DESCRIPTION: a backslash and `n` is a line feed. */
  function UnescapeNewlines(t: string): string {
    if t == [] then []
    else if |t| >= 2 && t[0] == '\\' && t[1] == 'n' then "\n" + UnescapeNewlines(t[2..])
    else [t[0]] + UnescapeNewlines(t[1..])
  }

  /** Escaping loses nothing when the text has no backslash of its own. */
  lemma {:induction false} UnescapeEscapeNewlines(s: string)
    requires forall i :: 0 <= i < |s| ==> s[i] != '\\'
    ensures UnescapeNewlines(EscapeNewlines(s)) == s
  {
    if s != [] {
      UnescapeEscapeNewlines(s[1..]);
      var rest := EscapeNewlines(s[1..]);
      if s[0] == '\n' {
        assert EscapeNewlines(s) == "\\n" + rest;
        assert ("\\n" + rest)[2..] == rest;
      } else {
        assert EscapeNewlines(s) == [s[0]] + rest;
        assert ([s[0]] + rest)[1..] == rest;
      }
    }
  }

  /** What `getEventDetailsFromCard` finds on the card; `None` for an
      element that is missing. */
  datatype CardText = CardText(
    title: Option<string>, month: Option<string>, day: Option<string>,
    time: Option<string>, location: Option<string>, description: Option<string>)

  datatype EventDetails = EventDetails(
    title: string, monthText: string, dayText: string, timeText: string,
    location: string, description: string)

  /** `el?.textContent || fallback`: missing and empty both fall back. */
  function OrDefault(v: Option<string>, fallback: string): (r: string)
    ensures r == fallback || (v.Some? && r == v.value && r != "")
  {
    if v.Some? && v.value != "" then v.value else fallback
  }

  /** `getEventDetailsFromCard`. */
  function DetailsFromCard(card: CardText): (e: EventDetails)
    ensures e.title != "" && e.location != ""
  {
    EventDetails(OrDefault(card.title, "Event"), OrDefault(card.month, ""), OrDefault(card.day, ""),
                 OrDefault(card.time, ""), OrDefault(card.location, "Regis Innovation Center"),
                 OrDefault(card.description, ""))
  }

  /** The fixed lines of the file. */
  const BeginCalendar: string := "BEGIN:VCALENDAR"
  const VersionLine: string := "VERSION:2.0"
  const ProductId: string := "PRODID:-//Regis Innovation Center//Event//EN"
  const BeginEvent: string := "BEGIN:VEVENT"
  const StatusLine: string := "STATUS:CONFIRMED"
  const EndEvent: string := "END:VEVENT"
  const EndCalendar: string := "END:VCALENDAR"
  const UidTag: string := "UID:"
  const UidDomain: string := "@regis.edu"
  const StampTag: string := "DTSTAMP:"
  const StartTag: string := "DTSTART:"
  const EndTag: string := "DTEND:"
  const SummaryTag: string := "SUMMARY:"
  const DescriptionTag: string := "DESCRIPTION:"
  const LocationTag: string := "LOCATION:"

  /** The fourteen lines of the file. `nowMillis` is `Date.now()`; the
      stamps are the UTC forms `toISOString` gives, passed in. */
  function IcsLines(e: EventDetails, nowMillis: int, stampNow: string, stampStart: string, stampEnd: string): (lines: seq<string>)
    ensures |lines| == 14 && lines[0] == BeginCalendar && lines[13] == EndCalendar
    ensures lines[6] == StartTag + stampStart && lines[7] == EndTag + stampEnd
    ensures lines[8] == SummaryTag + e.title && lines[10] == LocationTag + e.location
    ensures lines[9] == DescriptionTag + EscapeNewlines(e.description)
  {
    [BeginCalendar, VersionLine, ProductId, BeginEvent,
     UidTag + IntToString(nowMillis) + UidDomain, StampTag + stampNow,
     StartTag + stampStart, EndTag + stampEnd, SummaryTag + e.title,
     DescriptionTag + EscapeNewlines(e.description), LocationTag + e.location,
     StatusLine, EndEvent, EndCalendar]
  }

  lemma NoLineFeedInNumber(n: int)
    ensures NoLineFeed(IntToString(n))
  {
    var d := NatToString(if n < 0 then -n else n);
    assert forall i :: 0 <= i < |d| ==> IsDigit(d[i]);
  }

  /** No line of the file holds a line feed when the single-line fields
      (title, location and the stamps) hold none; line feeds in the
      description are escaped. */
  lemma IcsLinesHaveNoLineFeed(e: EventDetails, nowMillis: int, stampNow: string, stampStart: string, stampEnd: string)
    requires NoLineFeed(e.title) && NoLineFeed(e.location)
    requires NoLineFeed(stampNow) && NoLineFeed(stampStart) && NoLineFeed(stampEnd)
    ensures var lines := IcsLines(e, nowMillis, stampNow, stampStart, stampEnd);
      forall k :: 0 <= k < |lines| ==> NoLineFeed(lines[k])
  {
    TagsHaveNoLineFeed();
    NoLineFeedInNumber(nowMillis);
    NoLineFeedAppend(UidTag, IntToString(nowMillis));
    NoLineFeedAppend(UidTag + IntToString(nowMillis), UidDomain);
    NoLineFeedAppend(StampTag, stampNow);
    NoLineFeedAppend(StartTag, stampStart);
    NoLineFeedAppend(EndTag, stampEnd);
    NoLineFeedAppend(SummaryTag, e.title);
    NoLineFeedAppend(DescriptionTag, EscapeNewlines(e.description));
    NoLineFeedAppend(LocationTag, e.location);
    FixedLinesHaveNoLineFeed();
  }

  lemma TagsHaveNoLineFeed()
    ensures NoLineFeed(UidTag) && NoLineFeed(UidDomain) && NoLineFeed(StampTag)
    ensures NoLineFeed(StartTag) && NoLineFeed(EndTag) && NoLineFeed(SummaryTag)
    ensures NoLineFeed(DescriptionTag) && NoLineFeed(LocationTag)
  {
    assert NoLineFeed(UidTag);
    assert NoLineFeed(UidDomain);
    assert NoLineFeed(StampTag);
    assert NoLineFeed(StartTag);
    assert NoLineFeed(EndTag);
    assert NoLineFeed(SummaryTag);
    assert NoLineFeed(DescriptionTag);
  }

  lemma FixedLinesHaveNoLineFeed()
    ensures NoLineFeed(BeginCalendar) && NoLineFeed(VersionLine) && NoLineFeed(ProductId)
    ensures NoLineFeed(BeginEvent) && NoLineFeed(StatusLine) && NoLineFeed(EndEvent) && NoLineFeed(EndCalendar)
  {
    OpeningLinesHaveNoLineFeed();
    ProductIdHasNoLineFeed();
    ClosingLinesHaveNoLineFeed();
  }

  lemma OpeningLinesHaveNoLineFeed()
    ensures NoLineFeed(BeginCalendar) && NoLineFeed(VersionLine) && NoLineFeed(BeginEvent)
  {
    assert NoLineFeed(BeginCalendar);
    assert NoLineFeed(VersionLine);
  }

  lemma ProductIdHasNoLineFeed()
    ensures NoLineFeed(ProductId)
  {
  }

  lemma ClosingLinesHaveNoLineFeed()
    ensures NoLineFeed(StatusLine) && NoLineFeed(EndEvent) && NoLineFeed(EndCalendar)
  {
    assert NoLineFeed(StatusLine);
    assert NoLineFeed(EndEvent);
  }

  /** The file's text splits on CRLF back into its fourteen lines, so each
      field stays on its own content line. */
  lemma IcsLinesRoundTrip(e: EventDetails, nowMillis: int, stampNow: string, stampStart: string, stampEnd: string)
    requires NoLineFeed(e.title) && NoLineFeed(e.location)
    requires NoLineFeed(stampNow) && NoLineFeed(stampStart) && NoLineFeed(stampEnd)
    ensures var lines := IcsLines(e, nowMillis, stampNow, stampStart, stampEnd);
      Split(Join(lines, CRLF), CRLF) == lines
  {
    var lines := IcsLines(e, nowMillis, stampNow, stampStart, stampEnd);
    IcsLinesHaveNoLineFeed(e, nowMillis, stampNow, stampStart, stampEnd);
    SplitJoinLines(lines);
  }

  /** `/[^a-z0-9]/gi`: everything but ASCII letters and digits. */
  predicate IsAsciiAlnum(c: char) {
    'a' <= c <= 'z' || 'A' <= c <= 'Z' || '0' <= c <= '9'
  }

  /** `title.replace(/[^a-z0-9]/gi, '-')`: one dash per other character. */
  function SafeStem(title: string): (r: string)
    ensures |r| == |title|
    ensures forall i :: 0 <= i < |r| ==> r[i] == if IsAsciiAlnum(title[i]) then title[i] else '-'
  {
    if title == [] then [] else [if IsAsciiAlnum(title[0]) then title[0] else '-'] + SafeStem(title[1..])
  }

  /** The download name: the stem followed by ".ics". */
  function IcsFileName(title: string): string {
    SafeStem(title) + ".ics"
  }

  /** The name keeps the title's length and letters, holds only letters,
      digits and dashes before the extension, and sanitising is idempotent. */
  lemma IcsFileNameProperties(title: string)
    ensures var n := IcsFileName(title);
      && |n| == |title| + 4 && n[|title|..] == ".ics"
      && (forall i :: 0 <= i < |title| ==> IsAsciiAlnum(n[i]) || n[i] == '-')
      && (forall i :: 0 <= i < |title| && IsAsciiAlnum(title[i]) ==> n[i] == title[i])
      && SafeStem(SafeStem(title)) == SafeStem(title)
  {
  }

  datatype IcsFile = IcsFile(fileName: string, content: string)

  /** The single-line fields of a file hold no line feed. */
  predicate SingleLineFields(e: EventDetails, stampNow: string, stampStart: string, stampEnd: string) {
    NoLineFeed(e.title) && NoLineFeed(e.location)
    && NoLineFeed(stampNow) && NoLineFeed(stampStart) && NoLineFeed(stampEnd)
  }

  /** What a reader of the file finds: fourteen CRLF-separated lines from
      BEGIN:VCALENDAR to END:VCALENDAR carrying the given stamps, title and
      location, and a DESCRIPTION line holding the escaped description. */
  predicate ReadsAsEvent(content: string, e: EventDetails, stampStart: string, stampEnd: string) {
    var lines := Split(content, CRLF);
    && |lines| == 14 && lines[0] == BeginCalendar && lines[13] == EndCalendar
    && lines[6] == StartTag + stampStart && lines[7] == EndTag + stampEnd
    && lines[8] == SummaryTag + e.title && lines[10] == LocationTag + e.location
    && lines[9] == DescriptionTag + EscapeNewlines(e.description)
  }

  lemma IcsContentReadsAsEvent(e: EventDetails, nowMillis: int, stampNow: string, stampStart: string, stampEnd: string)
    ensures SingleLineFields(e, stampNow, stampStart, stampEnd) ==>
      ReadsAsEvent(Join(IcsLines(e, nowMillis, stampNow, stampStart, stampEnd), CRLF), e, stampStart, stampEnd)
  {
    if SingleLineFields(e, stampNow, stampStart, stampEnd) {
      IcsLinesRoundTrip(e, nowMillis, stampNow, stampStart, stampEnd);
    }
  }

  /** `downloadICSFromCard`: nothing without a card; otherwise the file,
      named after the title, which reads back as the card's event at the
      card's parsed start and end. `toIcsDate` stands for `toISOString`
      with its punctuation removed. */
  function DownloadIcsFromCard(card: Option<CardText>, nowMillis: int, stampNow: string,
                               toIcsDate: DateParts -> string): (r: Option<IcsFile>)
    ensures r.None? <==> card.None?
    ensures card.Some? ==>
      var e := DetailsFromCard(card.value);
      var t := ParseCardDateTime(e.monthText, e.dayText, e.timeText);
      && r.value.fileName == IcsFileName(e.title)
      && (SingleLineFields(e, stampNow, toIcsDate(t.start), toIcsDate(t.end)) ==>
            ReadsAsEvent(r.value.content, e, toIcsDate(t.start), toIcsDate(t.end)))
  {
    if card.None? then None
    else
      var e := DetailsFromCard(card.value);
      var t := ParseCardDateTime(e.monthText, e.dayText, e.timeText);
      IcsContentReadsAsEvent(e, nowMillis, stampNow, toIcsDate(t.start), toIcsDate(t.end));
      Some(IcsFile(IcsFileName(e.title),
                   Join(IcsLines(e, nowMillis, stampNow, toIcsDate(t.start), toIcsDate(t.end)), CRLF)))
  }

  const GoogleRender: string := "https://calendar.google.com/calendar/render?action=TEMPLATE&text="
  const DatesParam: string := "&dates="
  const DetailsParam: string := "&details="
  const LocationParam: string := "&location="

  /** The `dates` value: the start and end stamps around a slash. */
  function GoogleDates(t: EventTimes): string {
    FormatDateForCalendar(t.start) + "/" + FormatDateForCalendar(t.end)
  }

  /** A fifteen-character stamp that reads back to the given components. */
  predicate StampOf(s: string, d: DateParts) {
    && |s| == 15 && s[8] == 'T'
    && (forall i :: 0 <= i < 15 && i != 8 ==> IsRadixDigit(s[i], 10))
    && ParseCalendarStamp(s) == d
  }

  /** A `dates` value holding the stamps of the start and the end around a slash. */
  predicate DatesOf(d: string, t: EventTimes) {
    |d| == 31 && d[15] == '/' && StampOf(d[..15], t.start) && StampOf(d[16..], t.end)
  }

  lemma SlashJoin(a: string, b: string)
    requires |a| == 15
    ensures var d := a + "/" + b;
      |d| == 16 + |b| && d[15] == '/' && d[..15] == a && d[16..] == b
  {
  }

  /** For normal dates the `dates` value is two fifteen-character stamps
      around a slash, which read back to the start and the end. */
  lemma GoogleDatesRoundTrip(t: EventTimes)
    requires Normal(t.start) && Normal(t.end)
    ensures DatesOf(GoogleDates(t), t)
  {
    FormatDateForCalendarRoundTrip(t.start);
    FormatDateForCalendarRoundTrip(t.end);
    SlashJoin(FormatDateForCalendar(t.start), FormatDateForCalendar(t.end));
  }

  /** The Google Calendar link; `encode` stands for `encodeURIComponent`. */
  function GoogleCalendarUrl(e: EventDetails, t: EventTimes, encode: string -> string): string {
    GoogleRender + encode(e.title) + DatesParam + GoogleDates(t)
    + DetailsParam + encode(e.description) + LocationParam + encode(e.location)
  }

  /** `addToGoogleCalendarFromCard`: nothing without a card; otherwise the
      link whose `dates` value reads back to the card's parsed start and end
      whenever those are normal dates. */
  function AddToGoogleCalendarFromCard(card: Option<CardText>, encode: string -> string): (url: Option<string>)
    ensures url.None? <==> card.None?
    ensures card.Some? ==>
      var e := DetailsFromCard(card.value);
      var t := ParseCardDateTime(e.monthText, e.dayText, e.timeText);
      var d := GoogleDates(t);
      && url.value == GoogleRender + encode(e.title) + DatesParam + d
                      + DetailsParam + encode(e.description) + LocationParam + encode(e.location)
      && (Normal(t.start) && Normal(t.end) ==> DatesOf(d, t))
  {
    if card.None? then None
    else
      var e := DetailsFromCard(card.value);
      var t := ParseCardDateTime(e.monthText, e.dayText, e.timeText);
      NormalDatesReadBack(t);
      Some(GoogleCalendarUrl(e, t, encode))
  }

  lemma NormalDatesReadBack(t: EventTimes)
    ensures Normal(t.start) && Normal(t.end) ==> DatesOf(GoogleDates(t), t)
  {
    if Normal(t.start) && Normal(t.end) { GoogleDatesRoundTrip(t); }
  }

  /** A card as the listing prints it: a month abbreviation, a day number
      and two 12-hour times around " - ". */
  predicate PrintedCard(card: CardText, month: int, day: nat, h1: nat, m1: nat, pm1: bool, h2: nat, m2: nat, pm2: bool) {
    && 0 <= month < 12 && 1 <= day <= 31
    && 1 <= h1 <= 12 && m1 <= 59 && 1 <= h2 <= 12 && m2 <= 59
    && card.month == Some(MonthNames[month]) && card.day == Some(NatToString(day))
    && card.time == Some(Display12(h1, m1, pm1) + " - " + Display12(h2, m2, pm2))
  }

  /** The times read from a printed card are the printed ones, in the
      listing's year. */
  lemma PrintedCardTimes(card: CardText, month: int, day: nat, h1: nat, m1: nat, pm1: bool, h2: nat, m2: nat, pm2: bool)
    requires PrintedCard(card, month, day, h1, m1, pm1, h2, m2, pm2)
    ensures var e := DetailsFromCard(card);
      ParseCardDateTime(e.monthText, e.dayText, e.timeText)
        == EventTimes(DateParts(CardYear(month), month, day, To24(h1, pm1), m1),
                      DateParts(CardYear(month), month, day, To24(h2, pm2), m2))
  {
    var e := DetailsFromCard(card);
    assert |MonthNames[month]| == 3;
    assert e.monthText == MonthNames[month];
    assert e.dayText == NatToString(day);
    Display12Shape(h1, m1, pm1);
    assert e.timeText == Display12(h1, m1, pm1) + " - " + Display12(h2, m2, pm2);
    ParseCardDateTimeOfCard(month, day, h1, m1, pm1, h2, m2, pm2);
  }

  /** The link made from a printed card carries the printed date and times:
      its `dates` value reads back to them. */
  lemma GoogleLinkOfPrintedCard(card: CardText, encode: string -> string,
                                month: int, day: nat, h1: nat, m1: nat, pm1: bool, h2: nat, m2: nat, pm2: bool)
    requires PrintedCard(card, month, day, h1, m1, pm1, h2, m2, pm2)
    ensures var e := DetailsFromCard(card);
      var d := GoogleDates(ParseCardDateTime(e.monthText, e.dayText, e.timeText));
      && AddToGoogleCalendarFromCard(Some(card), encode).value
           == GoogleRender + encode(e.title) + DatesParam + d
              + DetailsParam + encode(e.description) + LocationParam + encode(e.location)
      && DatesOf(d, EventTimes(DateParts(CardYear(month), month, day, To24(h1, pm1), m1),
                               DateParts(CardYear(month), month, day, To24(h2, pm2), m2)))
  {
    PrintedCardTimes(card, month, day, h1, m1, pm1, h2, m2, pm2);
    var t := EventTimes(DateParts(CardYear(month), month, day, To24(h1, pm1), m1),
                        DateParts(CardYear(month), month, day, To24(h2, pm2), m2));
    assert CardYear(month) >= 2025;
    GoogleDatesRoundTrip(t);
  }

  /** The file made from a printed card starts and ends at the printed
      times, when the title, location and stamps are single lines. */
  lemma IcsFileOfPrintedCard(card: CardText, nowMillis: int, stampNow: string, toIcsDate: DateParts -> string,
                             month: int, day: nat, h1: nat, m1: nat, pm1: bool, h2: nat, m2: nat, pm2: bool)
    requires PrintedCard(card, month, day, h1, m1, pm1, h2, m2, pm2)
    requires var e := DetailsFromCard(card);
      NoLineFeed(e.title) && NoLineFeed(e.location) && NoLineFeed(stampNow)
    requires forall d :: NoLineFeed(toIcsDate(d))
    ensures var start := DateParts(CardYear(month), month, day, To24(h1, pm1), m1);
      var end := DateParts(CardYear(month), month, day, To24(h2, pm2), m2);
      ReadsAsEvent(DownloadIcsFromCard(Some(card), nowMillis, stampNow, toIcsDate).value.content,
                   DetailsFromCard(card), toIcsDate(start), toIcsDate(end))
  {
    PrintedCardTimes(card, month, day, h1, m1, pm1, h2, m2, pm2);
  }
}

=== FILE: contact_api.dfy ===
/** The contact-form handler: POST only; every field is trimmed, unslashed
    and HTML-escaped; an ordered list of validation errors is built; with no
    error a notification mail is attempted and, only if it was accepted, an
    auto-reply is sent to the visitor. `mail()` and `filter_var` are
    parameters: the mail outcome is a boolean, the e-mail check a predicate. */
module ContactApi {
  import opened JsRuntime

  const ToAddress: string := "innovation@regis.edu"
  const AutoReplySubject: string := "Thank you for contacting Regis Innovation Center"

  /** The validation messages, declared in the order the checks run. */
  datatype ValidationError = NameRequired | EmailRequired | InvalidEmail | SubjectRequired | MessageRequired
  {
    function Text(): string {
      match this
      case NameRequired => "Name is required"
      case EmailRequired => "Email is required"
      case InvalidEmail => "Invalid email format"
      case SubjectRequired => "Subject is required"
      case MessageRequired => "Message is required"
    }

    /** Position of the check that produces the message. */
    function Rank(): nat {
      match this
      case NameRequired => 0
      case EmailRequired => 1
      case InvalidEmail => 2
      case SubjectRequired => 3
      case MessageRequired => 4
    }
  }

  // ---------------------------------------------------------------------
  // trim
  // ---------------------------------------------------------------------

  /** The characters PHP's `trim` strips by default. */
  predicate IsTrimChar(c: char) {
    c == ' ' || c == '\t' || c == '\n' || c == '\r' || c == '\0' || c == '\U{B}'
  }

  function TrimLeft(s: string): (r: string)
    ensures |r| <= |s| && r == s[|s| - |r|..]
    ensures forall i :: 0 <= i < |s| - |r| ==> IsTrimChar(s[i])
    ensures r == [] || !IsTrimChar(r[0])
  {
    if s != [] && IsTrimChar(s[0]) then TrimLeft(s[1..]) else s
  }

  function TrimRight(s: string): (r: string)
    ensures |r| <= |s| && r == s[..|r|]
    ensures forall i :: |r| <= i < |s| ==> IsTrimChar(s[i])
    ensures r == [] || !IsTrimChar(r[|r| - 1])
  {
    if s != [] && IsTrimChar(s[|s| - 1]) then TrimRight(s[..|s| - 1]) else s
  }

  /** `trim`: strips trim characters from both ends. */
  function PhpTrim(s: string): (r: string)
    ensures |r| <= |s|
    ensures r == [] || (!IsTrimChar(r[0]) && !IsTrimChar(r[|r| - 1]))
  {
    var t := TrimLeft(s);
    var r := TrimRight(t);
    assert r != [] ==> r[0] == t[0];
    r
  }

  /** With `k` the number of trim characters at the start, the trimmed
      text is the infix of `s` from `k` on, and only trim characters lie
      outside it: the longest infix with no trim character at either end. */
  lemma PhpTrimIsInfix(s: string, k: nat)
    requires k == |s| - |TrimLeft(s)|
    ensures k + |PhpTrim(s)| <= |s| && PhpTrim(s) == s[k..k + |PhpTrim(s)|]
    ensures forall i :: 0 <= i < k ==> IsTrimChar(s[i])
    ensures forall i :: k + |PhpTrim(s)| <= i < |s| ==> IsTrimChar(s[i])
  {
    TrimBothEnds(s, TrimLeft(s), PhpTrim(s), k);
  }

  lemma TrimBothEnds(s: string, t: string, r: string, k: nat)
    requires k <= |s| && t == s[k..] && |r| <= |t| && r == t[..|r|]
    requires forall i :: |r| <= i < |t| ==> IsTrimChar(t[i])
    requires t == [] || !IsTrimChar(t[0])
    ensures k + |r| <= |s| && r == s[k..k + |r|]
    ensures forall i :: k + |r| <= i < |s| ==> IsTrimChar(s[i])
    ensures r == [] || !IsTrimChar(r[0])
  {
    forall i | k + |r| <= i < |s|
      ensures IsTrimChar(s[i])
    {
      assert s[i] == t[i - k];
    }
    if r != [] {
      assert r[0] == t[0];
    }
  }

  /** Trimming twice is trimming once. */
  lemma PhpTrimIdempotent(s: string)
    ensures PhpTrim(PhpTrim(s)) == PhpTrim(s)
  {
    var r := PhpTrim(s);
    assert r == [] || !IsTrimChar(r[0]);
    assert TrimLeft(r) == r;
    assert TrimRight(r) == r;
  }

  // ---------------------------------------------------------------------
  // stripslashes and its inverse addslashes
  // ---------------------------------------------------------------------

  /** `stripslashes`: a backslash is removed and the character after it kept
      as is, except that `\0` becomes the NUL character; a backslash at the
      very end is dropped. */
  function StripSlashes(s: string): (r: string)
    ensures |r| <= |s|
  {
    if s == [] then []
    else if s[0] != '\\' then [s[0]] + StripSlashes(s[1..])
    else if |s| == 1 then []
    else if s[1] == '0' then ['\0'] + StripSlashes(s[2..])
    else [s[1]] + StripSlashes(s[2..])
  }

  /** `addslashes`: a backslash before `'`, `"` and `\`, and NUL as `\0`. */
  function AddSlashes(s: string): (r: string)
    ensures |r| >= |s|
  {
    if s == [] then []
    else if s[0] == '\'' || s[0] == '"' || s[0] == '\\' then ['\\', s[0]] + AddSlashes(s[1..])
    else if s[0] == '\0' then ['\\', '0'] + AddSlashes(s[1..])
    else [s[0]] + AddSlashes(s[1..])
  }

  /** `stripslashes` undoes `addslashes`. */
  lemma {:induction false} StripAddSlashes(s: string)
    ensures StripSlashes(AddSlashes(s)) == s
  {
    if s != [] {
      StripAddSlashes(s[1..]);
      var rest := AddSlashes(s[1..]);
      var t := AddSlashes(s);
      if s[0] == '\'' || s[0] == '"' || s[0] == '\\' {
        assert t == ['\\', s[0]] + rest;
        assert t[2..] == rest;
      } else if s[0] == '\0' {
        assert t == ['\\', '0'] + rest;
        assert t[2..] == rest;
      } else {
        assert t == [s[0]] + rest;
        assert t[1..] == rest;
      }
    }
  }

  /** Text without a backslash passes through unchanged. */
  lemma {:induction false} StripSlashesWithoutBackslash(s: string)
    requires forall i :: 0 <= i < |s| ==> s[i] != '\\'
    ensures StripSlashes(s) == s
  {
    if s != [] {
      StripSlashesWithoutBackslash(s[1..]);
    }
  }

  // ---------------------------------------------------------------------
  // htmlspecialchars and its inverse
  // ---------------------------------------------------------------------

  /** The replacement of one character; `'` is escaped only when the PHP
      version's default flags include single quotes (8.1 and later). */
  function EscapeChar(c: char, quoteSingle: bool): string {
    if c == '&' then "&amp;"
    else if c == '"' then "&quot;"
    else if c == '<' then "&lt;"
    else if c == '>' then "&gt;"
    else if c == '\'' && quoteSingle then "&#039;"
    else [c]
  }

  /** No raw `<`, `>` or `"`, and no raw `'` when single quotes are
      escaped. */
  predicate HtmlSafe(s: string, quoteSingle: bool) {
    (forall i :: 0 <= i < |s| ==> s[i] != '<' && s[i] != '>' && s[i] != '"')
    && (quoteSingle ==> forall i :: 0 <= i < |s| ==> s[i] != '\'')
  }

  lemma EscapeCharIsSafe(c: char, quoteSingle: bool)
    ensures HtmlSafe(EscapeChar(c, quoteSingle), quoteSingle)
  {
  }

  lemma SafeAppend(head: string, rest: string, quoteSingle: bool)
    requires HtmlSafe(head, quoteSingle) && HtmlSafe(rest, quoteSingle)
    ensures HtmlSafe(head + rest, quoteSingle)
  {
    assert forall i :: |head| <= i < |head + rest| ==> (head + rest)[i] == rest[i - |head|];
  }

  /** `htmlspecialchars` with double encoding on: every `&` is escaped, also
      one that already starts an entity. No raw `<`, `>` or `"` remains. */
  function HtmlSpecialChars(s: string, quoteSingle: bool): (r: string)
    ensures |r| >= |s|
    ensures HtmlSafe(r, quoteSingle)
  {
    if s == [] then []
    else
      var head := EscapeChar(s[0], quoteSingle);
      var rest := HtmlSpecialChars(s[1..], quoteSingle);
      EscapeCharIsSafe(s[0], quoteSingle);
      SafeAppend(head, rest, quoteSingle);
      head + rest
  }

  /** `htmlspecialchars_decode`: the five entities back to their characters;
      any other `&` is kept. */
  function HtmlDecode(t: string): string {
    if t == [] then []
    else if "&amp;" <= t then "&" + HtmlDecode(t[5..])
    else if "&quot;" <= t then "\"" + HtmlDecode(t[6..])
    else if "&lt;" <= t then "<" + HtmlDecode(t[4..])
    else if "&gt;" <= t then ">" + HtmlDecode(t[4..])
    else if "&#039;" <= t then "'" + HtmlDecode(t[6..])
    else [t[0]] + HtmlDecode(t[1..])
  }

  lemma DecodeEscapedChar(c: char, quoteSingle: bool, rest: string)
    ensures HtmlDecode(EscapeChar(c, quoteSingle) + rest) == [c] + HtmlDecode(rest)
  {
    if c == '&' {
      DecodeEntity("&amp;", c, rest);
    } else if c == '"' {
      DecodeEntity("&quot;", c, rest);
    } else if c == '<' {
      DecodeEntity("&lt;", c, rest);
    } else if c == '>' {
      DecodeEntity("&gt;", c, rest);
    } else if c == '\'' && quoteSingle {
      DecodeEntity("&#039;", c, rest);
    } else {
      DecodePlain(c, rest);
    }
  }

  /** The five entities `htmlspecialchars` writes, each with its character. */
  predicate IsEntity(entity: string, c: char) {
    || (entity == "&amp;" && c == '&') || (entity == "&quot;" && c == '"')
    || (entity == "&lt;" && c == '<') || (entity == "&gt;" && c == '>')
    || (entity == "&#039;" && c == '\'')
  }

  /** Decoding reads an entity back as its character. */
  lemma DecodeEntity(entity: string, c: char, rest: string)
    requires IsEntity(entity, c)
    ensures HtmlDecode(entity + rest) == [c] + HtmlDecode(rest)
  {
    var t := entity + rest;
    assert t[1] == entity[1];
    assert t[..|entity|] == entity && t[|entity|..] == rest;
  }

  lemma DecodePlain(c: char, rest: string)
    requires c != '&'
    ensures HtmlDecode([c] + rest) == [c] + HtmlDecode(rest)
  {
    var t := [c] + rest;
    assert t[0] == c && t[1..] == rest;
  }

  /** Escaping loses nothing: decoding gives the text back. */
  lemma {:induction false} DecodeHtmlSpecialChars(s: string, quoteSingle: bool)
    ensures HtmlDecode(HtmlSpecialChars(s, quoteSingle)) == s
  {
    if s != [] {
      DecodeHtmlSpecialChars(s[1..], quoteSingle);
      DecodeEscapedChar(s[0], quoteSingle, HtmlSpecialChars(s[1..], quoteSingle));
    }
  }

  /** An existing entity is encoded again. */
  lemma DoubleEncoding()
    ensures HtmlSpecialChars("&amp;", false) == "&amp;amp;"
    ensures HtmlSpecialChars("&amp;", true) == "&amp;amp;"
  {
    assert "&amp;"[1..] == "amp;";
    assert "amp;"[1..] == "mp;";
    assert "mp;"[1..] == "p;";
    assert "p;"[1..] == ";";
  }

  // ---------------------------------------------------------------------
  // Sanitising and validation
  // ---------------------------------------------------------------------

  /** `validateInput`: trim, then stripslashes, then htmlspecialchars. */
  function ValidateInput(data: string, quoteSingle: bool): string {
    HtmlSpecialChars(StripSlashes(PhpTrim(data)), quoteSingle)
  }

  /** A sanitised value is safe to place in HTML and still carries the
      trimmed, unslashed text. */
  lemma ValidateInputProperties(data: string, quoteSingle: bool)
    ensures var v := ValidateInput(data, quoteSingle);
      (forall i :: 0 <= i < |v| ==> v[i] != '<' && v[i] != '>' && v[i] != '"')
      && HtmlDecode(v) == StripSlashes(PhpTrim(data))
  {
    DecodeHtmlSpecialChars(StripSlashes(PhpTrim(data)), quoteSingle);
  }

  /** Blank input, surrounding white space included, sanitises to a value
      `empty()` rejects, and so does a lone "0". */
  lemma BlankIsMissing(data: string, quoteSingle: bool)
    requires forall i :: 0 <= i < |data| ==> IsTrimChar(data[i])
    ensures PhpEmpty(ValidateInput(data, quoteSingle))
    ensures PhpEmpty(ValidateInput(data + "0" + data, quoteSingle))
  {
    TrimAllBlank(data);
    TrimAroundZero(data);
    SanitiseZero(quoteSingle);
  }

  lemma SanitiseZero(quoteSingle: bool)
    ensures HtmlSpecialChars(StripSlashes("0"), quoteSingle) == "0"
  {
    assert StripSlashes("0") == "0";
    assert "0"[1..] == [];
  }

  lemma TrimAllBlank(data: string)
    requires forall i :: 0 <= i < |data| ==> IsTrimChar(data[i])
    ensures PhpTrim(data) == []
  {
    TrimLeftAllBlank(data);
  }

  lemma {:induction false} TrimLeftAllBlank(data: string)
    requires forall i :: 0 <= i < |data| ==> IsTrimChar(data[i])
    ensures TrimLeft(data) == []
  {
    if data != [] {
      TrimLeftAllBlank(data[1..]);
    }
  }

  lemma TrimAroundZero(data: string)
    requires forall i :: 0 <= i < |data| ==> IsTrimChar(data[i])
    ensures PhpTrim(data + "0" + data) == "0"
  {
    var d := data + "0" + data;
    var k := |d| - |TrimLeft(d)|;
    PhpTrimIsInfix(d, k);
    var r := PhpTrim(d);
    var z := |data|;
    assert d[z] == '0';
    assert forall i :: 0 <= i < z ==> IsTrimChar(d[i]);
    assert forall i :: z + 1 <= i < |d| ==> IsTrimChar(d[i]);
    assert k <= z < k + |r|;
    assert r[0] == d[k] && r[|r| - 1] == d[k + |r| - 1];
    assert k == z && |r| == 1;
    assert r == [d[z]];
  }

  /** PHP's `empty()` on a string. */
  predicate PhpEmpty(s: string) {
    s == "" || s == "0"
  }

  /** The messages the validation block produces, check by check. */
  function NameErrors(name: string): (r: seq<ValidationError>)
    ensures |r| <= 1 && forall i :: 0 <= i < |r| ==> r[i].Rank() == 0
    ensures forall e :: e in r <==> e == NameRequired && PhpEmpty(name)
  {
    if PhpEmpty(name) then [NameRequired] else []
  }

  function EmailErrors(email: string, validEmail: string -> bool): (r: seq<ValidationError>)
    ensures |r| <= 1 && forall i :: 0 <= i < |r| ==> 1 <= r[i].Rank() < 3
    ensures forall e :: e in r <==> (e == EmailRequired && PhpEmpty(email))
                                    || (e == InvalidEmail && !PhpEmpty(email) && !validEmail(email))
  {
    if PhpEmpty(email) then [EmailRequired] else if !validEmail(email) then [InvalidEmail] else []
  }

  function SubjectErrors(subject: string): (r: seq<ValidationError>)
    ensures |r| <= 1 && forall i :: 0 <= i < |r| ==> r[i].Rank() == 3
    ensures forall e :: e in r <==> e == SubjectRequired && PhpEmpty(subject)
  {
    if PhpEmpty(subject) then [SubjectRequired] else []
  }

  function MessageErrors(message: string): (r: seq<ValidationError>)
    ensures |r| <= 1 && forall i :: 0 <= i < |r| ==> r[i].Rank() == 4
    ensures forall e :: e in r <==> e == MessageRequired && PhpEmpty(message)
  {
    if PhpEmpty(message) then [MessageRequired] else []
  }

  /** Each message comes from a later check than the one before it, and
      all of them from checks before `bound`. */
  predicate RanksBelow(errors: seq<ValidationError>, bound: nat)
    decreases |errors|
  {
    errors == []
    || (errors[|errors| - 1].Rank() < bound
        && RanksBelow(errors[..|errors| - 1], errors[|errors| - 1].Rank()))
  }

  /** The ranks strictly increase along the list and stay below the bound. */
  lemma {:induction false} RanksBelowInOrder(errors: seq<ValidationError>, bound: nat)
    requires RanksBelow(errors, bound)
    ensures forall i, j :: 0 <= i < j < |errors| ==> errors[i].Rank() < errors[j].Rank()
    ensures forall i :: 0 <= i < |errors| ==> errors[i].Rank() < bound
    decreases |errors|
  {
    if errors != [] {
      var n := |errors| - 1;
      var init := errors[..n];
      RanksBelowInOrder(init, errors[n].Rank());
      assert forall i :: 0 <= i < n ==> errors[i] == init[i];
    }
  }

  lemma RanksBelowWeaken(errors: seq<ValidationError>, low: nat, high: nat)
    requires RanksBelow(errors, low) && low <= high
    ensures RanksBelow(errors, high)
  {
  }

  /** Appending the message of a later check keeps the order. */
  lemma AppendRanked(errors: seq<ValidationError>, more: seq<ValidationError>, bound: nat, next: nat)
    requires RanksBelow(errors, bound) && |more| <= 1 && bound <= next
    requires forall i :: 0 <= i < |more| ==> bound <= more[i].Rank() < next
    ensures RanksBelow(errors + more, next)
  {
    var s := errors + more;
    if more == [] {
      assert s == errors;
      RanksBelowWeaken(errors, bound, next);
    } else {
      assert s[..|errors|] == errors && s[|s| - 1] == more[0];
      RanksBelowWeaken(errors, bound, more[0].Rank());
    }
  }

  /** The validation block: appends one message per failing check, in the
      order name, email, subject, message; e-mail contributes at most one. */
  method CollectErrors(name: string, email: string, subject: string, message: string,
                       validEmail: string -> bool) returns (errors: seq<ValidationError>)
    ensures errors == NameErrors(name) + EmailErrors(email, validEmail) + SubjectErrors(subject) + MessageErrors(message)
    ensures (NameRequired in errors) <==> PhpEmpty(name)
    ensures (EmailRequired in errors) <==> PhpEmpty(email)
    ensures (InvalidEmail in errors) <==> !PhpEmpty(email) && !validEmail(email)
    ensures (SubjectRequired in errors) <==> PhpEmpty(subject)
    ensures (MessageRequired in errors) <==> PhpEmpty(message)
    ensures forall i, j :: 0 <= i < j < |errors| ==> errors[i].Rank() < errors[j].Rank()
    ensures errors == [] <==> !PhpEmpty(name) && !PhpEmpty(email) && validEmail(email)
                              && !PhpEmpty(subject) && !PhpEmpty(message)
  {
    errors := [];
    if PhpEmpty(name) {
      errors := errors + [NameRequired];
    }
    assert errors == NameErrors(name);
    if PhpEmpty(email) {
      errors := errors + [EmailRequired];
    } else if !validEmail(email) {
      errors := errors + [InvalidEmail];
    }
    assert errors == NameErrors(name) + EmailErrors(email, validEmail);
    if PhpEmpty(subject) {
      errors := errors + [SubjectRequired];
    }
    assert errors == NameErrors(name) + EmailErrors(email, validEmail) + SubjectErrors(subject);
    if PhpEmpty(message) {
      errors := errors + [MessageRequired];
    }
    assert errors == NameErrors(name) + EmailErrors(email, validEmail) + SubjectErrors(subject) + MessageErrors(message);
    ErrorsInCheckOrder(name, email, subject, message, validEmail);
    RanksBelowInOrder(errors, 5);
    ErrorsOfChecks(name, email, subject, message, validEmail);
    NoErrorsWhenAllPass(name, email, subject, message, validEmail);
  }

  lemma ErrorsOfChecks(name: string, email: string, subject: string, message: string, validEmail: string -> bool)
    ensures var errors := NameErrors(name) + EmailErrors(email, validEmail) + SubjectErrors(subject) + MessageErrors(message);
      && ((NameRequired in errors) <==> PhpEmpty(name))
      && ((EmailRequired in errors) <==> PhpEmpty(email))
      && ((InvalidEmail in errors) <==> !PhpEmpty(email) && !validEmail(email))
      && ((SubjectRequired in errors) <==> PhpEmpty(subject))
      && ((MessageRequired in errors) <==> PhpEmpty(message))
  {
    var a, b := NameErrors(name), EmailErrors(email, validEmail);
    var c, d := SubjectErrors(subject), MessageErrors(message);
    InFour(a, b, c, d, NameRequired);
    InFour(a, b, c, d, EmailRequired);
    InFour(a, b, c, d, InvalidEmail);
    InFour(a, b, c, d, SubjectRequired);
    InFour(a, b, c, d, MessageRequired);
  }

  lemma InFour(a: seq<ValidationError>, b: seq<ValidationError>, c: seq<ValidationError>, d: seq<ValidationError>, e: ValidationError)
    ensures e in a + b + c + d <==> e in a || e in b || e in c || e in d
  {
    assert a + b + c + d == a + (b + (c + d));
  }

  lemma NoErrorsWhenAllPass(name: string, email: string, subject: string, message: string, validEmail: string -> bool)
    ensures var errors := NameErrors(name) + EmailErrors(email, validEmail) + SubjectErrors(subject) + MessageErrors(message);
      errors == [] <==> !PhpEmpty(name) && !PhpEmpty(email) && validEmail(email)
                        && !PhpEmpty(subject) && !PhpEmpty(message)
  {
    var a, b := NameErrors(name), EmailErrors(email, validEmail);
    var c, d := SubjectErrors(subject), MessageErrors(message);
    assert |a + b + c + d| == |a| + |b| + |c| + |d|;
    assert a == [] <==> !PhpEmpty(name);
    assert b == [] <==> !PhpEmpty(email) && validEmail(email);
    assert c == [] <==> !PhpEmpty(subject);
    assert d == [] <==> !PhpEmpty(message);
  }

  lemma ErrorsInCheckOrder(name: string, email: string, subject: string, message: string, validEmail: string -> bool)
    ensures RanksBelow(NameErrors(name) + EmailErrors(email, validEmail) + SubjectErrors(subject) + MessageErrors(message), 5)
  {
    var a := NameErrors(name);
    var b := EmailErrors(email, validEmail);
    var c := SubjectErrors(subject);
    var d := MessageErrors(message);
    AppendRanked([], a, 0, 1);
    assert [] + a == a;
    var ab := a + b;
    AppendRanked(a, b, 1, 3);
    var abc := ab + c;
    AppendRanked(ab, c, 3, 4);
    AppendRanked(abc, d, 4, 5);
  }

  /** The two e-mail messages never appear together. */
  lemma EmailErrorsExclusive(errors: seq<ValidationError>, email: string, validEmail: string -> bool)
    requires (EmailRequired in errors) <==> PhpEmpty(email)
    requires (InvalidEmail in errors) <==> !PhpEmpty(email) && !validEmail(email)
    ensures !(EmailRequired in errors && InvalidEmail in errors)
  {
  }

  // ---------------------------------------------------------------------
  // The handler
  // ---------------------------------------------------------------------

  /** The JSON body: a message or a list of errors. */
  datatype ReplyBody = Message(text: string) | Errors(list: seq<ValidationError>)

  datatype Reply = Reply(status: int, success: bool, body: ReplyBody)

  /** One call of `mail()`: recipient, subject, body and CRLF-joined headers. */
  datatype Mail = Mail(to: string, subject: string, body: string, headers: string)

  /** The header lines of the notification. */
  const FromLine: string := "From: noreply@regis.edu"
  const ReplyToTag: string := "Reply-To: "
  const MailerTag: string := "X-Mailer: PHP/"
  const ContentTypeLine: string := "Content-Type: text/plain; charset=UTF-8"

  function NotificationHeaders(email: string, phpVersion: string): seq<string> {
    [FromLine, ReplyToTag + email, MailerTag + phpVersion, ContentTypeLine]
  }

  function AutoReplyHeaders(phpVersion: string): seq<string> {
    [FromLine, MailerTag + phpVersion, ContentTypeLine]
  }

  /** The fixed passages of the two mails, kept apart from the fields
      placed between them. */
  const NotificationIntro: string := "\nNew contact form submission from the Regis Innovation Center website:\n\nName: "
  const AutoReplyThanks: string := ",\n\nThank you for reaching out to the Regis Innovation Center. We have received your message and will get back to you within 24-48 hours.\n\nHere's a copy of your message:\nSubject: "
  const AutoReplySignature: string := "\n\nBest regards,\nThe Regis Innovation Center Team\n\n---\nRegis Innovation Center\n3333 Regis Blvd\nDenver, CO 80221\nPhone: (303) 458-4000\nEmail: innovation@regis.edu\n"

  function NotificationBody(name: string, email: string, subject: string, message: string,
                            submittedOn: string, remoteAddr: string): string {
    NotificationIntro + name
    + "\nEmail: " + email + "\nSubject: " + subject + "\n\nMessage:\n" + message
    + "\n\n---\nSubmitted on: " + submittedOn + "\nIP Address: " + remoteAddr + "\n"
  }

  function AutoReplyBody(name: string, subject: string, message: string): string {
    "\nDear " + name + AutoReplyThanks + subject + "\nMessage: " + message + AutoReplySignature
  }

  /** `$_POST[key] ?? ''`. */
  function Field(post: map<string, string>, key: string): string {
    if key in post then post[key] else ""
  }

  /** The four sanitised fields. */
  datatype Form = Form(name: string, email: string, subject: string, message: string)

  function SanitizeForm(post: map<string, string>, quoteSingle: bool): Form {
    Form(ValidateInput(Field(post, "name"), quoteSingle), ValidateInput(Field(post, "email"), quoteSingle),
         ValidateInput(Field(post, "subject"), quoteSingle), ValidateInput(Field(post, "message"), quoteSingle))
  }

  /** No validation check fails. */
  predicate Acceptable(f: Form, validEmail: string -> bool) {
    !PhpEmpty(f.name) && !PhpEmpty(f.email) && validEmail(f.email) && !PhpEmpty(f.subject) && !PhpEmpty(f.message)
  }

  function NotificationMail(f: Form, phpVersion: string, submittedOn: string, remoteAddr: string): Mail {
    Mail(ToAddress, "Contact Form Submission: " + f.subject,
         NotificationBody(f.name, f.email, f.subject, f.message, submittedOn, remoteAddr),
         Join(NotificationHeaders(f.email, phpVersion), CRLF))
  }

  function AutoReplyMail(f: Form, phpVersion: string): Mail {
    Mail(f.email, AutoReplySubject, AutoReplyBody(f.name, f.subject, f.message),
         Join(AutoReplyHeaders(phpVersion), CRLF))
  }

  const SentMessage: string := "Message sent successfully"
  const FailedMessage: string := "Failed to send message. Please try again."

  /** The whole script. `notificationAccepted` is what the first `mail()`
      returns; `mails` lists the `mail()` calls made, in order. */
  method HandleContact(requestMethod: string, post: map<string, string>, quoteSingle: bool,
                       validEmail: string -> bool, notificationAccepted: bool,
                       phpVersion: string, submittedOn: string, remoteAddr: string)
    returns (reply: Reply, mails: seq<Mail>)
    ensures requestMethod != "POST" ==>
      reply == Reply(405, false, Message("Method not allowed")) && mails == []
    ensures requestMethod == "POST" && !Acceptable(SanitizeForm(post, quoteSingle), validEmail) ==>
      var f := SanitizeForm(post, quoteSingle);
      && mails == [] && reply.status == 200 && !reply.success && reply.body.Errors? && reply.body.list != []
      && reply.body.list == NameErrors(f.name) + EmailErrors(f.email, validEmail)
                            + SubjectErrors(f.subject) + MessageErrors(f.message)
    ensures requestMethod == "POST" && Acceptable(SanitizeForm(post, quoteSingle), validEmail) ==>
      var f := SanitizeForm(post, quoteSingle);
      && |mails| >= 1 && mails[0] == NotificationMail(f, phpVersion, submittedOn, remoteAddr)
      && (notificationAccepted <==> reply.success)
      && (notificationAccepted ==>
            |mails| == 2 && mails[1] == AutoReplyMail(f, phpVersion) && reply == Reply(200, true, Message(SentMessage)))
      && (!notificationAccepted ==>
            |mails| == 1 && reply == Reply(200, false, Message(FailedMessage)))
  {
    mails := [];
    if requestMethod != "POST" {
      return Reply(405, false, Message("Method not allowed")), mails;
    }
    var f := SanitizeForm(post, quoteSingle);

    var errors := CollectErrors(f.name, f.email, f.subject, f.message, validEmail);
    if errors != [] {
      return Reply(200, false, Errors(errors)), mails;
    }

    reply, mails := Deliver(f, notificationAccepted, phpVersion, submittedOn, remoteAddr);
  }

  /** The part after validation: the notification is always attempted, the
      auto-reply only when the notification was accepted. */
  method Deliver(f: Form, notificationAccepted: bool, phpVersion: string, submittedOn: string, remoteAddr: string)
    returns (reply: Reply, mails: seq<Mail>)
    ensures |mails| >= 1 && mails[0] == NotificationMail(f, phpVersion, submittedOn, remoteAddr)
    ensures notificationAccepted <==> reply.success
    ensures notificationAccepted ==>
      |mails| == 2 && mails[1] == AutoReplyMail(f, phpVersion) && reply == Reply(200, true, Message(SentMessage))
    ensures !notificationAccepted ==> |mails| == 1 && reply == Reply(200, false, Message(FailedMessage))
  {
    mails := [NotificationMail(f, phpVersion, submittedOn, remoteAddr)];
    if notificationAccepted {
      mails := mails + [AutoReplyMail(f, phpVersion)];
      reply := Reply(200, true, Message(SentMessage));
    } else {
      reply := Reply(200, false, Message(FailedMessage));
    }
  }

  /** The notification's header block splits back into its four lines when
      the visitor's address has no line feed in it, so no header can be
      injected through the Reply-To line. */
  lemma NotificationHeadersRoundTrip(email: string, phpVersion: string)
    requires NoLineFeed(email) && NoLineFeed(phpVersion)
    ensures Split(Join(NotificationHeaders(email, phpVersion), CRLF), CRLF) == NotificationHeaders(email, phpVersion)
  {
    HeaderTagsHaveNoLineFeed();
    NoLineFeedAppend(ReplyToTag, email);
    NoLineFeedAppend(MailerTag, phpVersion);
    SplitJoinLines(NotificationHeaders(email, phpVersion));
  }

  lemma HeaderTagsHaveNoLineFeed()
    ensures NoLineFeed(FromLine) && NoLineFeed(ReplyToTag) && NoLineFeed(MailerTag) && NoLineFeed(ContentTypeLine)
  {
    assert forall i :: 0 <= i < |FromLine| ==> FromLine[i] != '\n';
    assert forall i :: 0 <= i < |ReplyToTag| ==> ReplyToTag[i] != '\n';
    assert forall i :: 0 <= i < |MailerTag| ==> MailerTag[i] != '\n';
    assert forall i :: 0 <= i < |ContentTypeLine| ==> ContentTypeLine[i] != '\n';
  }
}

=== FILE: event_details.dfy ===
/** The event details page: the `event` query parameter picks a record from
    the page's own table of events, and the page offers the same two
    calendar exports as the listing, read from the page's header. */
module EventDetails {
  import opened JsRuntime
  import opened Calendar

  /** One entry of the page's event table. */
  datatype EventRecord = EventRecord(
    title: string, month: string, day: string, time: string, location: string,
    fullDate: string, fullLocation: string, image: string, description: string)

  const DefaultEventId: string := "open-house-night-2"

  const OpenHouseDescription: string :=
    "Join us for an exciting evening of innovation and entrepreneurship at our Open House. This is your opportunity to explore the Innovation Center, meet our team, and discover how we can help turn your ideas into reality. Whether you're a student, faculty member, or community entrepreneur, this event is designed to inspire and connect you with like-minded innovators."
  const KickOffDescription: string :=
    "Celebrate the new year's Innovation Challenge with participants and past winners. This kick-off event marks the beginning of an exciting journey for all teams participating in this year's challenge."
  const DeadlineDescription: string :=
    "Final registration deadline for qualifying pitch rounds. Don't miss your opportunity to be part of this year's Innovation Challenge and compete for amazing prizes."
  const ClarkeHall: string := "3rd Floor, Clarke Hall, Room 358<br>Regis University Northwest Denver Campus"

  const OpenHouse: EventRecord := EventRecord(
    "Open House - Night 2", "Oct", "16", "6:00 PM - 8:00 PM", "Regis University",
    "October 16, 2025", ClarkeHall, "assets/image1.jpg", OpenHouseDescription)
  const KickOff: EventRecord := EventRecord(
    "Kick-Off Event", "Oct", "22", "6:00 PM - 8:00 PM", "Regis University",
    "October 22, 2025", ClarkeHall, "assets/image2.jpg", KickOffDescription)
  const Deadline: EventRecord := EventRecord(
    "Deadline to Sign Up for Qualifying Pitches", "Nov", "13", "All Day", "Online",
    "November 13, 2025", "Online Registration<br>Visit our website to complete your registration",
    "assets/image3.jpg", DeadlineDescription)

  const EventTable: map<string, EventRecord> :=
    map[DefaultEventId := OpenHouse, "kick-off-event" := KickOff, "registration-deadline" := Deadline]

  // ---------------------------------------------------------------------
  // getUrlParameter: the pattern [?&]name=([^&#]*) on location.search
  // ---------------------------------------------------------------------

  /** A `?name=` or `&name=` starts at `j`. */
  predicate ParamAt(search: string, name: string, j: int) {
    0 <= j < |search| && (search[j] == '?' || search[j] == '&') && OccursAt(search, name + "=", j + 1)
  }

  /** The leftmost position from `p` on where the parameter starts. */
  function ParamFrom(search: string, name: string, p: nat): (r: Option<nat>)
    ensures r.Some? ==> p <= r.value && ParamAt(search, name, r.value)
    ensures r.Some? ==> forall j :: p <= j < r.value ==> !ParamAt(search, name, j)
    ensures r.None? ==> forall j :: p <= j ==> !ParamAt(search, name, j)
    decreases |search| - p
  {
    if p >= |search| then None
    else if ParamAt(search, name, p) then Some(p)
    else ParamFrom(search, name, p + 1)
  }

  predicate IsValueChar(c: char) {
    c != '&' && c != '#'
  }

  /** Length of the greedy `[^&#]*` at the start of `s`. */
  function ValueRun(s: string): (k: nat)
    ensures k <= |s| && (forall i :: 0 <= i < k ==> IsValueChar(s[i]))
    ensures k < |s| ==> !IsValueChar(s[k])
  {
    if s != [] && IsValueChar(s[0]) then 1 + ValueRun(s[1..]) else 0
  }

  /** `v` is what the pattern captures when its match starts at `j`: `j`
      is the first `?name=` or `&name=`, and `v` is the longest run of
      characters other than `&` and `#` that follows it. */
  predicate ParamValue(search: string, name: string, j: int, v: string) {
    && ParamAt(search, name, j)
    && (forall i :: 0 <= i < j ==> !ParamAt(search, name, i))
    && var p := j + |name| + 2;
    && p + |v| <= |search| && search[p..p + |v|] == v
    && (forall i :: 0 <= i < |v| ==> IsValueChar(v[i]))
    && (p + |v| == |search| || !IsValueChar(search[p + |v|]))
  }

  /** The captured group, before `+` handling and decoding; `None` when the
      pattern does not match. The name is taken literally, as the page's
      only name, "event", is. */
  function RawUrlParameter(search: string, name: string): (v: Option<string>)
    ensures v.None? <==> forall j :: 0 <= j ==> !ParamAt(search, name, j)
    ensures v.Some? ==> exists j :: ParamValue(search, name, j, v.value)
  {
    match ParamFrom(search, name, 0)
    case None => None
    case Some(j) =>
      var p := j + 1 + |name| + 1;
      var rest := search[p..];
      var k := ValueRun(rest);
      assert search[p..p + k] == rest[..k];
      assert p + k < |search| ==> search[p + k] == rest[k];
      assert ParamValue(search, name, j, rest[..k]);
      Some(rest[..k])
  }

  /** The match is unique: at most one start and one value satisfy it. */
  lemma ParamValueUnique(search: string, name: string, j1: int, v1: string, j2: int, v2: string)
    requires ParamValue(search, name, j1, v1) && ParamValue(search, name, j2, v2)
    ensures j1 == j2 && v1 == v2
  {
    assert j1 == j2;
    var p := j1 + |name| + 2;
    RunAt(search, p, v1);
    RunAt(search, p, v2);
    assert |v1| == |v2|;
  }

  /** The characters of a value found at `p` are those of the search text. */
  lemma RunAt(search: string, p: int, v: string)
    requires 0 <= p && p + |v| <= |search| && search[p..p + |v|] == v
    requires forall i :: 0 <= i < |v| ==> IsValueChar(v[i])
    ensures forall k :: p <= k < p + |v| ==> IsValueChar(search[k])
  {
    forall k | p <= k < p + |v|
      ensures IsValueChar(search[k])
    {
      assert search[k] == v[k - p];
    }
  }

  /** The captured group is exactly the value the pattern describes. */
  lemma RawUrlParameterIsTheMatch(search: string, name: string, j: int, w: string)
    ensures ParamValue(search, name, j, w) <==> RawUrlParameter(search, name) == Some(w) && ParamAt(search, name, j) && (forall i :: 0 <= i < j ==> !ParamAt(search, name, i))
  {
    var v := RawUrlParameter(search, name);
    if ParamValue(search, name, j, w) {
      var j' :| ParamValue(search, name, j', v.value);
      ParamValueUnique(search, name, j, w, j', v.value);
    }
    if v == Some(w) && ParamAt(search, name, j) && (forall i :: 0 <= i < j ==> !ParamAt(search, name, i)) {
      var j' :| ParamValue(search, name, j', w);
      if j' < j { assert false; }
      if j < j' { assert false; }
    }
  }

  /** `replace(/\+/g, ' ')`. */
  function PlusToSpace(s: string): (r: string)
    ensures |r| == |s|
    ensures forall i :: 0 <= i < |s| ==> r[i] == if s[i] == '+' then ' ' else s[i]
  {
    if s == [] then [] else [if s[0] == '+' then ' ' else s[0]] + PlusToSpace(s[1..])
  }

  /** `getUrlParameter`; `decode` stands for `decodeURIComponent`, which
      gives `None` where the browser throws a URIError (a malformed escape
      such as "%" or "%E0"). The result is `None` exactly when the call
      throws. */
  function GetUrlParameter(search: string, name: string, decode: string -> Option<string>): (r: Option<string>)
    ensures (forall j :: 0 <= j ==> !ParamAt(search, name, j)) ==> r == Some("")
    ensures forall j, w :: ParamValue(search, name, j, w) ==> r == decode(PlusToSpace(w))
  {
    var v := RawUrlParameter(search, name);
    assert forall j, w :: ParamValue(search, name, j, w) ==> v == Some(w) by {
      forall j, w | ParamValue(search, name, j, w) ensures v == Some(w) {
        RawUrlParameterIsTheMatch(search, name, j, w);
      }
    }
    if v.None? then Some("") else decode(PlusToSpace(v.value))
  }

  lemma {:induction false} ValueRunOf(v: string, tail: string)
    requires forall i :: 0 <= i < |v| ==> IsValueChar(v[i])
    requires tail == [] || !IsValueChar(tail[0])
    ensures ValueRun(v + tail) == |v|
  {
    if v != [] {
      assert (v + tail)[1..] == v[1..] + tail;
      ValueRunOf(v[1..], tail);
    }
  }

  /** A query string that begins with the parameter yields its value, up to
      the next `&` or `#`. */
  lemma RawUrlParameterOfQuery(name: string, v: string, tail: string)
    requires forall i :: 0 <= i < |v| ==> IsValueChar(v[i])
    requires tail == [] || !IsValueChar(tail[0])
    ensures RawUrlParameter("?" + name + "=" + v + tail, name) == Some(v)
  {
    var search := "?" + name + "=" + v + tail;
    var n := |name| + 1;
    assert search[1..1 + n] == name + "=";
    assert ParamAt(search, name, 0);
    var rest := search[1 + n..];
    assert rest == v + tail;
    ValueRunOf(v, tail);
    assert rest[..|v|] == v;
  }

  // ---------------------------------------------------------------------
  // loadEventDetails
  // ---------------------------------------------------------------------

  /** `getUrlParameter('event') || 'open-house-night-2'`, then the table entry
      or the default entry. */
  function SelectEvent(eventId: string): (r: EventRecord)
    ensures eventId in EventTable ==> r == EventTable[eventId]
    ensures eventId !in EventTable ==> r == EventTable[DefaultEventId]
  {
    var id := if eventId == "" then DefaultEventId else eventId;
    if id in EventTable then EventTable[id] else EventTable[DefaultEventId]
  }

  /** What `loadEventDetails` writes into the page. */
  datatype PageContent = PageContent(
    title: string, month: string, day: string, time: string, location: string,
    description: string, imageSrc: string, imageAlt: string,
    sidebarDate: string, sidebarTime: string, sidebarLocation: string,
    documentTitle: string)

  /** Every element the page fills shows the record: the header, the
      badge, the meta line, the image and its alternative text, the sidebar
      and the document title. */
  predicate Shows(page: PageContent, e: EventRecord) {
    && page.title == e.title && page.imageAlt == e.title
    && page.month == e.month && page.day == e.day
    && page.time == e.time && page.sidebarTime == e.time
    && page.location == e.location && page.description == e.description
    && page.imageSrc == e.image && page.sidebarDate == e.fullDate
    && page.sidebarLocation == e.fullLocation
    && page.documentTitle == e.title + " - Regis Innovation Center"
  }

  /** `loadEventDetails`: the page shows the table entry named by the
      `event` parameter, and the default entry when the name is missing or
      unknown. When decoding throws, the exception leaves the function before
      any element is written, and the page keeps its static content
      (`None`). */
  function LoadEventDetails(search: string, decode: string -> Option<string>): (page: Option<PageContent>)
    ensures page.None? <==> GetUrlParameter(search, "event", decode).None?
    ensures page.Some? ==> var id := GetUrlParameter(search, "event", decode).value;
      Shows(page.value, if id in EventTable then EventTable[id] else EventTable[DefaultEventId])
  {
    match GetUrlParameter(search, "event", decode)
    case None => None
    case Some(eventId) =>
      var e := SelectEvent(eventId);
      Some(PageContent(e.title, e.month, e.day, e.time, e.location, e.description, e.image, e.title,
                       e.fullDate, e.time, e.fullLocation, e.title + " - Regis Innovation Center"))
  }

  /** With no query string the page shows the default event. */
  lemma NoQueryShowsDefault(decode: string -> Option<string>)
    ensures var page := LoadEventDetails("", decode); page.Some? && Shows(page.value, OpenHouse)
  {
    assert forall j :: 0 <= j ==> !ParamAt("", "event", j);
  }

  /** A query whose `event` value decodes to a known name shows that event,
      wherever the parameter sits in the query. */
  lemma LinkedEventIsShown(search: string, j: int, w: string, decode: string -> Option<string>, id: string)
    requires ParamValue(search, "event", j, w)
    requires decode(PlusToSpace(w)) == Some(id) && id in EventTable
    ensures var page := LoadEventDetails(search, decode); page.Some? && Shows(page.value, EventTable[id])
  {
  }

  /** A value whose decoding throws leaves every element as it was. */
  lemma MalformedEventLeavesPage(search: string, j: int, w: string, decode: string -> Option<string>)
    requires ParamValue(search, "event", j, w)
    requires decode(PlusToSpace(w)).None?
    ensures LoadEventDetails(search, decode).None?
  {
  }

  /** A link to a known event shows that event. */
  lemma KnownEventIsShown(id: string, decode: string -> Option<string>)
    requires id in EventTable
    requires forall i :: 0 <= i < |id| ==> IsValueChar(id[i]) && id[i] != '+'
    requires decode(id) == Some(id)
    ensures var page := LoadEventDetails("?event=" + id, decode); page.Some? && Shows(page.value, EventTable[id])
  {
    RawUrlParameterOfQuery("event", id, "");
    assert "?event=" + id == "?" + "event" + "=" + id + "";
    assert PlusToSpace(id) == id;
  }

  // ---------------------------------------------------------------------
  // parseEventDateTime and the two exports
  // ---------------------------------------------------------------------

  /** The page's year rule: October to December are 2025, the rest 2026. */
  function PageYear(month: int): (y: int)
    ensures y == 2025 || y == 2026
  {
    if month >= 9 then 2025 else 2026
  }

  /** The page and the listing put a month in the same year only in
      October. */
  lemma YearRulesAgreeOnlyInOctober(month: int)
    requires 0 <= month <= 11
    ensures PageYear(month) == CardYear(month) <==> month == 9
  {
  }

  /** The year of each entry of the table, by the page's rule, is the year
      its full date names. */
  lemma TableDatesFollowPageYear(id: string)
    requires id in EventTable
    ensures PageYear(MonthIndex(EventTable[id].month)) == 2025
    ensures EventTable[id].fullDate[|EventTable[id].fullDate| - 4..] == "2025"
  {
  }

  /** `months[monthText] || 0` where the text may be `undefined`, which no
      key matches. */
  function PageMonth(monthText: Option<string>): (m: int)
    ensures 0 <= m <= 11
    ensures monthText.None? ==> m == 0
  {
    MonthIndexRange(if monthText.None? then "" else monthText.value);
    if monthText.None? then 0 else MonthIndex(monthText.value)
  }

  /** `parseEventDateTime`. */
  function ParsePageDateTime(monthText: Option<string>, dayText: string, timeText: string): (t: EventTimes)
    ensures t.start.month == t.end.month == PageMonth(monthText)
    ensures t.start.year == t.end.year == PageYear(PageMonth(monthText))
    ensures t.start.day == t.end.day == DayOf(dayText)
  {
    var month := PageMonth(monthText);
    EventTimesFor(PageYear(month), month, DayOf(dayText), timeText)
  }

  /** The same parsing rules as the listing; only the year rule differs. */
  lemma PageParseMatchesListing(monthText: string, dayText: string, timeText: string)
    ensures var p := ParsePageDateTime(Some(monthText), dayText, timeText);
      var c := ParseCardDateTime(monthText, dayText, timeText);
      && p.start.(year := 0) == c.start.(year := 0) && p.end.(year := 0) == c.end.(year := 0)
      && (p == c <==> MonthIndex(monthText) == 9)
  {
    MonthIndexRange(monthText);
    YearRulesAgreeOnlyInOctober(MonthIndex(monthText));
  }

  // `getCurrentEventDetails` reads the header's title, the badge's month
  // and day, the first and second meta texts as time and location, and the
  // description, with the listing's fallbacks: the exports below apply
  // `DetailsFromCard` to those elements of the page.

  /** The times the Google button uses, as written: it passes
      `event.dateText`, a property `getCurrentEventDetails` never sets. */
  function GoogleTimesAsWritten(e: EventDetails): EventTimes {
    ParsePageDateTime(None, e.dayText, e.timeText)
  }

  /** As written, every page's Google link is dated January 2026. */
  lemma GoogleAsWrittenIsAlwaysJanuary(e: EventDetails)
    ensures var t := GoogleTimesAsWritten(e);
      t.start.month == 0 && t.end.month == 0 && t.start.year == 2026 && t.end.year == 2026
  {
  }

  /** The default event's times read "6:00 PM - 8:00 PM". */
  lemma OpenHouseClock()
    ensures var r := TimeRange("6:00 PM - 8:00 PM");
      ParseTime(r.0) == Clock(18, 0) && ParseTime(r.1) == Clock(20, 0)
  {
    var a := Display12(6, 0, true);
    var b := Display12(8, 0, true);
    Display12Shape(6, 0, true);
    Display12Shape(8, 0, true);
    TimeRangeOfPair(a, b);
    ParseTimeOfDisplay12(6, 0, true);
    ParseTimeOfDisplay12(8, 0, true);
    OpenHouseText();
  }

  lemma OpenHouseText()
    ensures Display12(6, 0, true) + " - " + Display12(8, 0, true) == "6:00 PM - 8:00 PM"
  {
    assert Display12(6, 0, true) == "6:00 PM";
    assert Display12(8, 0, true) == "8:00 PM";
  }

  /** On the default event's page (October 16, 6:00 PM to 8:00 PM) the
      Google link as written starts on 16 January 2026 instead of
      16 October 2025. */
  lemma GoogleAsWrittenMisdatesOpenHouse(e: EventDetails)
    requires e.monthText == "Oct" && e.dayText == "16" && e.timeText == "6:00 PM - 8:00 PM"
    ensures GoogleTimesAsWritten(e).start == DateParts(2026, 0, 16, 18, 0)
    ensures GoogleTimes(e).start == DateParts(2025, 9, 16, 18, 0)
  {
    OpenHouseStart(e, None);
    OctoberIndex();
    OpenHouseStart(e, Some("Oct"));
  }

  lemma OctoberIndex()
    ensures MonthIndex("Oct") == 9
  {
    MonthIndexOfName(9);
    assert MonthNames[9] == "Oct";
  }

  lemma OpenHouseStart(e: EventDetails, monthText: Option<string>)
    requires e.dayText == "16" && e.timeText == "6:00 PM - 8:00 PM"
    ensures var m := PageMonth(monthText);
      ParsePageDateTime(monthText, e.dayText, e.timeText).start == DateParts(PageYear(m), m, 16, 18, 0)
  {
    OpenHouseClock();
    DayOfNumber(16);
    SixteenText();
  }

  lemma SixteenText()
    ensures IntToString(16) == "16"
  {
    assert NatToString(1) == "1";
    assert NatToString(16) == NatToString(1) + [DigitChar(6)];
  }

  /** The times the Google button evidently means: the page's month. */
  function GoogleTimes(e: EventDetails): (t: EventTimes)
    ensures t.start.month == t.end.month == MonthIndex(e.monthText)
    ensures t.start.year == t.end.year == PageYear(MonthIndex(e.monthText))
  {
    MonthIndexRange(e.monthText);
    ParsePageDateTime(Some(e.monthText), e.dayText, e.timeText)
  }

  /** `addToGoogleCalendar` with the month it evidently intends. */
  function AddToGoogleCalendar(page: CardText, encode: string -> string): (url: string)
    ensures var e := DetailsFromCard(page);
      var t := GoogleTimes(e);
      && url == GoogleRender + encode(e.title) + DatesParam + GoogleDates(t)
                + DetailsParam + encode(e.description) + LocationParam + encode(e.location)
      && (Normal(t.start) && Normal(t.end) ==> DatesOf(GoogleDates(t), t))
  {
    var e := DetailsFromCard(page);
    NormalDatesReadBack(GoogleTimes(e));
    GoogleCalendarUrl(e, GoogleTimes(e), encode)
  }

  /** `downloadICS`: the listing's file, dated by the page's rules. */
  function DownloadIcs(page: CardText, nowMillis: int, stampNow: string, toIcsDate: DateParts -> string): (f: IcsFile)
    ensures var e := DetailsFromCard(page);
      var t := ParsePageDateTime(Some(e.monthText), e.dayText, e.timeText);
      && f.fileName == IcsFileName(e.title)
      && (SingleLineFields(e, stampNow, toIcsDate(t.start), toIcsDate(t.end)) ==>
            ReadsAsEvent(f.content, e, toIcsDate(t.start), toIcsDate(t.end)))
  {
    var e := DetailsFromCard(page);
    var t := ParsePageDateTime(Some(e.monthText), e.dayText, e.timeText);
    IcsContentReadsAsEvent(e, nowMillis, stampNow, toIcsDate(t.start), toIcsDate(t.end));
    IcsFile(IcsFileName(e.title), Join(IcsLines(e, nowMillis, stampNow, toIcsDate(t.start), toIcsDate(t.end)), CRLF))
  }

  /** The page's file is named after the title, and its DTSTART and DTEND
      lines carry the same times as the page's (corrected) Google link,
      whenever the single-line fields hold no line feed. */
  lemma DownloadIcsMatchesGoogle(page: CardText, nowMillis: int, stampNow: string, toIcsDate: DateParts -> string)
    ensures var e := DetailsFromCard(page);
      var f := DownloadIcs(page, nowMillis, stampNow, toIcsDate);
      var lines := Split(f.content, CRLF);
      f.fileName == IcsFileName(e.title)
      && (NoLineFeed(e.title) && NoLineFeed(e.location) && NoLineFeed(stampNow)
          && NoLineFeed(toIcsDate(GoogleTimes(e).start)) && NoLineFeed(toIcsDate(GoogleTimes(e).end))
          ==> (|lines| == 14 && lines[6] == Calendar.StartTag + toIcsDate(GoogleTimes(e).start)
               && lines[7] == Calendar.EndTag + toIcsDate(GoogleTimes(e).end)))
  {
    var e := DetailsFromCard(page);
    var t := GoogleTimes(e);
    IcsTimes(e, nowMillis, stampNow, toIcsDate(t.start), toIcsDate(t.end));
  }

  lemma IcsTimes(e: EventDetails, nowMillis: int, stampNow: string, s1: string, s2: string)
    ensures var lines := Split(Join(IcsLines(e, nowMillis, stampNow, s1, s2), CRLF), CRLF);
      NoLineFeed(e.title) && NoLineFeed(e.location) && NoLineFeed(stampNow) && NoLineFeed(s1) && NoLineFeed(s2)
      ==> (|lines| == 14 && lines[6] == Calendar.StartTag + s1 && lines[7] == Calendar.EndTag + s2)
  {
    if NoLineFeed(e.title) && NoLineFeed(e.location) && NoLineFeed(stampNow) && NoLineFeed(s1) && NoLineFeed(s2) {
      IcsLinesRoundTrip(e, nowMillis, stampNow, s1, s2);
    }
  }
}

=== FILE: events_api.dfy ===
/** The events JSON endpoint: an in-memory catalogue of six events, a GET
    pipeline that filters by category and featured flag, sorts by date and
    truncates by a limit, a 405 answer for every other method, and the two
    helper functions that look an event up by id and append a new one.
    Dates are day numbers. */
module EventsApi {
  import opened JsRuntime

  datatype Event = Event(
    id: int,
    title: string,
    description: string,
    date: int,
    time: string,
    location: string,
    category: string,
    featured: bool,
    registrationUrl: string,
    image: string)

  /** What the endpoint answers. */
  datatype Response =
    | EventList(events: seq<Event>)
    | MethodNotAllowed(status: int, error: string)

  /** The six events as the script declares them; their dates are set by
      `Catalogue`. */
  const Showcase: Event := Event(1, "Innovation Showcase",
    "Annual showcase of student and startup innovations with investor presentations.",
    0, "6:00 PM - 9:00 PM", "Innovation Center Main Hall", "showcase", true,
    "#", "assets/images/event-showcase.jpg")
  const BusinessModelWorkshop: Event := Event(2, "Entrepreneurship Workshop: Business Model Canvas",
    "Learn how to create and validate your business model with industry experts.",
    0, "2:00 PM - 5:00 PM", "Workshop Room A", "workshop", false,
    "#", "assets/images/event-workshop.jpg")
  const PitchCompetition: Event := Event(3, "Startup Pitch Competition",
    "Compete for $10,000 in seed funding and mentorship opportunities.",
    0, "1:00 PM - 6:00 PM", "Innovation Center Auditorium", "competition", true,
    "#", "assets/images/event-pitch.jpg")
  const AiTechTalk: Event := Event(4, "Tech Talk: AI and Machine Learning Trends",
    "Explore the latest trends in AI and ML with leading researchers.",
    0, "7:00 PM - 8:30 PM", "Conference Room B", "tech-talk", false,
    "#", "assets/images/event-tech-talk.jpg")
  const AlumniNetworking: Event := Event(5, "Networking Night: Alumni Connect",
    "Connect with successful alumni entrepreneurs and build your professional network.",
    0, "6:30 PM - 9:00 PM", "Innovation Center Lounge", "networking", false,
    "#", "assets/images/event-networking.jpg")
  const DesignBootcamp: Event := Event(6, "Design Thinking Bootcamp",
    "Intensive 2-day bootcamp on human-centered design principles.",
    0, "9:00 AM - 5:00 PM", "Innovation Center Workshop Space", "bootcamp", true,
    "#", "assets/images/event-bootcamp.jpg")

  /** The catalogue, given the day the script runs and the day one calendar
      month later (which is 28 to 31 days on). */
  function Catalogue(today: int, oneMonthLater: int): seq<Event> {
    [ Showcase.(date := today + 7),
      BusinessModelWorkshop.(date := today + 14),
      PitchCompetition.(date := today + 21),
      AiTechTalk.(date := oneMonthLater),
      AlumniNetworking.(date := today + 35),
      DesignBootcamp.(date := today + 42) ]
  }

  predicate SortedByDate(s: seq<Event>) {
    forall i, j :: 0 <= i < j < |s| ==> s[i].date <= s[j].date
  }

  predicate DistinctIds(s: seq<Event>) {
    forall i, j :: 0 <= i < j < |s| ==> s[i].id != s[j].id
  }

  /** The catalogue has ids 1 to 6 in order and is already in date order. */
  lemma CatalogueShape(today: int, oneMonthLater: int)
    requires today + 28 <= oneMonthLater <= today + 31
    ensures var c := Catalogue(today, oneMonthLater);
      |c| == 6 && (forall i :: 0 <= i < 6 ==> c[i].id == i + 1)
      && SortedByDate(c) && DistinctIds(c)
  {
    var c := Catalogue(today, oneMonthLater);
    var ids := [c[0].id, c[1].id, c[2].id, c[3].id, c[4].id, c[5].id];
    var dates := [c[0].date, c[1].date, c[2].date, c[3].date, c[4].date, c[5].date];
    assert ids == [1, 2, 3, 4, 5, 6];
    assert dates == [today + 7, today + 14, today + 21, oneMonthLater, today + 35, today + 42];
    assert forall i :: 0 <= i < 6 ==> c[i].id == ids[i] && c[i].date == dates[i];
  }

  // ---------------------------------------------------------------------
  // PHP semantics of the query parameters
  // ---------------------------------------------------------------------

  /** PHP truthiness of an optional string: absent, "" and "0" are false. */
  predicate Truthy(v: Option<string>) {
    v.Some? && v.value != "" && v.value != "0"
  }

  /** Whitespace PHP skips before a number. */
  predicate IsPhpNumericSpace(c: char) {
    c == ' ' || c == '\t' || c == '\n' || c == '\r' || c == '\U{B}' || c == '\U{C}'
  }

  function SkipPhpSpace(s: string): (r: string)
    ensures |r| <= |s| && r == s[|s| - |r|..]
    ensures r == [] || !IsPhpNumericSpace(r[0])
  {
    if s != [] && IsPhpNumericSpace(s[0]) then SkipPhpSpace(s[1..]) else s
  }

  /** The decimal value of the leading digits of `u`; 0 when there are none. */
  function LeadingDecimal(u: string): nat {
    var k := DigitRun(u, 10);
    ValueIn(u[..k], 10)
  }

  /** `(int)` applied to a string: leading whitespace, an optional sign and
      the longest run of decimal digits; anything else gives 0. */
  function PhpIntCast(s: string): int {
    var t := SkipPhpSpace(s);
    if t != [] && t[0] == '-' then 0 - LeadingDecimal(t[1..])
    else if t != [] && t[0] == '+' then LeadingDecimal(t[1..])
    else LeadingDecimal(t)
  }

  /** The cast reads back every decimal integer PHP or JavaScript writes. */
  lemma LeadingDecimalOfNatToString(m: nat)
    ensures LeadingDecimal(NatToString(m)) == m
  {
    var d := NatToString(m);
    DigitRunOfDigits(d);
    assert d[..|d|] == d;
  }

  lemma PhpIntCastOfIntToString(n: int)
    ensures PhpIntCast(IntToString(n)) == n
  {
    var m := if n < 0 then -n else n;
    var d := NatToString(m);
    LeadingDecimalOfNatToString(m);
    assert IsDigit(d[0]);
    PhpIntCastOfDigits(d);
  }

  /** Digits, with or without a minus sign in front, cast to their value. */
  lemma PhpIntCastOfDigits(d: string)
    requires d != [] && IsDigit(d[0])
    ensures PhpIntCast(d) == LeadingDecimal(d)
    ensures PhpIntCast("-" + d) == -(LeadingDecimal(d) as int)
  {
    NoSpaceToSkip(d);
    PhpIntCastOfMinus(d, "-" + d);
  }

  lemma PhpIntCastOfMinus(d: string, s: string)
    requires s == "-" + d
    ensures PhpIntCast(s) == -(LeadingDecimal(d) as int)
  {
    assert s[0] == '-' && s[1..] == d;
    NoSpaceToSkip(s);
  }

  lemma NoSpaceToSkip(s: string)
    requires s != [] && !IsPhpNumericSpace(s[0])
    ensures SkipPhpSpace(s) == s
  {
  }

  /** A string with no digit at its head casts to 0. */
  lemma PhpIntCastOfNonNumeric(s: string)
    requires s != [] && !IsDigit(s[0]) && !IsPhpNumericSpace(s[0]) && s[0] != '-' && s[0] != '+'
    ensures PhpIntCast(s) == 0
  {
    assert SkipPhpSpace(s) == s;
  }

  /** `array_slice($s, 0, $length)`: a positive length keeps at most that
      many from the front, a negative one drops that many from the end. */
  function SliceFromStart(s: seq<Event>, length: int): (r: seq<Event>)
    requires length != 0
    ensures |r| <= |s| && r == s[..|r|]
    ensures length > 0 ==> |r| == if length < |s| then length else |s|
    ensures length < 0 ==> |r| == if |s| + length > 0 then |s| + length else 0
  {
    if length > 0 then
      (if length < |s| then s[..length] else s)
    else
      (if |s| + length > 0 then s[..|s| + length] else [])
  }

  /** `if ($limit) array_slice(...)`: no limit or a zero limit keeps all. */
  function ApplyLimit(s: seq<Event>, limit: Option<int>): (r: seq<Event>)
    ensures |r| <= |s| && r == s[..|r|]
    ensures limit.None? || limit == Some(0) ==> r == s
  {
    if limit.Some? && limit.value != 0 then SliceFromStart(s, limit.value) else s
  }

  // ---------------------------------------------------------------------
  // Filters and sorting
  // ---------------------------------------------------------------------

  /** `array_filter` followed by reindexing: the order is kept. */
  function Filter(s: seq<Event>, keep: Event -> bool): (r: seq<Event>)
    ensures |r| <= |s|
    ensures forall i :: 0 <= i < |r| ==> keep(r[i])
  {
    if s == [] then []
    else if keep(s[0]) then [s[0]] + Filter(s[1..], keep)
    else Filter(s[1..], keep)
  }

  /** The filter keeps every occurrence of a kept event and drops every
      occurrence of the others. */
  lemma {:induction false} FilterCounts(s: seq<Event>, keep: Event -> bool, e: Event)
    ensures multiset(Filter(s, keep))[e] == if keep(e) then multiset(s)[e] else 0
  {
    if s != [] {
      FilterCounts(s[1..], keep, e);
      assert s == [s[0]] + s[1..];
    }
  }

  function CategoryFilter(category: Option<string>): Event -> bool {
    (e: Event) => !Truthy(category) || e.category == category.value
  }

  function FeaturedFilter(featuredOnly: bool): Event -> bool {
    (e: Event) => !featuredOnly || e.featured
  }

  /** Insertion sort on the date, in place; stable, as PHP 8's `usort`. */
  method SortByDate(a: array<Event>)
    modifies a
    ensures SortedByDate(a[..])
    ensures multiset(a[..]) == multiset(old(a[..]))
  {
    if a.Length == 0 {
      return;
    }
    var i := 1;
    while i < a.Length
      invariant 1 <= i <= a.Length
      invariant SortedByDate(a[..i])
      invariant multiset(a[..]) == multiset(old(a[..]))
    {
      InsertInto(a, i);
      i := i + 1;
    }
    assert a[..a.Length] == a[..];
  }

  /** One pass of the insertion sort: moves `a[i]` left past every later
      date, into the sorted prefix `a[..i]`. */
  method InsertInto(a: array<Event>, i: int)
    requires 1 <= i < a.Length && SortedByDate(a[..i])
    modifies a
    ensures SortedByDate(a[..i + 1])
    ensures multiset(a[..]) == multiset(old(a[..]))
  {
    var j := i;
    InsertStart(a[..], i);
    while j > 0 && a[j - 1].date > a[j].date
      invariant 0 <= j <= i
      invariant multiset(a[..]) == multiset(old(a[..]))
      invariant InsertInv(a[..], i, j)
    {
      InsertStep(a[..], i, j);
      a[j - 1], a[j] := a[j], a[j - 1];
      j := j - 1;
    }
    InsertEnd(a[..], i, j);
  }

  /** While `s[j]` travels left: every pair not involving `j` is ordered,
      everything right of `j` up to `i` is later, and `j`'s neighbours are
      ordered with each other. */
  ghost predicate InsertInv(s: seq<Event>, i: int, j: int) {
    && 0 <= j <= i < |s|
    && (forall k, l :: 0 <= k < l <= i && k != j && l != j ==> s[k].date <= s[l].date)
    && (forall l :: j < l <= i ==> s[j].date < s[l].date)
    && (0 < j < i ==> s[j - 1].date <= s[j + 1].date)
  }

  lemma InsertStart(s: seq<Event>, i: int)
    requires 1 <= i < |s| && SortedByDate(s[..i])
    ensures InsertInv(s, i, i)
  {
    forall k, l | 0 <= k < l <= i && k != i && l != i
      ensures s[k].date <= s[l].date
    {
      assert s[k] == s[..i][k] && s[l] == s[..i][l];
    }
  }

  lemma InsertStep(s: seq<Event>, i: int, j: int)
    requires InsertInv(s, i, j) && 0 < j && s[j - 1].date > s[j].date
    ensures InsertInv(s[j - 1 := s[j]][j := s[j - 1]], i, j - 1)
    ensures multiset(s[j - 1 := s[j]][j := s[j - 1]]) == multiset(s)
  {
  }

  lemma InsertEnd(s: seq<Event>, i: int, j: int)
    requires InsertInv(s, i, j) && (j == 0 || s[j - 1].date <= s[j].date)
    ensures SortedByDate(s[..i + 1])
  {
    forall k, l | 0 <= k < l <= i
      ensures s[k].date <= s[l].date
    {
      if l == j && k < j - 1 {
        assert s[k].date <= s[j - 1].date;
      }
    }
  }

  // ---------------------------------------------------------------------
  // The endpoint
  // ---------------------------------------------------------------------

  class EventsEndpoint {
    /** The global `$events`. */
    var events: seq<Event>

    ghost predicate Valid()
      reads this
    {
      |events| > 0
    }

    constructor (today: int, oneMonthLater: int)
      ensures Valid() && events == Catalogue(today, oneMonthLater)
    {
      events := Catalogue(today, oneMonthLater);
    }

    /** One request. GET reads `category`, `featured` and `limit` from the
        query; every other method gets 405. A GET answer is the catalogue
        filtered by category (when truthy) and by the featured flag (when
        `featured` is exactly "true"), in date order, then truncated. */
    method HandleRequest(requestMethod: string, query: map<string, string>) returns (r: Response)
      requires Valid()
      ensures requestMethod != "GET" <==> r == MethodNotAllowed(405, "Method not allowed")
      ensures requestMethod == "GET" ==> r.EventList? && Listing(events,
        if "category" in query then Some(query["category"]) else None,
        "featured" in query && query["featured"] == "true",
        if "limit" in query then Some(PhpIntCast(query["limit"])) else None,
        r.events)
    {
      if requestMethod != "GET" {
        return MethodNotAllowed(405, "Method not allowed");
      }
      var category := if "category" in query then Some(query["category"]) else None;
      var featuredOnly := "featured" in query && query["featured"] == "true";
      var limit := if "limit" in query then Some(PhpIntCast(query["limit"])) else None;
      var result := ListEvents(events, category, featuredOnly, limit);
      r := EventList(result);
    }

    /** `getEventById`: the first event with that id, or nothing. */
    method GetEventById(id: int) returns (r: Option<Event>)
      ensures r.Some? ==> exists i :: 0 <= i < |events| && events[i] == r.value
                            && r.value.id == id && forall j :: 0 <= j < i ==> events[j].id != id
      ensures r.None? <==> forall i :: 0 <= i < |events| ==> events[i].id != id
    {
      var i := 0;
      while i < |events|
        invariant 0 <= i <= |events|
        invariant forall j :: 0 <= j < i ==> events[j].id != id
      {
        if events[i].id == id {
          return Some(events[i]);
        }
        i := i + 1;
      }
      return None;
    }

    /** `addEvent`: stores the data under the next id and returns it. */
    method AddEvent(data: Event) returns (stored: Event)
      requires Valid()
      modifies this
      ensures Valid()
      ensures stored == data.(id := MaxId(old(events)) + 1)
      ensures events == old(events) + [stored]
      ensures forall i :: 0 <= i < |old(events)| ==> old(events)[i].id < stored.id
    {
      stored := data.(id := MaxId(events) + 1);
      events := events + [stored];
    }
  }

  /** What a GET answers: the events left by the category filter and then
      the featured filter, in date order, truncated by the limit. */
  ghost predicate Listing(events: seq<Event>, category: Option<string>, featuredOnly: bool,
                          limit: Option<int>, result: seq<Event>)
  {
    var filtered := Filter(Filter(events, CategoryFilter(category)), FeaturedFilter(featuredOnly));
    exists sorted :: SortedByDate(sorted) && multiset(sorted) == multiset(filtered)
      && result == ApplyLimit(sorted, limit)
  }

  /** The GET branch of the handler: each filter applies only when its
      parameter asks for it, then the sort and the limit. */
  method ListEvents(events: seq<Event>, category: Option<string>, featuredOnly: bool, limit: Option<int>)
    returns (result: seq<Event>)
    ensures Listing(events, category, featuredOnly, limit, result)
  {
    var filtered := events;
    if Truthy(category) {
      filtered := Filter(filtered, CategoryFilter(category));
    } else {
      assert forall i :: 0 <= i < |filtered| ==> CategoryFilter(category)(filtered[i]);
      FilterKeepingAll(filtered, CategoryFilter(category));
    }
    if featuredOnly {
      filtered := Filter(filtered, FeaturedFilter(featuredOnly));
    } else {
      FilterKeepingAll(filtered, FeaturedFilter(featuredOnly));
    }

    var a := new Event[|filtered|](i requires 0 <= i < |filtered| => filtered[i]);
    assert a[..] == filtered;
    SortByDate(a);
    var sorted := a[..];
    result := ApplyLimit(sorted, limit);
  }

  /** Filtering with a predicate every element meets changes nothing. */
  lemma {:induction false} FilterKeepingAll(s: seq<Event>, keep: Event -> bool)
    requires forall i :: 0 <= i < |s| ==> keep(s[i])
    ensures Filter(s, keep) == s
  {
    if s != [] {
      FilterKeepingAll(s[1..], keep);
    }
  }

  /** `max(array_column($events, 'id'))`. */
  function MaxId(s: seq<Event>): (m: int)
    requires |s| > 0
    ensures forall i :: 0 <= i < |s| ==> s[i].id <= m
    ensures exists i :: 0 <= i < |s| && s[i].id == m
  {
    if |s| == 1 then s[0].id
    else
      var rest := MaxId(s[1..]);
      assert forall i :: 1 <= i < |s| ==> s[i] == s[1..][i - 1];
      if s[0].id >= rest then s[0].id else rest
  }

  /** A GET answer is in date order. */
  lemma LimitKeepsDateOrder(sorted: seq<Event>, limit: Option<int>)
    requires SortedByDate(sorted)
    ensures SortedByDate(ApplyLimit(sorted, limit))
  {
  }

  /** Every event of a GET answer carries the requested category (when it is
      truthy) and is featured (when only featured events were asked for). */
  lemma AnswerMatchesFilters(events: seq<Event>, category: Option<string>, featuredOnly: bool,
                             limit: Option<int>, result: seq<Event>)
    requires Listing(events, category, featuredOnly, limit, result)
    ensures forall i :: 0 <= i < |result| ==>
      (Truthy(category) ==> result[i].category == category.value) && (featuredOnly ==> result[i].featured)
  {
    var f1 := Filter(events, CategoryFilter(category));
    var sorted :| SortedByDate(sorted) && multiset(sorted) == multiset(Filter(f1, FeaturedFilter(featuredOnly)))
      && result == ApplyLimit(sorted, limit);
    forall i | 0 <= i < |result|
      ensures CategoryFilter(category)(result[i]) && FeaturedFilter(featuredOnly)(result[i])
    {
      var e := result[i];
      assert e == sorted[i];
      assert e in multiset(sorted);
      FilterCounts(f1, FeaturedFilter(featuredOnly), e);
      FilterCounts(events, CategoryFilter(category), e);
    }
  }

  /** A GET answer holds catalogue events only, none more often than in the
      catalogue (so each at most once, the catalogue's events being distinct). */
  lemma AnswerFromCatalogue(events: seq<Event>, category: Option<string>, featuredOnly: bool,
                            limit: Option<int>, result: seq<Event>, e: Event)
    requires Listing(events, category, featuredOnly, limit, result)
    ensures multiset(result)[e] <= multiset(events)[e]
  {
    var f1 := Filter(events, CategoryFilter(category));
    var sorted :| SortedByDate(sorted) && multiset(sorted) == multiset(Filter(f1, FeaturedFilter(featuredOnly)))
      && result == ApplyLimit(sorted, limit);
    LimitCounts(sorted, limit, e);
    FilterCounts(f1, FeaturedFilter(featuredOnly), e);
    FilterCounts(events, CategoryFilter(category), e);
  }

  /** The limit only drops events. */
  lemma LimitCounts(s: seq<Event>, limit: Option<int>, e: Event)
    ensures multiset(ApplyLimit(s, limit))[e] <= multiset(s)[e]
  {
    var r := ApplyLimit(s, limit);
    assert s == r + s[|r|..];
    assert multiset(s) == multiset(r) + multiset(s[|r|..]);
  }

  /** A GET answer is in date order. */
  lemma AnswerInDateOrder(events: seq<Event>, category: Option<string>, featuredOnly: bool,
                          limit: Option<int>, result: seq<Event>)
    requires Listing(events, category, featuredOnly, limit, result)
    ensures SortedByDate(result)
  {
    var sorted :| SortedByDate(sorted)
      && multiset(sorted) == multiset(Filter(Filter(events, CategoryFilter(category)), FeaturedFilter(featuredOnly)))
      && result == ApplyLimit(sorted, limit);
    LimitKeepsDateOrder(sorted, limit);
  }
}

=== FILE: js_runtime.dfy ===
/** The JavaScript built-ins that the site's scripts lean on, restated over
    `string` (a sequence of Unicode scalar values; UTF-16 surrogate detail is
    not modelled): the `\s` class and `trim`, `String(n)`, `padStart`,
    `parseInt`, `split`/`join`, the `%` operator and a first-letter
    `toUpperCase`. */
module JsRuntime {

  datatype Option<+T> = None | Some(value: T)

  // ---------------------------------------------------------------------
  // Whitespace and trim
  // ---------------------------------------------------------------------

  /** The characters of `\s`, which are also the ones `String.prototype.trim`
      removes: WhiteSpace and LineTerminator of ECMAScript. */
  predicate IsJsSpace(c: char) {
    var x := c as int;
    (9 <= x <= 13) || x == 0x20 || x == 0xA0 || x == 0x1680 || (0x2000 <= x <= 0x200A)
    || x == 0x2028 || x == 0x2029 || x == 0x202F || x == 0x205F || x == 0x3000 || x == 0xFEFF
  }

  predicate NoSpace(s: string) {
    forall i :: 0 <= i < |s| ==> !IsJsSpace(s[i])
  }

  /** Drops the leading whitespace: the result is the suffix of `s` that
      starts at the first non-space character. */
  function TrimStart(s: string): (r: string)
    ensures |r| <= |s| && r == s[|s| - |r|..]
    ensures forall i :: 0 <= i < |s| - |r| ==> IsJsSpace(s[i])
    ensures r == [] || !IsJsSpace(r[0])
    decreases |s|
  {
    if s != [] && IsJsSpace(s[0]) then TrimStart(s[1..]) else s
  }

  /** Drops the trailing whitespace: the result is the prefix of `s` that
      ends at the last non-space character. */
  function TrimEnd(s: string): (r: string)
    ensures |r| <= |s| && r == s[..|r|]
    ensures forall i :: |r| <= i < |s| ==> IsJsSpace(s[i])
    ensures r == [] || !IsJsSpace(r[|r| - 1])
    decreases |s|
  {
    if s != [] && IsJsSpace(s[|s| - 1]) then TrimEnd(s[..|s| - 1]) else s
  }

  /** `String.prototype.trim`. */
  function Trim(s: string): string {
    TrimEnd(TrimStart(s))
  }

  lemma TrimOfNonSpaceEnds(s: string)
    requires s != [] && !IsJsSpace(s[0]) && !IsJsSpace(s[|s| - 1])
    ensures Trim(s) == s
  {
  }

  // ---------------------------------------------------------------------
  // Digits, String(n), padStart
  // ---------------------------------------------------------------------

  /** The value `parseInt` gives a character as a digit (letters count from
      10, case-insensitively); 36 for a character that is no digit at all. */
  function DigitWeight(c: char): nat {
    if '0' <= c <= '9' then (c as int) - ('0' as int)
    else if 'a' <= c <= 'z' then (c as int) - ('a' as int) + 10
    else if 'A' <= c <= 'Z' then (c as int) - ('A' as int) + 10
    else 36
  }

  predicate IsRadixDigit(c: char, radix: nat) {
    DigitWeight(c) < radix
  }

  predicate IsDigit(c: char) {
    '0' <= c <= '9'
  }

  predicate AllDigits(s: string) {
    forall i :: 0 <= i < |s| ==> IsDigit(s[i])
  }

  /** The number a run of digits spells in `radix`. */
  function ValueIn(s: string, radix: nat): nat
    requires forall i :: 0 <= i < |s| ==> IsRadixDigit(s[i], radix)
    decreases |s|
  {
    if s == [] then 0
    else
      PrefixDigits(s, |s| - 1, radix);
      var v := ValueIn(s[..|s| - 1], radix);
      NatProduct(radix, v);
      radix * v + DigitWeight(s[|s| - 1])
  }

  lemma NatProduct(a: nat, b: nat)
    ensures a * b >= 0
  {
  }

  lemma PrefixDigits(s: string, n: nat, radix: nat)
    requires n <= |s| && forall i :: 0 <= i < |s| ==> IsRadixDigit(s[i], radix)
    ensures forall i :: 0 <= i < n ==> IsRadixDigit(s[..n][i], radix)
  {
    forall i | 0 <= i < n
      ensures IsRadixDigit(s[..n][i], radix)
    {
      assert s[..n][i] == s[i];
    }
  }

  /** Length of the longest prefix of `s` made of `radix` digits. */
  function DigitRun(s: string, radix: nat): (k: nat)
    ensures k <= |s|
    ensures forall i :: 0 <= i < k ==> IsRadixDigit(s[i], radix)
    ensures k < |s| ==> !IsRadixDigit(s[k], radix)
    decreases |s|
  {
    if s != [] && IsRadixDigit(s[0], radix) then 1 + DigitRun(s[1..], radix) else 0
  }

  function DigitChar(d: nat): (c: char)
    requires d < 10
    ensures IsDigit(c) && DigitWeight(c) == d
  {
    (d + ('0' as int)) as char
  }

  /** `String(n)` for a non-negative integer: decimal, no leading zero. */
  function NatToString(n: nat): (s: string)
    ensures |s| > 0 && AllDigits(s)
    ensures forall i :: 0 <= i < |s| ==> IsRadixDigit(s[i], 10)
    ensures ValueIn(s, 10) == n
    ensures s[0] == '0' ==> n == 0 && |s| == 1
    decreases n
  {
    if n < 10 then [DigitChar(n)]
    else
      var front := NatToString(n / 10);
      var s := front + [DigitChar(n % 10)];
      assert s[..|s| - 1] == front;
      s
  }

  /** `String(n)` for any integer. */
  function IntToString(n: int): (s: string)
    ensures |s| > 0
    ensures n >= 0 ==> s == NatToString(n)
    ensures n < 0 ==> s == "-" + NatToString(-n)
  {
    if n < 0 then "-" + NatToString(-n) else NatToString(n)
  }

  function Repeat(c: char, k: nat): (r: string)
    ensures |r| == k && forall i :: 0 <= i < k ==> r[i] == c
  {
    if k == 0 then [] else [c] + Repeat(c, k - 1)
  }

  /** `s.padStart(width, fill)` for a one-character fill string. */
  function PadStart(s: string, width: nat, fill: char): (r: string)
    ensures |s| >= width ==> r == s
    ensures |s| < width ==> |r| == width && r[width - |s|..] == s
    ensures |s| < width ==> forall i :: 0 <= i < width - |s| ==> r[i] == fill
  {
    if |s| >= width then s else Repeat(fill, width - |s|) + s
  }

  // ---------------------------------------------------------------------
  // parseInt
  // ---------------------------------------------------------------------

  /** The part of `parseInt` after the sign: a `0x`/`0X` prefix switches to
      base 16, then the longest run of digits is read; no digit gives NaN,
      written `None`. */
  function ParseUnsigned(u: string): Option<nat> {
    var hex := |u| >= 2 && u[0] == '0' && (u[1] == 'x' || u[1] == 'X');
    var radix := if hex then 16 else 10;
    var body := if hex then u[2..] else u;
    var k := DigitRun(body, radix);
    if k == 0 then None else Some(ValueIn(body[..k], radix))
  }

  /** `parseInt(s)` with no radix argument: leading whitespace skipped, then
      an optional sign. */
  function ParseInt(s: string): Option<int> {
    var t := TrimStart(s);
    if t != [] && t[0] == '-' then
      match ParseUnsigned(t[1..])
      case None => None
      case Some(v) => Some(0 - v as int)
    else if t != [] && t[0] == '+' then
      match ParseUnsigned(t[1..])
      case None => None
      case Some(v) => Some(v)
    else
      match ParseUnsigned(t)
      case None => None
      case Some(v) => Some(v)
  }

  lemma DigitRunOfDigits(s: string)
    requires forall i :: 0 <= i < |s| ==> IsRadixDigit(s[i], 10)
    ensures DigitRun(s, 10) == |s|
    decreases |s|
  {
    if s != [] { DigitRunOfDigits(s[1..]); }
  }

  lemma ParseUnsignedOfNatToString(n: nat)
    ensures ParseUnsigned(NatToString(n)) == Some(n)
  {
    var d := NatToString(n);
    DigitRunOfDigits(d);
    assert d[..|d|] == d;
  }

  /** A run of digits followed by a non-digit is read exactly to its end. */
  lemma {:induction false} DigitRunOfDigitsThen(d: string, t: string)
    requires forall i :: 0 <= i < |d| ==> IsRadixDigit(d[i], 10)
    requires t == [] || !IsRadixDigit(t[0], 10)
    ensures DigitRun(d + t, 10) == |d|
    decreases |d|
  {
    if d == [] {
      assert d + t == t;
    } else {
      assert (d + t)[1..] == d[1..] + t;
      DigitRunOfDigitsThen(d[1..], t);
    }
  }

  lemma {:induction false} ValueInZeros(z: nat)
    ensures ValueIn(Repeat('0', z), 10) == 0
  {
    if z > 0 {
      var r := Repeat('0', z);
      assert r[..z - 1] == Repeat('0', z - 1);
      ValueInZeros(z - 1);
    }
  }

  /** Leading zeros do not change the value of a decimal numeral. */
  lemma {:induction false} ValueInLeadingZeros(z: nat, d: string)
    requires forall i :: 0 <= i < |d| ==> IsRadixDigit(d[i], 10)
    ensures ValueIn(Repeat('0', z) + d, 10) == ValueIn(d, 10)
    decreases |d|
  {
    var r := Repeat('0', z) + d;
    if d == [] {
      assert r == Repeat('0', z);
      ValueInZeros(z);
    } else {
      assert r[..|r| - 1] == Repeat('0', z) + d[..|d| - 1];
      assert r[|r| - 1] == d[|d| - 1];
      ValueInLeadingZeros(z, d[..|d| - 1]);
    }
  }

  /** How many digits `String(n)` has for the sizes the site formats. */
  lemma NatToStringLength(n: nat)
    ensures n < 10 ==> |NatToString(n)| == 1
    ensures 10 <= n < 100 ==> |NatToString(n)| == 2
    ensures 100 <= n < 1000 ==> |NatToString(n)| == 3
    ensures 1000 <= n < 10000 ==> |NatToString(n)| == 4
    decreases n
  {
    if n >= 10 {
      NatToStringLength(n / 10);
    }
  }

  /** `parseInt` reads back what `String(n)` writes. */
  lemma {:induction false} ParseIntOfIntToString(n: int)
    ensures ParseInt(IntToString(n)) == Some(n)
  {
    var s := IntToString(n);
    var d := NatToString(if n < 0 then -n else n);
    ParseUnsignedOfNatToString(if n < 0 then -n else n);
    assert IsDigit(d[0]);
    if n < 0 {
      assert s[0] == '-' && s[1..] == d;
    } else {
      assert s == d;
    }
    assert !IsJsSpace(s[0]);
    assert TrimStart(s) == s;
  }

  // ---------------------------------------------------------------------
  // indexOf, split and join
  // ---------------------------------------------------------------------

  predicate OccursAt(s: string, sep: string, j: int) {
    0 <= j && j + |sep| <= |s| && s[j..j + |sep|] == sep
  }

  function IndexFrom(s: string, sep: string, i: nat): (r: Option<nat>)
    ensures r.Some? ==> i <= r.value && OccursAt(s, sep, r.value)
    ensures r.Some? ==> forall j :: i <= j < r.value ==> !OccursAt(s, sep, j)
    ensures r.None? ==> forall j :: i <= j ==> !OccursAt(s, sep, j)
    decreases |s| + 1 - i
  {
    if i + |sep| > |s| then None
    else if s[i..i + |sep|] == sep then Some(i)
    else IndexFrom(s, sep, i + 1)
  }

  /** `s.indexOf(sep)`: the first place where `sep` occurs. */
  function IndexOf(s: string, sep: string): (r: Option<nat>)
    ensures r.Some? ==> OccursAt(s, sep, r.value)
    ensures r.Some? ==> forall j :: 0 <= j < r.value ==> !OccursAt(s, sep, j)
    ensures r.None? ==> forall j :: 0 <= j ==> !OccursAt(s, sep, j)
  {
    IndexFrom(s, sep, 0)
  }

  /** `s.split(sep)` for a non-empty separator string. */
  function Split(s: string, sep: string): (parts: seq<string>)
    requires |sep| > 0
    ensures |parts| >= 1
    decreases |s|
  {
    match IndexOf(s, sep)
    case None => [s]
    case Some(j) => [s[..j]] + Split(s[j + |sep|..], sep)
  }

  /** `parts.join(sep)`. */
  function Join(parts: seq<string>, sep: string): string
    decreases |parts|
  {
    if parts == [] then ""
    else if |parts| == 1 then parts[0]
    else parts[0] + sep + Join(parts[1..], sep)
  }

  /** Joining the pieces of a split gives the text back. */
  lemma {:induction false} JoinSplit(s: string, sep: string)
    requires |sep| > 0
    ensures Join(Split(s, sep), sep) == s
    decreases |s|
  {
    var r := IndexOf(s, sep);
    if r.Some? {
      var j := r.value;
      var rest := s[j + |sep|..];
      SplitAtFirst(s, sep, j);
      calc {
        Join(Split(s, sep), sep);
        Join([s[..j]] + Split(rest, sep), sep);
        { JoinCons(s[..j], Split(rest, sep), sep); }
        s[..j] + sep + Join(Split(rest, sep), sep);
        { JoinSplit(rest, sep); }
        s[..j] + sep + rest;
        { AroundOccurrence(s, sep, j); }
        s;
      }
    } else {
      assert Split(s, sep) == [s];
    }
  }

  lemma SplitAtFirst(s: string, sep: string, j: nat)
    requires |sep| > 0 && IndexOf(s, sep) == Some(j)
    ensures j + |sep| <= |s|
    ensures Split(s, sep) == [s[..j]] + Split(s[j + |sep|..], sep)
  {
  }

  lemma JoinCons(head: string, tail: seq<string>, sep: string)
    requires |tail| >= 1
    ensures Join([head] + tail, sep) == head + sep + Join(tail, sep)
  {
    assert ([head] + tail)[0] == head && ([head] + tail)[1..] == tail;
  }

  lemma AroundOccurrence(s: string, sep: string, j: int)
    requires OccursAt(s, sep, j)
    ensures s == s[..j] + sep + s[j + |sep|..]
  {
    assert s == s[..j] + s[j..j + |sep|] + s[j + |sep|..];
  }

  predicate NoLineFeed(s: string) {
    '\n' !in s
  }

  lemma NoLineFeedAppend(a: string, b: string)
    requires NoLineFeed(a) && NoLineFeed(b)
    ensures NoLineFeed(a + b)
  {
  }

  const CRLF: string := "\r\n"

  /** Lines without a line feed, joined with CRLF, split back into
      themselves. */
  lemma SplitJoinLines(lines: seq<string>)
    requires lines != []
    requires forall k :: 0 <= k < |lines| ==> NoLineFeed(lines[k])
    ensures Split(Join(lines, CRLF), CRLF) == lines
  {
    var last := CRLF[|CRLF| - 1];
    assert last == '\n' && CRLF[0] != last;
    forall k, i | 0 <= k < |lines| && 0 <= i < |lines[k]|
      ensures lines[k][i] != last
    {
      assert lines[k][i] in lines[k];
    }
    SplitJoin(lines, CRLF);
  }

  /** Where `sep` occurs, its last character sits at the end of the match. */
  lemma OccurrenceEndsWithLast(s: string, sep: string, j: int)
    requires |sep| > 0
    ensures OccursAt(s, sep, j) ==> s[j + |sep| - 1] == sep[|sep| - 1]
  {
    if OccursAt(s, sep, j) {
      assert s[j + |sep| - 1] == s[j..j + |sep|][|sep| - 1];
    }
  }

  /** When the separator's last character occurs in it only at the end and
      in no piece, splitting the joined text gives the pieces back. */
  lemma {:induction false} SplitJoin(parts: seq<string>, sep: string)
    requires |sep| > 0
    requires parts != []
    requires forall i :: 0 <= i < |sep| - 1 ==> sep[i] != sep[|sep| - 1]
    requires forall k, i :: 0 <= k < |parts| && 0 <= i < |parts[k]| ==> parts[k][i] != sep[|sep| - 1]
    ensures Split(Join(parts, sep), sep) == parts
    decreases |parts|
  {
    var p := parts[0];
    if |parts| == 1 {
      forall j | 0 <= j ensures !OccursAt(p, sep, j) {
        OccurrenceEndsWithLast(p, sep, j);
      }
      assert IndexOf(p, sep).None?;
    } else {
      var rest := Join(parts[1..], sep);
      var s := Join(parts, sep);
      assert s == p + sep + rest;
      assert s[..|p|] == p;
      assert s[|p|..|p| + |sep|] == sep;
      assert s[|p| + |sep|..] == rest;
      forall j | 0 <= j < |p| ensures !OccursAt(s, sep, j) {
        OccurrenceEndsWithLast(s, sep, j);
        var e := j + |sep| - 1;
        assert e < |p| ==> s[e] == p[e];
        assert |p| <= e < |p| + |sep| ==> s[e] == sep[e - |p|];
      }
      assert OccursAt(s, sep, |p|);
      assert IndexOf(s, sep) == Some(|p|);
      SplitJoin(parts[1..], sep);
    }
  }

  // ---------------------------------------------------------------------
  // Small helpers
  // ---------------------------------------------------------------------

  /** JavaScript's `%`: the remainder takes the sign of the dividend. */
  function JsRem(a: int, b: int): (r: int)
    requires b > 0
    ensures a >= 0 ==> r == a % b && 0 <= r < b
    ensures a < 0 ==> -b < r <= 0
  {
    if a >= 0 then a % b else -((-a) % b)
  }

  // Facts about Euclidean `%` used by the index rotators.

  lemma MulBound(d: int, m: int)
    requires m > 0
    ensures d >= 1 ==> d * m >= m
    ensures d <= -1 ==> d * m <= -m
  {
  }

  /** Euclidean division is unique. */
  lemma ModUnique(x: int, m: int, q: int, r: int)
    requires m > 0 && 0 <= r < m && x == q * m + r
    ensures x % m == r
  {
    var q0, r0 := x / m, x % m;
    assert x == q0 * m + r0;
    assert (q - q0) * m == q * m - q0 * m;
    MulBound(q - q0, m);
  }

  lemma ModSucc(k: nat, m: int)
    requires m > 0
    ensures (k + 1) % m == if k % m == m - 1 then 0 else k % m + 1
  {
    var q, r := k / m, k % m;
    assert k == q * m + r;
    if r == m - 1 {
      assert (q + 1) * m == q * m + m;
      ModUnique(k + 1, m, q + 1, 0);
    } else {
      ModUnique(k + 1, m, q, r + 1);
    }
  }

  /** `toUpperCase` on one character; only a-z is mapped. */
  function UpperAscii(c: char): (u: char)
    ensures 'a' <= c <= 'z' ==> 'A' <= u <= 'Z' && (u as int) - ('A' as int) == (c as int) - ('a' as int)
    ensures !('a' <= c <= 'z') ==> u == c
  {
    if 'a' <= c <= 'z' then ((c as int) - ('a' as int) + ('A' as int)) as char else c
  }

  /** `s.charAt(0).toUpperCase() + s.slice(1)`. */
  function UpperFirst(s: string): (r: string)
    ensures |r| == |s|
    ensures s != [] ==> r[0] == UpperAscii(s[0]) && r[1..] == s[1..]
  {
    if s == [] then [] else [UpperAscii(s[0])] + s[1..]
  }

  predicate HasChar(s: string, c: char) {
    c in s
  }

  /** `s.includes(sub)`. */
  predicate Includes(s: string, sub: string) {
    IndexOf(s, sub).Some?
  }

  /** Text that lacks the first character of `sub` does not include it. */
  lemma NotIncludedWithoutFirst(s: string, sub: string)
    requires |sub| > 0 && sub[0] !in s
    ensures !Includes(s, sub)
  {
    forall j | 0 <= j
      ensures !OccursAt(s, sub, j)
    {
      if j + |sub| <= |s| {
        assert s[j..j + |sub|][0] == s[j];
      }
    }
  }

  /** The decimal digits of `s`, in order. */
  function KeepDigits(s: string): (r: string)
    ensures AllDigits(r) && |r| <= |s|
    ensures forall i :: 0 <= i < |r| ==> IsRadixDigit(r[i], 10)
  {
    if s == [] then []
    else if IsDigit(s[0]) then [s[0]] + KeepDigits(s[1..])
    else KeepDigits(s[1..])
  }

  lemma KeepDigitsAppend(a: string, b: string)
    ensures KeepDigits(a + b) == KeepDigits(a) + KeepDigits(b)
    decreases |a|
  {
    if a != [] {
      assert (a + b)[1..] == a[1..] + b;
      KeepDigitsAppend(a[1..], b);
    } else {
      assert a + b == b;
    }
  }

  lemma KeepDigitsOfDigits(s: string)
    requires AllDigits(s)
    ensures KeepDigits(s) == s
    decreases |s|
  {
    if s != [] { KeepDigitsOfDigits(s[1..]); }
  }

  lemma KeepDigitsOfNonDigits(s: string)
    requires forall i :: 0 <= i < |s| ==> !IsDigit(s[i])
    ensures KeepDigits(s) == []
    decreases |s|
  {
    if s != [] { KeepDigitsOfNonDigits(s[1..]); }
  }

  predicate NoDigit(s: string) {
    forall i :: 0 <= i < |s| ==> !IsDigit(s[i])
  }

  /** A number between marks that hold no digit keeps exactly its digits. */
  lemma KeepDigitsOfMarked(a: string, d: string, b: string)
    requires NoDigit(a) && AllDigits(d) && NoDigit(b)
    ensures KeepDigits(a + d + b) == d
  {
    KeepDigitsAppend(a + d, b);
    KeepDigitsAppend(a, d);
    KeepDigitsOfNonDigits(a);
    KeepDigitsOfNonDigits(b);
    KeepDigitsOfDigits(d);
    assert [] + d + [] == d;
  }

  /** A non-digit character occurs in a marked number exactly when one of
      the marks holds it. */
  lemma MarkedHasChar(a: string, d: string, b: string, c: char)
    requires AllDigits(d) && !IsDigit(c)
    ensures HasChar(a + d + b, c) <==> c in a || c in b
  {
    var s := a + d + b;
    forall i | |a| <= i < |a| + |d|
      ensures s[i] != c
    {
      assert s[i] == d[i - |a|];
    }
    if c in s {
      var i :| 0 <= i < |s| && s[i] == c;
      if i < |a| { assert a[i] == c; }
      else if i >= |a| + |d| { assert b[i - |a| - |d|] == c; }
    }
    if c in a {
      var i :| 0 <= i < |a| && a[i] == c;
      assert s[i] == c;
    }
    if c in b {
      var i :| 0 <= i < |b| && b[i] == c;
      assert s[|a| + |d| + i] == c;
    }
  }
}

=== FILE: main_site.dfy ===
/** The site-wide script: the hero image showcase, the e-mail predicate,
    the events carousel (arrows, step and swipe), the loading state of a
    button, the active navigation link and the header's `scrolled` flag. */
module MainSite {
  import opened JsRuntime
  import AboutRotators

  // ---------------------------------------------------------------------
  // Image showcase
  // ---------------------------------------------------------------------

  /** `(currentIndex - 1 + images.length) % images.length`. */
  function PrevIndex(i: int, n: int): (r: int)
    requires n > 0
    ensures 0 <= i < n ==> 0 <= r < n
    ensures 0 < i < n ==> r == i - 1
    ensures i == 0 ==> r == n - 1
  {
    assert 0 < i < n ==> JsRem(i - 1 + n, n) == i - 1 by {
      if 0 < i < n {
        ModUnique(i - 1 + n, n, 1, i - 1);
      }
    }
    assert i == 0 ==> JsRem(i - 1 + n, n) == n - 1 by {
      if i == 0 {
        ModUnique(n - 1, n, 0, n - 1);
      }
    }
    JsRem(i - 1 + n, n)
  }

  /** Forward and backward steps undo each other. */
  lemma ShowcaseStepsAreInverse(i: int, n: int)
    requires 0 <= i < n
    ensures PrevIndex(AboutRotators.NextIndex(i, n), n) == i
    ensures AboutRotators.NextIndex(PrevIndex(i, n), n) == i
  {
  }

  /** The showcase with at least one image. Timers are explicit: the 2 s
      start-up callback is `StartRotation`, a tick of a running 7 s interval
      is `RotateTick`. `liveIntervals` counts intervals still running and
      `tracked` says whether `autoRotateInterval` holds one of them. */
  class Showcase {
    var currentIndex: int
    const active: array<bool>
    var liveIntervals: nat
    var tracked: bool

    ghost predicate Valid()
      reads this
    {
      active.Length > 0 && 0 <= currentIndex < active.Length
    }

    /** At most one interval runs, and it is the one the variable holds. */
    ghost predicate SingleTimer()
      reads this
    {
      liveIntervals <= 1 && (liveIntervals == 1 <==> tracked)
    }

    constructor(imageCount: nat)
      requires imageCount > 0
      ensures Valid() && SingleTimer() && fresh(active)
      ensures active.Length == imageCount && currentIndex == 0
      ensures liveIntervals == 0 && !tracked
    {
      active := new bool[imageCount];
      currentIndex := 0;
      liveIntervals := 0;
      tracked := false;
    }

    /** `showImage`: only the chosen image is active. */
    method ShowImage(index: int)
      modifies active
      ensures active[..] == AboutRotators.OnlyAt(active.Length, index)
    {
      AboutRotators.MarkOnly(active, index);
    }

    method ShowNextImage()
      requires Valid()
      modifies this, active
      ensures Valid() && currentIndex == AboutRotators.NextIndex(old(currentIndex), active.Length)
      ensures active[..] == AboutRotators.OnlyAt(active.Length, currentIndex)
      ensures liveIntervals == old(liveIntervals) && tracked == old(tracked)
    {
      currentIndex := AboutRotators.NextIndex(currentIndex, active.Length);
      ShowImage(currentIndex);
    }

    method ShowPrevImage()
      requires Valid()
      modifies this, active
      ensures Valid() && currentIndex == PrevIndex(old(currentIndex), active.Length)
      ensures active[..] == AboutRotators.OnlyAt(active.Length, currentIndex)
      ensures liveIntervals == old(liveIntervals) && tracked == old(tracked)
    {
      currentIndex := PrevIndex(currentIndex, active.Length);
      ShowImage(currentIndex);
    }

    /** `resetAutoRotate`: clear the held interval, start a new one. */
    method ResetAutoRotate()
      modifies this
      ensures liveIntervals == (if old(tracked) && old(liveIntervals) > 0 then old(liveIntervals) - 1 else old(liveIntervals)) + 1
      ensures tracked && currentIndex == old(currentIndex)
      ensures old(SingleTimer()) ==> SingleTimer()
    {
      if tracked && liveIntervals > 0 {
        liveIntervals := liveIntervals - 1;
      }
      liveIntervals := liveIntervals + 1;
      tracked := true;
    }

    method NextClicked()
      requires Valid()
      modifies this, active
      ensures Valid() && currentIndex == AboutRotators.NextIndex(old(currentIndex), active.Length)
      ensures liveIntervals == (if old(tracked) && old(liveIntervals) > 0 then old(liveIntervals) - 1 else old(liveIntervals)) + 1
      ensures active[..] == AboutRotators.OnlyAt(active.Length, currentIndex)
      ensures tracked
      ensures old(SingleTimer()) ==> SingleTimer() && liveIntervals == 1
    {
      ShowNextImage();
      ResetAutoRotate();
    }

    method PrevClicked()
      requires Valid()
      modifies this, active
      ensures Valid() && currentIndex == PrevIndex(old(currentIndex), active.Length)
      ensures liveIntervals == (if old(tracked) && old(liveIntervals) > 0 then old(liveIntervals) - 1 else old(liveIntervals)) + 1
      ensures active[..] == AboutRotators.OnlyAt(active.Length, currentIndex)
      ensures tracked
      ensures old(SingleTimer()) ==> SingleTimer() && liveIntervals == 1
    {
      ShowPrevImage();
      ResetAutoRotate();
    }

    /** The start-up callback as written: it starts an interval and
      overwrites the variable without clearing what it held. */
    method StartRotationAsWritten()
      modifies this
      ensures liveIntervals == old(liveIntervals) + 1 && tracked
      ensures currentIndex == old(currentIndex)
    {
      liveIntervals := liveIntervals + 1;
      tracked := true;
    }

    /** The start-up callback as intended: it goes through the same reset as
      the arrows, so one interval runs at most. */
    method StartRotation()
      requires SingleTimer()
      modifies this
      ensures SingleTimer() && liveIntervals == 1
      ensures currentIndex == old(currentIndex)
    {
      ResetAutoRotate();
    }

    /** A tick of a running interval. */
    method RotateTick()
      requires Valid() && liveIntervals > 0
      modifies this, active
      ensures Valid() && currentIndex == AboutRotators.NextIndex(old(currentIndex), active.Length)
      ensures active[..] == AboutRotators.OnlyAt(active.Length, currentIndex)
      ensures liveIntervals == old(liveIntervals) && tracked == old(tracked)
    {
      ShowNextImage();
    }
  }

  /** An arrow click in the first two seconds, before the start-up callback:
      as written two intervals then run, and every arrow click afterwards
      clears only the newer one. */
  method EarlyClickLeavesTwoIntervals() returns (live: nat, liveAfterNextClick: nat)
    ensures live == 2 && liveAfterNextClick == 2
  {
    var s := new Showcase(3);
    s.NextClicked();
    s.StartRotationAsWritten();
    live := s.liveIntervals;
    s.NextClicked();
    liveAfterNextClick := s.liveIntervals;
  }

  /** The same clicks with the intended start-up callback leave one
      interval. */
  method EarlyClickCorrected() returns (live: nat)
    ensures live == 1
  {
    var s := new Showcase(3);
    s.NextClicked();
    s.StartRotation();
    s.NextClicked();
    live := s.liveIntervals;
  }

  // ---------------------------------------------------------------------
  // isValidEmail: ^[^\s@]+@[^\s@]+\.[^\s@]+$
  // ---------------------------------------------------------------------

  /** A character of `[^\s@]`. */
  predicate IsEmailChar(c: char) {
    !IsJsSpace(c) && c != '@'
  }

  predicate EmailWord(s: string) {
    s != [] && forall i :: 0 <= i < |s| ==> IsEmailChar(s[i])
  }

  /** `s` is `local@host.tld` with three non-empty words; the reference
      reading of the pattern. */
  predicate EmailSplit(s: string, local: string, host: string, tld: string) {
    EmailWord(local) && EmailWord(host) && EmailWord(tld) && s == local + "@" + host + "." + tld
  }

  /** Index of the first `@`, or `|s|`. */
  function AtIndex(s: string): (k: nat)
    ensures k <= |s| && (forall i :: 0 <= i < k ==> s[i] != '@')
    ensures k < |s| ==> s[k] == '@'
  {
    if s == [] || s[0] == '@' then 0 else 1 + AtIndex(s[1..])
  }

  /** Index of the last `.` strictly inside the domain, or 0 when none. */
  function InnerDot(d: string, k: nat): (j: nat)
    requires k <= |d|
    ensures j < |d| || j == 0
    ensures j > 0 ==> j < k && j < |d| - 1 && d[j] == '.'
    ensures j == 0 ==> forall i :: 0 < i < k && i < |d| - 1 ==> d[i] != '.'
  {
    if k <= 1 then 0
    else if k - 1 < |d| - 1 && d[k - 1] == '.' then k - 1
    else InnerDot(d, k - 1)
  }

  /** `isValidEmail`: no white space or second `@`, a non-empty local part,
      and a dot in the domain that is neither its first nor its last
      character. */
  function IsValidEmail(s: string): (ok: bool)
    ensures ok ==> forall i :: 0 <= i < |s| ==> !IsJsSpace(s[i])
  {
    var k := AtIndex(s);
    k > 0 && k < |s|
    && (forall i :: 0 <= i < |s| ==> !IsJsSpace(s[i]))
    && (forall i :: k < i < |s| ==> s[i] != '@')
    && InnerDot(s[k + 1..], |s| - k - 1) > 0
  }

  /** The predicate accepts exactly the texts the pattern matches. */
  lemma IsValidEmailMatchesPattern(s: string)
    ensures IsValidEmail(s) ==> exists l, h, t :: EmailSplit(s, l, h, t)
    ensures (exists l, h, t :: EmailSplit(s, l, h, t)) ==> IsValidEmail(s)
  {
    if IsValidEmail(s) {
      var k := AtIndex(s);
      var d := s[k + 1..];
      var j := InnerDot(d, |d|);
      var l, h, t := s[..k], d[..j], d[j + 1..];
      assert d == h + "." + t;
      assert s == l + "@" + d;
      assert EmailSplit(s, l, h, t);
    }
    if exists l, h, t :: EmailSplit(s, l, h, t) {
      var l, h, t :| EmailSplit(s, l, h, t);
      ValidOfSplit(s, l, h, t);
    }
  }

  lemma ValidOfSplit(s: string, l: string, h: string, t: string)
    requires EmailSplit(s, l, h, t)
    ensures IsValidEmail(s)
  {
    var d := h + "." + t;
    var k := |l|;
    SplitChars(s, l, h, t);
    AtOfWord(l, d, s);
    assert s[k + 1..] == d;
    assert d[|h|] == '.' && 0 < |h| < |d| - 1;
    assert InnerDot(d, |d|) > 0;
  }

  /** Every character of a split address but its `@` is a word character. */
  lemma SplitChars(s: string, l: string, h: string, t: string)
    requires EmailSplit(s, l, h, t)
    ensures |s| > |l| && s[|l|] == '@'
    ensures forall i :: 0 <= i < |s| && i != |l| ==> IsEmailChar(s[i])
  {
    var d := h + "." + t;
    var k := |l|;
    assert s == l + "@" + d;
    forall i | 0 <= i < |s| && i != k
      ensures IsEmailChar(s[i])
    {
      if i < k {
        assert s[i] == l[i];
      } else {
        assert s[i] == d[i - k - 1];
        DomainChar(h, t, i - k - 1);
      }
    }
  }

  lemma AtOfWord(l: string, d: string, s: string)
    requires EmailWord(l) && s == l + "@" + d
    ensures AtIndex(s) == |l|
  {
    if l != [] {
      assert s[0] == l[0];
      if |l| > 1 {
        assert s[1..] == l[1..] + "@" + d;
        AtOfWord(l[1..], d, s[1..]);
      } else {
        assert s[1..] == "@" + d;
      }
    }
  }

  lemma DomainChar(h: string, t: string, i: int)
    requires EmailWord(h) && EmailWord(t) && 0 <= i < |h + "." + t|
    ensures IsEmailChar((h + "." + t)[i])
  {
    if i < |h| {
      assert (h + "." + t)[i] == h[i];
    } else if i > |h| {
      assert (h + "." + t)[i] == t[i - |h| - 1];
    }
  }

  // ---------------------------------------------------------------------
  // Events carousel
  // ---------------------------------------------------------------------

  datatype Direction = Left | Right

  /** The scroll step: one card and a 35 px gap at a viewport of 768 px or
      less, three cards and a 40 px gap otherwise. */
  function ScrollStep(cardWidth: int, innerWidth: int): (step: int)
    ensures innerWidth <= 768 ==> step == cardWidth + 35
    ensures innerWidth > 768 ==> step == 3 * (cardWidth + 40)
  {
    var gap := if innerWidth <= 768 then 35 else 40;
    var cards := if innerWidth <= 768 then 1 else 3;
    (cardWidth + gap) * cards
  }

  /** `handleSwipe`: a swipe to the right (end past start by more than 50)
      scrolls left, one to the left scrolls right. */
  function HandleSwipe(startX: int, endX: int, elapsedMs: int): (d: Option<Direction>)
    ensures d == Some(Left) <==> endX - startX > 50
    ensures d == Some(Right) <==> endX - startX < -50
  {
    var distance := endX - startX;
    if elapsedMs < 300 || distance > 50 || distance < -50 then
      if distance > 50 then Some(Left) else if distance < -50 then Some(Right) else None
    else None
  }

  /** The 300 ms test never changes the outcome. */
  lemma SwipeIgnoresTime(startX: int, endX: int, t1: int, t2: int)
    ensures HandleSwipe(startX, endX, t1) == HandleSwipe(startX, endX, t2)
  {
  }

  /** The browser keeps `scrollLeft` within `[0, maxScroll]`. */
  function ClampScroll(x: int, maxScroll: int): (r: int)
    ensures maxScroll >= 0 ==> 0 <= r <= maxScroll
    ensures 0 <= x <= maxScroll ==> r == x
  {
    if x < 0 then 0 else if x > maxScroll then (if maxScroll < 0 then 0 else maxScroll) else x
  }

  /** The carousel's scroll position and arrow buttons. */
  class EventsCarousel {
    var scrollLeft: int
    const scrollWidth: int
    const clientWidth: int
    var leftDisabled: bool
    var rightDisabled: bool

    function MaxScroll(): int
      reads this
    {
      scrollWidth - clientWidth
    }

    /** The arrows follow `updateArrowStates`'s rule for the current
        position, which the browser keeps within `[0, MaxScroll()]`. */
    ghost predicate Valid()
      reads this
    {
      && 0 <= scrollLeft <= MaxScroll()
      && (leftDisabled <==> scrollLeft <= 0)
      && (rightDisabled <==> scrollLeft >= MaxScroll() - 1)
    }

    /** `initEventsCarousel` up to its closing `updateArrowStates()`: the
        carousel starts at the left end, so the left arrow is disabled, and
        the right one is disabled as well when there is at most a pixel to
        scroll. */
    constructor(scrollWidth: int, clientWidth: int)
      requires scrollWidth >= clientWidth
      ensures this.scrollWidth == scrollWidth && this.clientWidth == clientWidth
      ensures Valid() && scrollLeft == 0
      ensures leftDisabled && (rightDisabled <==> MaxScroll() <= 1)
    {
      this.scrollWidth := scrollWidth;
      this.clientWidth := clientWidth;
      scrollLeft := 0;
      leftDisabled := true;
      rightDisabled := scrollWidth - clientWidth <= 1;
    }

    /** `updateArrowStates`. */
    method UpdateArrowStates()
      modifies this
      ensures scrollLeft == old(scrollLeft)
      ensures leftDisabled <==> scrollLeft <= 0
      ensures rightDisabled <==> scrollLeft >= MaxScroll() - 1
    {
      leftDisabled := scrollLeft <= 0;
      rightDisabled := scrollLeft >= scrollWidth - clientWidth - 1;
    }

    /** The 100 ms timeout of `initEventsCarousel`: scroll to the seventh
        card, `(cardWidth + 40) * 6`, as far as the browser allows, and
        refresh the arrows. */
    method InitialScroll(cardWidth: int)
      requires Valid()
      modifies this
      ensures Valid()
      ensures scrollLeft == ClampScroll((cardWidth + 40) * 6, MaxScroll())
    {
      scrollLeft := ClampScroll((cardWidth + 40) * 6, scrollWidth - clientWidth);
      UpdateArrowStates();
    }

    /** `scrollCarousel` followed by the scroll event, which refreshes the
      arrows. */
    method ScrollCarousel(direction: Direction, cardWidth: int, innerWidth: int)
      requires Valid()
      modifies this
      ensures Valid()
      ensures var step := ScrollStep(cardWidth, innerWidth);
        scrollLeft == ClampScroll(if direction == Left then old(scrollLeft) - step else old(scrollLeft) + step, MaxScroll())
    {
      var step := ScrollStep(cardWidth, innerWidth);
      if direction == Left {
        scrollLeft := ClampScroll(scrollLeft - step, scrollWidth - clientWidth);
      } else {
        scrollLeft := ClampScroll(scrollLeft + step, scrollWidth - clientWidth);
      }
      UpdateArrowStates();
    }

    /** The end of a touch. */
    method TouchEnd(startX: int, endX: int, elapsedMs: int, cardWidth: int, innerWidth: int)
      requires Valid()
      modifies this
      ensures Valid()
      ensures HandleSwipe(startX, endX, elapsedMs).None? ==>
        scrollLeft == old(scrollLeft) && leftDisabled == old(leftDisabled) && rightDisabled == old(rightDisabled)
      ensures HandleSwipe(startX, endX, elapsedMs) == Some(Left) ==>
        scrollLeft == ClampScroll(old(scrollLeft) - ScrollStep(cardWidth, innerWidth), MaxScroll())
      ensures HandleSwipe(startX, endX, elapsedMs) == Some(Right) ==>
        scrollLeft == ClampScroll(old(scrollLeft) + ScrollStep(cardWidth, innerWidth), MaxScroll())
    {
      var d := HandleSwipe(startX, endX, elapsedMs);
      if d.Some? {
        ScrollCarousel(d.value, cardWidth, innerWidth);
      }
    }
  }

  /** With a positive step, a scroll that hits an end disables that end's
      arrow, and an arrow is never disabled while there is room on its
      side. */
  lemma ScrollReachesEnds(scrollLeft: int, step: int, maxScroll: int)
    requires maxScroll >= 1 && step > 0 && 0 <= scrollLeft <= maxScroll
    ensures scrollLeft - step <= 0 ==> ClampScroll(scrollLeft - step, maxScroll) <= 0
    ensures scrollLeft + step >= maxScroll ==> ClampScroll(scrollLeft + step, maxScroll) >= maxScroll - 1
    ensures 0 < scrollLeft - step < maxScroll - 1 ==> !(ClampScroll(scrollLeft - step, maxScroll) <= 0)
  {
  }

  // ---------------------------------------------------------------------
  // Button loading state
  // ---------------------------------------------------------------------

  class Button {
    var textContent: string
    /** `dataset.originalText`; `None` until first saved. */
    var originalText: Option<string>
    var disabled: bool

    constructor(text: string)
      ensures textContent == text && originalText.None? && !disabled
    {
      textContent := text;
      originalText := None;
      disabled := false;
    }

    /** `setButtonLoading(button, isLoading)`. */
    method SetLoading(isLoading: bool)
      modifies this
      ensures isLoading ==> originalText == Some(old(textContent)) && textContent == "Loading..." && disabled
      ensures !isLoading ==> originalText == old(originalText) && !disabled
      ensures !isLoading ==> (textContent ==
        if old(originalText).Some? && old(originalText).value != "" then old(originalText).value else old(textContent))
    {
      if isLoading {
        originalText := Some(textContent);
        textContent := "Loading...";
        disabled := true;
      } else {
        if originalText.Some? && originalText.value != "" {
          textContent := originalText.value;
        }
        disabled := false;
      }
    }
  }

  /** Loading and then restoring gives the text back and enables the
      button; a button whose text was empty keeps "Loading...". */
  method LoadingRoundTrip(text: string) returns (restored: string, enabled: bool)
    ensures restored == (if text != "" then text else "Loading...") && enabled
  {
    var b := new Button(text);
    b.SetLoading(true);
    b.SetLoading(false);
    restored := b.textContent;
    enabled := !b.disabled;
  }

  // ---------------------------------------------------------------------
  // updateActiveNavLink (the declaration that wins)
  // ---------------------------------------------------------------------

  datatype Section = Section(id: string, offsetTop: int, offsetHeight: int)

  /** The band of scroll positions that highlight a section. */
  predicate Covers(s: Section, scrollY: int) {
    s.offsetTop - 140 <= scrollY < s.offsetTop - 140 + s.offsetHeight
  }

  /** The last section covering `scrollY`, as an index. */
  function LastCovering(sections: seq<Section>, scrollY: int): (r: Option<nat>)
    ensures r.Some? ==> r.value < |sections| && Covers(sections[r.value], scrollY)
    ensures r.Some? ==> forall j :: r.value < j < |sections| ==> !Covers(sections[j], scrollY)
    ensures r.None? ==> forall j :: 0 <= j < |sections| ==> !Covers(sections[j], scrollY)
  {
    if sections == [] then None
    else if Covers(sections[|sections| - 1], scrollY) then Some(|sections| - 1)
    else LastCovering(sections[..|sections| - 1], scrollY)
  }

  function CurrentId(sections: seq<Section>, scrollY: int): string {
    var r := LastCovering(sections, scrollY);
    if r.None? then "" else sections[r.value].id
  }

  /** The `forEach` over the sections. */
  method CurrentSection(sections: seq<Section>, scrollY: int) returns (current: string)
    ensures current == CurrentId(sections, scrollY)
  {
    current := "";
    var i := 0;
    while i < |sections|
      invariant 0 <= i <= |sections|
      invariant current == CurrentId(sections[..i], scrollY)
    {
      assert sections[..i + 1][..i] == sections[..i];
      if Covers(sections[i], scrollY) {
        current := sections[i].id;
      }
      i := i + 1;
    }
    assert sections[..i] == sections;
  }

  /** `updateActiveNavLink`: each link is active exactly when its href is
      `'#'` followed by the current section's id. */
  method UpdateActiveNavLink(sections: seq<Section>, scrollY: int, hrefs: seq<string>, active: array<bool>)
    requires active.Length == |hrefs|
    modifies active
    ensures forall i :: 0 <= i < |hrefs| ==> (active[i] <==> hrefs[i] == "#" + CurrentId(sections, scrollY))
  {
    var current := CurrentSection(sections, scrollY);
    var i := 0;
    while i < |hrefs|
      invariant 0 <= i <= |hrefs|
      invariant forall j :: 0 <= j < i ==> (active[j] <==> hrefs[j] == "#" + current)
    {
      active[i] := hrefs[i] == "#" + current;
      i := i + 1;
    }
  }

  /** A later section wins over an earlier one that also covers the
      position; with no covering section the current id is empty, so only
      a bare "#" link can be active. */
  lemma CurrentIdProperties(sections: seq<Section>, scrollY: int)
    ensures (forall j :: 0 <= j < |sections| ==> !Covers(sections[j], scrollY)) ==> CurrentId(sections, scrollY) == ""
    ensures |sections| > 0 && Covers(sections[|sections| - 1], scrollY) ==>
      CurrentId(sections, scrollY) == sections[|sections| - 1].id
    ensures forall j :: (0 <= j < |sections| && Covers(sections[j], scrollY)
      && (forall k :: j < k < |sections| ==> !Covers(sections[k], scrollY))) ==> CurrentId(sections, scrollY) == sections[j].id
  {
    if (forall j :: 0 <= j < |sections| ==> !Covers(sections[j], scrollY)) {
      assert LastCovering(sections, scrollY).None?;
    }
  }

  // ---------------------------------------------------------------------
  // Header
  // ---------------------------------------------------------------------

  /** The header's `scrolled` variable and the class on the navigation. */
  class Header {
    var scrolled: bool
    var navScrolledClass: bool

    ghost predicate Valid()
      reads this
    {
      scrolled == navScrolledClass
    }

    constructor()
      ensures Valid() && !scrolled
    {
      scrolled := false;
      navScrolledClass := false;
    }

    /** The scroll handler: the class changes only when `scrollY > 50`
      changes. */
    method OnScroll(scrollY: int)
      requires Valid()
      modifies this
      ensures Valid() && scrolled == (scrollY > 50)
      ensures old(scrolled) == (scrollY > 50) ==> navScrolledClass == old(navScrolledClass)
    {
      var isScrolled := scrollY > 50;
      if isScrolled && !scrolled {
        navScrolledClass := true;
        scrolled := true;
      } else if !isScrolled && scrolled {
        navScrolledClass := false;
        scrolled := false;
      }
    }
  }
}

=== FILE: mentor.dfy ===
/** The mentor sign-up page: the form's entries become one object, three
    fields are required and the address must look like an e-mail, the
    submit button shows progress while the (simulated) submission runs,
    the statistics counters end on their target text, and clicking a
    checkbox's label text toggles the box. */
module Mentor {
  import opened JsRuntime
  import MainSite

  // ---------------------------------------------------------------------
  // FormData to object
  // ---------------------------------------------------------------------

  /** A property of the object: a single text, or the list the
      `availability` entries build. */
  datatype FormValue = Text(value: string) | Values(items: seq<string>)

  datatype Entry = Entry(key: string, value: string)

  const AvailabilityKey: string := "availability"

  /** One pass of the loop body. */
  function AddEntry(data: map<string, FormValue>, e: Entry): map<string, FormValue> {
    if e.key == AvailabilityKey then
      var prior := if e.key in data && data[e.key].Values? then data[e.key].items else [];
      data[e.key := Values(prior + [e.value])]
    else data[e.key := Text(e.value)]
  }

  /** The object after the loop has seen every entry, in order. */
  function Aggregate(entries: seq<Entry>): map<string, FormValue>
    decreases |entries|
  {
    if entries == [] then map[] else AddEntry(Aggregate(entries[..|entries| - 1]), entries[|entries| - 1])
  }

  /** The loop over `formData.entries()`. */
  method FormToObject(entries: seq<Entry>) returns (data: map<string, FormValue>)
    ensures data == Aggregate(entries)
  {
    data := map[];
    var i := 0;
    while i < |entries|
      invariant 0 <= i <= |entries|
      invariant data == Aggregate(entries[..i])
    {
      assert entries[..i + 1][..i] == entries[..i];
      data := AddEntry(data, entries[i]);
      i := i + 1;
    }
    assert entries[..i] == entries;
  }

  /** The `availability` values, in submission order. */
  function AvailabilityValues(entries: seq<Entry>): (vs: seq<string>)
    ensures |vs| <= |entries|
    decreases |entries|
  {
    if entries == [] then []
    else
      var last := entries[|entries| - 1];
      AvailabilityValues(entries[..|entries| - 1]) + (if last.key == AvailabilityKey then [last.value] else [])
  }

  /** The index of the last entry with key `k`. */
  function LastIndexOf(entries: seq<Entry>, k: string): (r: Option<nat>)
    ensures r.Some? ==> r.value < |entries| && entries[r.value].key == k
    ensures r.Some? ==> forall j :: r.value < j < |entries| ==> entries[j].key != k
    ensures r.None? ==> forall j :: 0 <= j < |entries| ==> entries[j].key != k
    decreases |entries|
  {
    if entries == [] then None
    else if entries[|entries| - 1].key == k then Some(|entries| - 1)
    else LastIndexOf(entries[..|entries| - 1], k)
  }

  /** Every `availability` entry lands in one list, in order; the key is
      present exactly when some entry has it. */
  lemma {:induction false} AvailabilityIsCollected(entries: seq<Entry>)
    ensures AvailabilityKey in Aggregate(entries) <==> LastIndexOf(entries, AvailabilityKey).Some?
    ensures AvailabilityKey in Aggregate(entries) ==>
      Aggregate(entries)[AvailabilityKey] == Values(AvailabilityValues(entries))
    ensures AvailabilityKey !in Aggregate(entries) ==> AvailabilityValues(entries) == []
    decreases |entries|
  {
    if entries != [] {
      var prefix := entries[..|entries| - 1];
      var last := entries[|entries| - 1];
      AvailabilityIsCollected(prefix);
      assert Aggregate(entries) == AddEntry(Aggregate(prefix), last);
      if last.key == AvailabilityKey {
        assert AvailabilityValues(entries) == AvailabilityValues(prefix) + [last.value];
      } else {
        assert AvailabilityValues(entries) == AvailabilityValues(prefix) + [];
        assert LastIndexOf(entries, AvailabilityKey) == LastIndexOf(prefix, AvailabilityKey);
      }
    }
  }

  /** Any other key keeps the value of its last entry. */
  lemma {:induction false} OtherKeyKeepsLast(entries: seq<Entry>, k: string)
    requires k != AvailabilityKey
    ensures k in Aggregate(entries) <==> LastIndexOf(entries, k).Some?
    ensures k in Aggregate(entries) ==>
      Aggregate(entries)[k] == Text(entries[LastIndexOf(entries, k).value].value)
    decreases |entries|
  {
    if entries != [] {
      var prefix := entries[..|entries| - 1];
      OtherKeyKeepsLast(prefix, k);
      if entries[|entries| - 1].key != k {
        assert Aggregate(entries) == AddEntry(Aggregate(prefix), entries[|entries| - 1]);
        assert LastIndexOf(entries, k) == LastIndexOf(prefix, k);
        if k in Aggregate(entries) {
          assert entries[LastIndexOf(entries, k).value] == prefix[LastIndexOf(prefix, k).value];
        }
      }
    }
  }

  // ---------------------------------------------------------------------
  // Validation and submission
  // ---------------------------------------------------------------------

  /** `data[k]` is truthy text. */
  predicate Filled(data: map<string, FormValue>, k: string) {
    k in data && data[k].Text? && data[k].value != ""
  }

  datatype SubmitCheck = MissingRequired | BadEmail | Accepted {
    /** The alert the page shows. */
    function Alert(): string {
      match this
      case MissingRequired => "Please fill in all required fields."
      case BadEmail => "Please enter a valid email address."
      case Accepted => "Thank you for your interest in mentoring! We will contact you soon."
    }
  }

  /** The two checks, required fields first. */
  function CheckMentorForm(data: map<string, FormValue>): (c: SubmitCheck)
    ensures c == MissingRequired <==> !(Filled(data, "firstName") && Filled(data, "lastName") && Filled(data, "email"))
    ensures c == BadEmail <==> Filled(data, "firstName") && Filled(data, "lastName") && Filled(data, "email")
                               && !MainSite.IsValidEmail(data["email"].value)
    ensures c == Accepted <==> Filled(data, "firstName") && Filled(data, "lastName") && Filled(data, "email")
                               && MainSite.IsValidEmail(data["email"].value)
  {
    if !Filled(data, "firstName") || !Filled(data, "lastName") || !Filled(data, "email") then MissingRequired
    else if !MainSite.IsValidEmail(data["email"].value) then BadEmail
    else Accepted
  }

  /** A form whose last first-name, last-name and e-mail entries are
      non-empty and whose address matches the pattern is accepted,
      whatever else it holds. */
  lemma CompleteFormIsAccepted(entries: seq<Entry>, first: nat, last: nat, email: nat)
    requires LastIndexOf(entries, "firstName") == Some(first) && entries[first].value != ""
    requires LastIndexOf(entries, "lastName") == Some(last) && entries[last].value != ""
    requires LastIndexOf(entries, "email") == Some(email)
    requires MainSite.IsValidEmail(entries[email].value)
    ensures CheckMentorForm(Aggregate(entries)) == Accepted
  {
    OtherKeyKeepsLast(entries, "firstName");
    OtherKeyKeepsLast(entries, "lastName");
    OtherKeyKeepsLast(entries, "email");
    assert entries[email].value != "" by {
      assert !MainSite.IsValidEmail("") by {
        assert MainSite.AtIndex("") == 0;
      }
    }
  }

  /** The form and its submit button. The 1500 ms callback is
      `SubmissionDone`. */
  class MentorForm {
    var buttonHtml: string
    var buttonDisabled: bool
    /** `originalButtonText`, held by the pending callback. */
    var savedHtml: string
    var pending: bool

    constructor(html: string)
      ensures buttonHtml == html && !buttonDisabled && !pending
    {
      buttonHtml := html;
      buttonDisabled := false;
      savedHtml := "";
      pending := false;
    }

    /** The submit handler: a failed check leaves the button as it was. */
    method Submit(entries: seq<Entry>) returns (check: SubmitCheck)
      modifies this
      ensures check == CheckMentorForm(Aggregate(entries))
      ensures check != Accepted ==> buttonHtml == old(buttonHtml) && buttonDisabled == old(buttonDisabled)
                                    && pending == old(pending) && savedHtml == old(savedHtml)
      ensures check == Accepted ==> savedHtml == old(buttonHtml) && buttonHtml == "<span>Submitting...</span>"
                                    && buttonDisabled && pending
    {
      var data := FormToObject(entries);
      check := CheckMentorForm(data);
      if check == Accepted {
        savedHtml := buttonHtml;
        buttonHtml := "<span>Submitting...</span>";
        buttonDisabled := true;
        pending := true;
      }
    }

    /** The callback: the button gets its text back and is enabled. */
    method SubmissionDone()
      requires pending
      modifies this
      ensures buttonHtml == old(savedHtml) && !buttonDisabled && !pending
    {
      buttonHtml := savedHtml;
      buttonDisabled := false;
      pending := false;
    }
  }

  /** An accepted submission followed by its callback leaves the button as
      it was before. */
  method SubmitRoundTrip(html: string, entries: seq<Entry>) returns (finalHtml: string, disabled: bool)
    ensures finalHtml == html && !disabled
  {
    var f := new MentorForm(html);
    var check := f.Submit(entries);
    if check == Accepted {
      f.SubmissionDone();
    }
    finalHtml := f.buttonHtml;
    disabled := f.buttonDisabled;
  }

  // ---------------------------------------------------------------------
  // Statistics counters: the last frame
  // ---------------------------------------------------------------------

  /** How a counter ends: on a last frame, or never, when the target is
      `NaN` (the comparison with `NaN` is never true) and every frame shows
      the same text. */
  datatype CounterEnd = Stops(finalText: string) | RunsForever(frameText: string)

  /** `parseInt(targetText.replace(/[^0-9]/g, ''))`: `None` is `NaN`. */
  function CounterTarget(targetText: string): (t: Option<nat>)
    ensures t.None? <==> KeepDigits(targetText) == []
  {
    var d := KeepDigits(targetText);
    if d == [] then None else Some(ValueIn(d, 10))
  }

  /** The text of a frame showing `number`, decorated after the original. */
  function FrameText(targetText: string, number: string): string {
    if Includes(targetText, "th") then number + "th"
    else
      (if HasChar(targetText, '$') then "$" else "") + number
      + (if HasChar(targetText, 'K') then "K" else "") + (if HasChar(targetText, '+') then "+" else "")
  }

  /** The end of `animateNumbers`. */
  function CounterEndOf(targetText: string): (e: CounterEnd)
    ensures e.Stops? <==> CounterTarget(targetText).Some?
  {
    match CounterTarget(targetText)
    case None => RunsForever(FrameText(targetText, "NaN"))
    case Some(v) => Stops(FrameText(targetText, NatToString(v)))
  }

  /** A statistic written as an optional "$", a number and optional "K"
      and "+". */
  function Stat(v: nat, dollar: bool, thousands: bool, plus: bool): string {
    (if dollar then "$" else "") + NatToString(v) + (if thousands then "K" else "") + (if plus then "+" else "")
  }

  /** Such a statistic ends on exactly its own text. */
  lemma CounterEndsOnStat(v: nat, dollar: bool, thousands: bool, plus: bool)
    ensures CounterEndOf(Stat(v, dollar, thousands, plus)) == Stops(Stat(v, dollar, thousands, plus))
  {
    var a := if dollar then "$" else "";
    var b := if thousands then "K" else "";
    var c := if plus then "+" else "";
    KeepDigitsOfStat(v, a, b, c);
    assert Stat(v, dollar, thousands, plus) == a + NatToString(v) + b + c;
    StatMarks(a, NatToString(v), b, c, dollar, thousands, plus);
  }

  lemma KeepDigitsOfStat(v: nat, a: string, b: string, c: string)
    requires a == "" || a == "$"
    requires b == "" || b == "K"
    requires c == "" || c == "+"
    ensures KeepDigits(a + NatToString(v) + b + c) == NatToString(v)
  {
    TailMarks(b, c);
    assert a + NatToString(v) + b + c == a + NatToString(v) + (b + c);
    KeepDigitsOfMarked(a, NatToString(v), b + c);
  }

  /** The marks after the number: no digit, and a "K" or "+" exactly when
      it was written. */
  lemma TailMarks(b: string, c: string)
    requires b == "" || b == "K"
    requires c == "" || c == "+"
    ensures NoDigit(b + c) && 't' !in b + c && '$' !in b + c
    ensures ('K' in b + c <==> b == "K") && ('+' in b + c <==> c == "+")
  {
    assert forall i :: 0 <= i < |b + c| ==> (b + c)[i] == 'K' || (b + c)[i] == '+';
    assert b == "K" ==> (b + c)[0] == 'K';
    assert c == "+" ==> (b + c)[|b + c| - 1] == '+';
  }

  lemma StatMarks(a: string, d: string, b: string, c: string, dollar: bool, thousands: bool, plus: bool)
    requires a == (if dollar then "$" else "") && b == (if thousands then "K" else "") && c == (if plus then "+" else "")
    requires AllDigits(d)
    ensures var s := a + d + b + c;
      !Includes(s, "th") && (HasChar(s, '$') <==> dollar) && (HasChar(s, 'K') <==> thousands)
      && (HasChar(s, '+') <==> plus)
  {
    var s := a + d + b + c;
    assert s == a + d + (b + c);
    TailMarks(b, c);
    MarkedHasChar(a, d, b + c, 't');
    MarkedHasChar(a, d, b + c, '$');
    MarkedHasChar(a, d, b + c, 'K');
    MarkedHasChar(a, d, b + c, '+');
    assert "th"[0] == 't';
    NotIncludedWithoutFirst(s, "th");
  }

  /** An ordinal such as "9th" ends on its own text too. */
  lemma CounterEndsOnOrdinal(v: nat)
    ensures CounterEndOf(NatToString(v) + "th") == Stops(NatToString(v) + "th")
  {
    var d := NatToString(v);
    var s := d + "th";
    assert OccursAt(s, "th", |d|) by {
      assert s[|d|..|d| + 2] == "th";
    }
    KeepDigitsAppend(d, "th");
    KeepDigitsOfDigits(d);
    KeepDigitsOfNonDigits("th");
    assert d + [] == d;
  }

  /** A text without digits never stops counting. */
  lemma CounterWithoutDigitsRunsForever(targetText: string)
    requires forall i :: 0 <= i < |targetText| ==> !IsDigit(targetText[i])
    ensures CounterEndOf(targetText).RunsForever?
  {
    KeepDigitsOfNonDigits(targetText);
  }

  // ---------------------------------------------------------------------
  // Checkbox labels
  // ---------------------------------------------------------------------

  /** A checkbox inside its label. A click on the label's text runs the
      page's handler and then the label's activation, a click on the box
      itself toggles the box and then runs the handler. */
  class CheckboxLabel {
    var checked: bool

    constructor(checked: bool)
      ensures this.checked == checked
    {
      this.checked := checked;
    }

    /** The page's click handler. */
    method Handler(targetIsCheckbox: bool)
      modifies this
      ensures checked == (if targetIsCheckbox then old(checked) else !old(checked))
    {
      if !targetIsCheckbox {
        checked := !checked;
      }
    }

    /** The click as written, with the browser's activation of the box. */
    method ClickAsWritten(targetIsCheckbox: bool)
      modifies this
      ensures targetIsCheckbox ==> checked == !old(checked)
      ensures !targetIsCheckbox ==> checked == old(checked)
    {
      if targetIsCheckbox {
        checked := !checked;
        Handler(true);
      } else {
        Handler(false);
        // The label's activation clicks the box, which toggles it; that
        // click reaches the handler with the box as its target.
        checked := !checked;
        Handler(true);
      }
    }

    /** The click as intended: the handler leaves label clicks to the
      browser, so every click toggles the box once. */
    method Click(targetIsCheckbox: bool)
      modifies this
      ensures checked == !old(checked)
    {
      checked := !checked;
    }
  }

  /** As written, a click on the label's text leaves the box as it was. */
  method LabelTextClickAsWritten() returns (before: bool, after: bool)
    ensures before == false && after == false
  {
    var l := new CheckboxLabel(false);
    before := l.checked;
    l.ClickAsWritten(false);
    after := l.checked;
  }
}

=== FILE: stories.dfy ===
/** The stories page slideshow: every six seconds the next slide (wrapping
    round) is shown, in two phases: every slide fades out, and a moment
    later the chosen slide becomes the active one. */
module Stories {
  import AboutRotators

  class Slideshow {
    /** Whether the slideshow was started: not when the page has no
        slides. */
    const started: bool
    const count: nat
    var currentSlide: nat
    const active: array<bool>
    const fadeOut: array<bool>
    /** Slides whose second phase is scheduled and has not yet run, oldest
        first. */
    var pending: seq<nat>

    predicate Valid()
      reads this
    {
      active.Length == count && fadeOut.Length == count && active != fadeOut
      && (started <==> count > 0)
      && (started ==> currentSlide < count)
      && (forall k :: 0 <= k < |pending| ==> pending[k] < count)
    }

    /** `initializeSlideshow` over slides whose classes are as given. */
    constructor(activeAtLoad: seq<bool>, fadeOutAtLoad: seq<bool>)
      requires |activeAtLoad| == |fadeOutAtLoad|
      ensures Valid() && count == |activeAtLoad|
      ensures !started ==> pending == [] && active[..] == activeAtLoad && fadeOut[..] == fadeOutAtLoad
      ensures started ==> currentSlide == 0 && pending == [0]
      ensures started ==> forall k :: 0 <= k < count ==> !active[k] && fadeOut[k]
    {
      count := |activeAtLoad|;
      started := |activeAtLoad| > 0;
      currentSlide := 0;
      active := new bool[|activeAtLoad|](i requires 0 <= i < |activeAtLoad| => activeAtLoad[i]);
      fadeOut := new bool[|fadeOutAtLoad|](i requires 0 <= i < |fadeOutAtLoad| => fadeOutAtLoad[i]);
      pending := [];
      new;
      if started {
        ShowSlide(0);
      }
    }

    /** The first phase of `showSlide(index)`: every slide loses `active`
        and gains `fade-out`; the second phase is scheduled. */
    method ShowSlide(index: nat)
      requires Valid() && index < count
      modifies this`pending, active, fadeOut
      ensures Valid() && pending == old(pending) + [index]
      ensures forall k :: 0 <= k < count ==> !active[k] && fadeOut[k]
    {
      var i := 0;
      while i < count
        invariant 0 <= i <= count && pending == old(pending)
        invariant forall k :: 0 <= k < i ==> !active[k] && fadeOut[k]
      {
        active[i] := false;
        fadeOut[i] := true;
        i := i + 1;
      }
      pending := pending + [index];
    }

    /** The second phase of the oldest scheduled `showSlide`: that slide
        loses `fade-out` and becomes active; no other slide changes. */
    method SettleSlide()
      requires Valid() && pending != []
      modifies this`pending, active, fadeOut
      ensures Valid() && pending == old(pending[1..])
      ensures active[..] == old(active[..])[old(pending[0]) := true]
      ensures fadeOut[..] == old(fadeOut[..])[old(pending[0]) := false]
    {
      var index := pending[0];
      fadeOut[index] := false;
      active[index] := true;
      pending := pending[1..];
    }

    /** The interval's callback: the next slide, wrapping to the first. */
    method NextSlide()
      requires Valid() && started
      modifies this`currentSlide, this`pending, active, fadeOut
      ensures Valid()
      ensures currentSlide == AboutRotators.NextIndex(old(currentSlide), count)
      ensures old(currentSlide) < count - 1 ==> currentSlide == old(currentSlide) + 1
      ensures old(currentSlide) == count - 1 ==> currentSlide == 0
      ensures pending == old(pending) + [currentSlide]
    {
      currentSlide := AboutRotators.NextIndex(currentSlide, count) as nat;
      ShowSlide(currentSlide);
    }
  }

  /** A page without slides never starts its slideshow. */
  method NoSlidesNeverStart() returns (started: bool, pending: seq<nat>)
    ensures !started && pending == []
  {
    var show := new Slideshow([], []);
    started := show.started;
    pending := show.pending;
  }

  /** Both phases of `showSlide(index)` with nothing else scheduled leave
      exactly slide `index` active and it alone without `fade-out`. */
  method ShowAndSettle(show: Slideshow, index: nat)
    requires show.Valid() && index < show.count && show.pending == []
    modifies show`pending, show.active, show.fadeOut
    ensures show.Valid() && show.pending == []
    ensures show.active[..] == AboutRotators.OnlyAt(show.count, index)
    ensures forall k :: 0 <= k < show.count ==> (show.fadeOut[k] <==> k != index)
    ensures AboutRotators.CountTrue(show.active[..]) == 1
  {
    show.ShowSlide(index);
    show.SettleSlide();
    assert show.active[..] == AboutRotators.OnlyAt(show.count, index);
    AboutRotators.OnlyAtCount(show.count, index);
  }
}

=== FILE: story_details.dfy ===
/** A story page: its statistics count up to the number written in the
    page and end on a text rebuilt from that number, and its share buttons
    pick a platform, build the share address and confirm the share. */
module StoryDetails {
  import opened JsRuntime
  import Mentor

  // ---------------------------------------------------------------------
  // Statistic counters: the last frame
  // ---------------------------------------------------------------------

  /** The text of a frame showing `number`, formatted after the original
      text `finalNumber`. */
  function StatFrame(finalNumber: string, number: string): string {
    var plus := if HasChar(finalNumber, '+') then "+" else "";
    if HasChar(finalNumber, '$') && HasChar(finalNumber, 'M') then "$" + number + "M" + plus
    else if HasChar(finalNumber, '%') then number + "%"
    else if HasChar(finalNumber, 'M') then number + "M" + plus
    else number + plus
  }

  /** The end of `animateStatNumbers`: the target is the integer formed by
      all the digits of the text (`NaN` when there are none, and then the
      counter never stops). */
  function StatEndOf(finalNumber: string): (e: Mentor.CounterEnd)
    ensures e.Stops? <==> KeepDigits(finalNumber) != []
  {
    match Mentor.CounterTarget(finalNumber)
    case None => Mentor.RunsForever(StatFrame(finalNumber, "NaN"))
    case Some(v) => Mentor.Stops(StatFrame(finalNumber, NatToString(v)))
  }

  /** The forms the formatter writes back. */
  datatype StatKind = DollarMillions | Percent | Millions | Plain

  function StatText(v: nat, kind: StatKind, plus: bool): string {
    var p := if plus then "+" else "";
    match kind
    case DollarMillions => "$" + NatToString(v) + ("M" + p)
    case Percent => NatToString(v) + "%"
    case Millions => NatToString(v) + ("M" + p)
    case Plain => NatToString(v) + p
  }

  lemma MarksHoldNoDigit(p: string)
    requires p == "" || p == "+"
    ensures NoDigit("$") && NoDigit("%") && NoDigit("") && NoDigit(p) && NoDigit("M" + p)
  {
    assert ("M" + p)[0] == 'M';
  }

  /** The target read from a marked number is the number itself. */
  lemma TargetOfMarked(a: string, v: nat, b: string)
    requires NoDigit(a) && NoDigit(b)
    ensures Mentor.CounterTarget(a + NatToString(v) + b) == Some(v)
  {
    KeepDigitsOfMarked(a, NatToString(v), b);
  }

  /** The characters the formatter looks for, in the marks it writes. */
  lemma MarkChars(p: string)
    requires p == "" || p == "+"
    ensures '$' !in p && '%' !in p && 'M' !in p && ('+' in p <==> p == "+")
    ensures '$' !in "M" + p && '%' !in "M" + p && 'M' in "M" + p && ('+' in "M" + p <==> p == "+")
  {
    assert ("M" + p)[0] == 'M';
    assert p == "+" ==> ("M" + p)[1] == '+';
    assert forall i :: 0 <= i < |"M" + p| ==> ("M" + p)[i] == 'M' || ("M" + p)[i] == '+';
  }

  lemma DollarMillionsEndsOnOwnText(v: nat, p: string)
    requires p == "" || p == "+"
    ensures StatEndOf("$" + NatToString(v) + ("M" + p)) == Mentor.Stops("$" + NatToString(v) + ("M" + p))
  {
    var d := NatToString(v);
    MarksHoldNoDigit(p);
    MarkChars(p);
    TargetOfMarked("$", v, "M" + p);
    MarkedHasChar("$", d, "M" + p, '$');
    MarkedHasChar("$", d, "M" + p, 'M');
    MarkedHasChar("$", d, "M" + p, '+');
  }

  lemma PercentEndsOnOwnText(v: nat)
    ensures StatEndOf(NatToString(v) + "%") == Mentor.Stops(NatToString(v) + "%")
  {
    var d := NatToString(v);
    MarksHoldNoDigit("");
    assert "" + d + "%" == d + "%";
    TargetOfMarked("", v, "%");
    MarkedHasChar("", d, "%", '$');
    MarkedHasChar("", d, "%", '%');
  }

  lemma MillionsEndsOnOwnText(v: nat, p: string)
    requires p == "" || p == "+"
    ensures StatEndOf(NatToString(v) + ("M" + p)) == Mentor.Stops(NatToString(v) + ("M" + p))
  {
    var d := NatToString(v);
    var s := d + ("M" + p);
    MarksHoldNoDigit(p);
    MarkChars(p);
    assert "" + d + ("M" + p) == s;
    TargetOfMarked("", v, "M" + p);
    MarkedHasChar("", d, "M" + p, '$');
    MarkedHasChar("", d, "M" + p, '%');
    MarkedHasChar("", d, "M" + p, 'M');
    MarkedHasChar("", d, "M" + p, '+');
    MillionsFrame(s, d, p);
    StopsOnOwnFrame(s, v);
  }

  lemma MillionsFrame(s: string, d: string, p: string)
    requires !HasChar(s, '$') && !HasChar(s, '%') && HasChar(s, 'M')
    requires p == (if HasChar(s, '+') then "+" else "")
    ensures StatFrame(s, d) == d + ("M" + p)
  {
  }

  /** A text whose target is `v` and whose frame for `v` is the text itself
      ends on that text. */
  lemma StopsOnOwnFrame(s: string, v: nat)
    requires Mentor.CounterTarget(s) == Some(v) && StatFrame(s, NatToString(v)) == s
    ensures StatEndOf(s) == Mentor.Stops(s)
  {
  }

  lemma PlainEndsOnOwnText(v: nat, p: string)
    requires p == "" || p == "+"
    ensures StatEndOf(NatToString(v) + p) == Mentor.Stops(NatToString(v) + p)
  {
    var d := NatToString(v);
    MarksHoldNoDigit(p);
    MarkChars(p);
    assert "" + d + p == d + p;
    TargetOfMarked("", v, p);
    MarkedHasChar("", d, p, '$');
    MarkedHasChar("", d, p, '%');
    MarkedHasChar("", d, p, 'M');
    MarkedHasChar("", d, p, '+');
  }

  /** A statistic in one of the written-back forms ends on its own text. */
  lemma StatEndsOnOwnText(v: nat, kind: StatKind, plus: bool)
    ensures StatEndOf(StatText(v, kind, plus)) == Mentor.Stops(StatText(v, kind, plus))
  {
    var p := if plus then "+" else "";
    match kind
    case DollarMillions => DollarMillionsEndsOnOwnText(v, p);
    case Percent => PercentEndsOnOwnText(v);
    case Millions => MillionsEndsOnOwnText(v, p);
    case Plain => PlainEndsOnOwnText(v, p);
  }

  lemma DigitsOfDecimal()
    ensures KeepDigits("2.5M") == "25"
  {
    var s := "2.5M";
    assert s == "2" + ".5M" && ".5M" == "." + "5M" && "5M" == "5" + "M";
    KeepDigitsAppend("2", ".5M");
    KeepDigitsAppend(".", "5M");
    KeepDigitsAppend("5", "M");
  }

  lemma CharsOfDecimal()
    ensures HasChar("2.5M", 'M') && !HasChar("2.5M", '$') && !HasChar("2.5M", '%') && !HasChar("2.5M", '+')
  {
    var s := "2.5M";
    assert s[3] == 'M';
    assert forall i :: 0 <= i < |s| ==> s[i] in {'2', '.', '5', 'M'};
  }

  /** A decimal point is dropped with the other non-digits: "2.5M" ends on
      "25M". */
  lemma DecimalMillionsLoseThePoint()
    ensures StatEndOf("2.5M") == Mentor.Stops("25M")
  {
    DigitsOfDecimal();
    assert ValueIn("25", 10) == 25;
    NatToStringOf25();
    CharsOfDecimal();
  }

  lemma NatToStringOf25()
    ensures NatToString(25) == "25"
  {
  }

  /** A "$" without "M" is dropped: "$d" ends on "d". */
  lemma DollarWithoutMillionsIsDropped(v: nat, plus: bool)
    ensures var p := if plus then "+" else "";
      StatEndOf("$" + NatToString(v) + p) == Mentor.Stops(NatToString(v) + p)
  {
    var p := if plus then "+" else "";
    var d := NatToString(v);
    MarksHoldNoDigit(p);
    TargetOfMarked("$", v, p);
    MarkedHasChar("$", d, p, '$');
    MarkedHasChar("$", d, p, '%');
    MarkedHasChar("$", d, p, 'M');
    MarkedHasChar("$", d, p, '+');
  }

  /** A percentage drops its "+": "d%+" ends on "d%". */
  lemma PercentDropsPlus(v: nat)
    ensures StatEndOf(NatToString(v) + "%+") == Mentor.Stops(NatToString(v) + "%")
  {
    var d := NatToString(v);
    assert NoDigit("%+") by { assert "%+"[0] == '%' && "%+"[1] == '+'; }
    assert "" + d + "%+" == d + "%+";
    TargetOfMarked("", v, "%+");
    MarkedHasChar("", d, "%+", '$');
    MarkedHasChar("", d, "%+", '%');
  }

  // ---------------------------------------------------------------------
  // Sharing
  // ---------------------------------------------------------------------

  datatype Platform = LinkedIn | Twitter | Email

  /** The string the page passes around for a platform. */
  function PlatformName(p: Platform): string {
    match p
    case LinkedIn => "linkedin"
    case Twitter => "twitter"
    case Email => "email"
  }

  /** The platform of a share button, from its classes. */
  function ButtonPlatform(classes: set<string>): (p: Platform)
    ensures p == LinkedIn <==> "linkedin" in classes
    ensures p == Twitter <==> "linkedin" !in classes && "twitter" in classes
    ensures p == Email <==> "linkedin" !in classes && "twitter" !in classes
  {
    if "linkedin" in classes then LinkedIn
    else if "twitter" in classes then Twitter
    else Email
  }

  /** A button whose only class is a platform's name shares on that
      platform. */
  lemma ButtonPlatformOfName(p: Platform)
    ensures ButtonPlatform({PlatformName(p)}) == p
  {
    match p
    case LinkedIn =>
    case Twitter =>
      assert "twitter" != "linkedin" by { assert "twitter"[0] != "linkedin"[0]; }
    case Email =>
      assert "email" != "linkedin" by { assert "email"[0] != "linkedin"[0]; }
      assert "email" != "twitter" by { assert "email"[0] != "twitter"[0]; }
  }

  /** `substring(0, 200) + '...'` of the lead paragraph. */
  function ShareDescription(lead: string): (r: string)
    ensures |r| == (if |lead| < 200 then |lead| else 200) + 3
    ensures r[..|r| - 3] == lead[..|r| - 3]
    ensures r[|r| - 3..] == "..."
  {
    (if |lead| < 200 then lead else lead[..200]) + "..."
  }

  /** The part of each share address before its query. */
  const LinkedInBase: string := "https://www.linkedin.com/sharing/share-offsite/?"
  const TwitterBase: string := "https://twitter.com/intent/tweet?"
  const MailBase: string := "mailto:?"

  /** The text an e-mail share puts in its body: the shortened lead, a
      blank line and the page address. */
  function MailBody(lead: string, url: string): (b: string)
    ensures |b| == |ShareDescription(lead)| + 2 + |url|
    ensures b[..|ShareDescription(lead)|] == ShareDescription(lead)
    ensures b[|b| - |url|..] == url && b[|b| - |url| - 2..|b| - |url|] == "\n\n"
  {
    ShareDescription(lead) + "\n\n" + url
  }

  /** The share address; `encode` is `encodeURIComponent`. LinkedIn gets
      the page address, Twitter the address and the title, e-mail the title
      as subject and `MailBody` as body, each encoded. */
  function ShareUrl(p: Platform, url: string, title: string, lead: string, encode: string -> string): (r: string)
    ensures p == LinkedIn ==> r == LinkedInBase + "url=" + encode(url)
    ensures p == Twitter ==> r == TwitterBase + "url=" + encode(url) + "&text=" + encode(title)
    ensures p == Email ==> r == MailBase + "subject=" + encode(title) + "&body=" + encode(MailBody(lead, url))
  {
    match p
    case LinkedIn => LinkedInBase + "url=" + encode(url)
    case Twitter => TwitterBase + "url=" + encode(url) + "&text=" + encode(title)
    case Email => MailBase + "subject=" + encode(title) + "&body=" + encode(MailBody(lead, url))
  }

  /** The query fields of each share address, in order. */
  function ShareQuery(p: Platform, url: string, title: string, lead: string, encode: string -> string): seq<string> {
    match p
    case LinkedIn => ["url=" + encode(url)]
    case Twitter => ["url=" + encode(url), "text=" + encode(title)]
    case Email => ["subject=" + encode(title), "body=" + encode(MailBody(lead, url))]
  }

  function ShareBase(p: Platform): string {
    match p
    case LinkedIn => LinkedInBase
    case Twitter => TwitterBase
    case Email => MailBase
  }

  /** The text after the base: the fields as the address writes them. */
  function ShareQueryText(p: Platform, url: string, title: string, lead: string, encode: string -> string): string {
    match p
    case LinkedIn => "url=" + encode(url)
    case Twitter => "url=" + encode(url) + "&text=" + encode(title)
    case Email => "subject=" + encode(title) + "&body=" + encode(MailBody(lead, url))
  }

  /** A share address is its platform's base followed by the query fields
      joined with `&`, and, since the encoding never yields an `&` (as
      `encodeURIComponent` escapes it), splitting the query at `&` gives
      each encoded field back: no field can spill into another. */
  lemma ShareUrlFields(p: Platform, url: string, title: string, lead: string, encode: string -> string)
    requires forall s :: '&' !in encode(s)
    ensures var text := ShareQueryText(p, url, title, lead, encode);
      && ShareUrl(p, url, title, lead, encode) == ShareBase(p) + text
      && text == Join(ShareQuery(p, url, title, lead, encode), "&")
      && Split(text, "&") == ShareQuery(p, url, title, lead, encode)
  {
    FieldNamesHaveNoAmpersand();
    match p
    case LinkedIn =>
      var v := encode(url);
      assert '&' !in v;
      SplitFields("url=" + v, "");
      Regroup(LinkedInBase, "url=", v);
    case Twitter =>
      var v1, v2 := encode(url), encode(title);
      assert '&' !in v1 && '&' !in v2;
      TwoFieldQuery("url=", v1, "text=", v2);
      Regroup4(TwitterBase, "url=", v1, "&text=", v2);
    case Email =>
      var v1, v2 := encode(title), encode(MailBody(lead, url));
      assert '&' !in v1 && '&' !in v2;
      TwoFieldQuery("subject=", v1, "body=", v2);
      Regroup4(MailBase, "subject=", v1, "&body=", v2);
  }

  lemma FieldNamesHaveNoAmpersand()
    ensures '&' !in "url=" && '&' !in "text=" && '&' !in "subject=" && '&' !in "body="
    ensures "&" + "text=" == "&text=" && "&" + "body=" == "&body="
  {
  }

  /** Two named fields written with `&` between them are the fields joined
      with `&`, and they split back. */
  lemma TwoFieldQuery(n1: string, v1: string, n2: string, v2: string)
    requires '&' !in n1 && '&' !in v1 && '&' !in n2 && '&' !in v2
    ensures n1 + v1 + ("&" + n2) + v2 == Join([n1 + v1, n2 + v2], "&")
    ensures Split(Join([n1 + v1, n2 + v2], "&"), "&") == [n1 + v1, n2 + v2]
  {
    SplitFields(n1 + v1, n2 + v2);
    JoinPair(n1 + v1, n2 + v2, "&");
  }

  lemma JoinPair(x: string, y: string, sep: string)
    ensures Join([x, y], sep) == x + sep + y
  {
    assert [x, y][1..] == [y];
  }

  lemma Regroup(a: string, b: string, c: string)
    ensures a + b + c == a + (b + c)
  {
  }

  lemma Regroup4(a: string, b: string, c: string, d: string, e: string)
    ensures a + b + c + d + e == a + (b + c + d + e)
  {
  }

  /** One field, or two around an `&`, split back into themselves. */
  lemma SplitFields(a: string, b: string)
    requires '&' !in a && '&' !in b
    ensures b == "" ==> Split(a, "&") == [a]
    ensures Split(a + "&" + b, "&") == [a, b]
  {
    var parts := [a, b];
    forall k, i | 0 <= k < |parts| && 0 <= i < |parts[k]|
      ensures parts[k][i] != "&"[0]
    {
      assert parts[k][i] in parts[k];
    }
    assert Join(parts, "&") == a + "&" + b;
    SplitJoin(parts, "&");
    if b == "" {
      forall i | 0 <= i < |a| ensures [a][0][i] != "&"[0] { assert a[i] in a; }
      SplitJoin([a], "&");
    }
  }


  /** What a share does to the window. */
  datatype ShareAction = Navigate(url: string) | Popup(url: string)

  /** "Shared via " and the platform's name with its first letter in upper
      case. */
  function ShareSuccessMessage(p: Platform): string {
    "Shared via " + UpperFirst(PlatformName(p)) + "!"
  }

  /** The three messages the page can show. */
  lemma ShareSuccessMessages()
    ensures ShareSuccessMessage(LinkedIn) == "Shared via Linkedin!"
    ensures ShareSuccessMessage(Twitter) == "Shared via Twitter!"
    ensures ShareSuccessMessage(Email) == "Shared via Email!"
  {
    LinkedInMessage();
    TwitterMessage();
    EmailMessage();
  }

  lemma LinkedInMessage()
    ensures ShareSuccessMessage(LinkedIn) == "Shared via Linkedin!"
  {
    assert UpperAscii('l') == 'L';
    assert "linkedin"[1..] == "inkedin";
    assert UpperFirst("linkedin") == "Linkedin";
  }

  lemma TwitterMessage()
    ensures ShareSuccessMessage(Twitter) == "Shared via Twitter!"
  {
    assert UpperAscii('t') == 'T';
    assert "twitter"[1..] == "witter";
    assert UpperFirst("twitter") == "Twitter";
  }

  lemma EmailMessage()
    ensures ShareSuccessMessage(Email) == "Shared via Email!"
  {
    assert UpperAscii('e') == 'E';
    assert "email"[1..] == "mail";
    assert UpperFirst("email") == "Email";
  }

  /** `handleShare`: e-mail shares navigate the window, the others open a
      popup; the address is never empty, so a share always happens, and the
      message follows. */
  function HandleShare(p: Platform, url: string, title: string, lead: string, encode: string -> string)
    : (r: (ShareAction, string))
    ensures r.0.Navigate? <==> p == Email
    ensures r.0.url == ShareUrl(p, url, title, lead, encode) && r.0.url != ""
    ensures r.1 == ShareSuccessMessage(p)
  {
    var shareUrl := ShareUrl(p, url, title, lead, encode);
    (if p == Email then Navigate(shareUrl) else Popup(shareUrl), ShareSuccessMessage(p))
  }

  /** The platform a `handleShare` argument names, if any: the inverse of
      `PlatformName`. */
  function PlatformNamed(name: string): (p: Option<Platform>)
    ensures p.Some? ==> PlatformName(p.value) == name
    ensures p.None? ==> forall q :: PlatformName(q) != name
  {
    if name == "linkedin" then Some(LinkedIn)
    else if name == "twitter" then Some(Twitter)
    else if name == "email" then Some(Email)
    else None
  }

  /** `handleShare` called with any string, as its export allows: an
      unknown name builds no address, so nothing opens, but the message
      naming it is still shown. */
  function HandleShareNamed(name: string, url: string, title: string, lead: string, encode: string -> string)
    : (r: (Option<ShareAction>, string))
    ensures r.0.None? <==> PlatformNamed(name).None?
    ensures PlatformNamed(name).Some? ==>
      var known := HandleShare(PlatformNamed(name).value, url, title, lead, encode);
      r.0 == Some(known.0) && r.1 == known.1
    ensures r.1 == "Shared via " + UpperFirst(name) + "!"
  {
    var message := "Shared via " + UpperFirst(name) + "!";
    match PlatformNamed(name)
    case None => (None, message)
    case Some(p) => (Some(HandleShare(p, url, title, lead, encode).0), message)
  }
}

=== FILE: student_impact.dfy ===
/** The "student impact" horizontal panel navigator of the about page: three
    panels traversed in ping-pong order, a lock held for the length of the
    slide animation, edge indicators and a progress bar kept in step with the
    current panel, and a self re-arming auto-play timer. Each timer callback
    of the page is an explicit event method here. */
module StudentImpact {
  import opened JsRuntime

  /** Number of panels on the page. */
  const TotalPanels: int := 3
  /** Delay after which the scrolling lock is released. */
  const UnlockDelayMs: int := 1200
  /** Delay of one auto-play step. */
  const AutoPlayDelayMs: int := 10000
  /** A swipe must travel strictly more than this many pixels. */
  const MinSwipeDistance: int := 50

  /** What `scrollToPanel` is asked for: the string 'next', the string
      'prev', or a panel number. */
  datatype Request = Next | Prev | Index(i: int)

  /** The panel a request aims at and the bounce direction it leaves behind. */
  datatype Plan = Plan(target: int, direction: int)

  predicate IsDirection(d: int) {
    d == 1 || d == -1
  }

  /** `Math.max(0, Math.min(i, n - 1))`. */
  function Clamp(i: int, n: int): (r: int)
    ensures n >= 1 ==> 0 <= r < n
    ensures 0 <= i < n ==> r == i
  {
    if i > n - 1 then (if n - 1 < 0 then 0 else n - 1) else if i < 0 then 0 else i
  }

  /** The target computation of `scrollToPanel` (ping-pong rules for 'next'
      and 'prev', clamping for a number) with the direction it assigns. */
  function PlanMove(req: Request, cur: int, dir: int, n: int): Plan {
    match req
    case Index(i) => Plan(Clamp(i, n), dir)
    case Next =>
      if dir == 1 then
        (if cur < n - 1 then Plan(cur + 1, dir) else Plan(cur - 1, -1))
      else
        (if cur > 0 then Plan(cur - 1, dir) else Plan(cur + 1, 1))
    case Prev =>
      if dir == 1 then
        (if cur > 0 then Plan(cur - 1, -1) else Plan(cur + 1, 1))
      else
        (if cur < n - 1 then Plan(cur + 1, 1) else Plan(cur - 1, dir))
  }

  /** An independent description of 'next': keep going in the bounce
      direction, and turn round when that would leave the panel row; the
      direction is always the sense of the move just made. */
  function BounceNext(cur: int, dir: int, n: int): (p: Plan)
    ensures n >= 2 && 0 <= cur < n && IsDirection(dir) ==>
      0 <= p.target < n && IsDirection(p.direction) && p.target == cur + p.direction
  {
    var d := if 0 <= cur + dir < n then dir else -dir;
    Plan(cur + d, d)
  }

  lemma NextIsBounce(cur: int, dir: int, n: int)
    requires n >= 2 && 0 <= cur < n && IsDirection(dir)
    ensures PlanMove(Next, cur, dir, n) == BounceNext(cur, dir, n)
  {
  }

  /** 'prev' is 'next' with the bounce direction turned round first. */
  lemma PrevIsReversedNext(cur: int, dir: int, n: int)
    requires n >= 2 && 0 <= cur < n && IsDirection(dir)
    ensures PlanMove(Prev, cur, dir, n) == BounceNext(cur, -dir, n)
  {
  }

  /** For two panels or more, 'next' and 'prev' always aim at a neighbouring
      panel inside the row, so the range guard and the "already there" guard
      of `scrollToPanel` never fire for them. */
  lemma RelativeMoveStaysInRow(req: Request, cur: int, dir: int, n: int)
    requires n >= 2 && 0 <= cur < n && IsDirection(dir)
    requires req == Next || req == Prev
    ensures var p := PlanMove(req, cur, dir, n);
      0 <= p.target < n && (p.target == cur + 1 || p.target == cur - 1)
      && IsDirection(p.direction) && p.target == cur + p.direction
  {
  }

  /** A panel number is clamped into the row and leaves the direction alone. */
  lemma IndexIsClamped(i: int, cur: int, dir: int, n: int)
    requires n >= 1
    ensures var p := PlanMove(Index(i), cur, dir, n);
      0 <= p.target < n && p.direction == dir
      && (0 <= i < n ==> p.target == i)
      && (i < 0 ==> p.target == 0)
      && (i >= n ==> p.target == n - 1)
  {
  }

  // ---------------------------------------------------------------------
  // Repeated 'next' from the start: 0, 1, ..., n-1, n-2, ..., 1, 0, 1, ...
  // ---------------------------------------------------------------------

  /** Panel and direction after `k` 'next' requests from panel 0 going
      forward, each issued after the previous transition finished. */
  function AfterNexts(k: nat, n: int): Plan
    requires n >= 2
  {
    if k == 0 then Plan(0, 1)
    else
      var p := AfterNexts(k - 1, n);
      PlanMove(Next, p.target, p.direction, n)
  }

  /** The ping-pong sequence, period 2(n-1). */
  function BouncePanel(k: nat, n: int): int
    requires n >= 2
  {
    var m := 2 * (n - 1);
    var r := k % m;
    if r <= n - 1 then r else m - r
  }

  function BounceDirection(k: nat, n: int): int
    requires n >= 2
  {
    var m := 2 * (n - 1);
    var r := k % m;
    if r == 0 then (if k == 0 then 1 else -1) else if r <= n - 1 then 1 else -1
  }

  /** Repeated 'next' visits 0, 1, ..., n-1, n-2, ..., 0, 1, ... forever. */
  lemma {:induction false} BounceSequence(k: nat, n: int)
    requires n >= 2
    ensures AfterNexts(k, n) == Plan(BouncePanel(k, n), BounceDirection(k, n))
    ensures 0 <= BouncePanel(k, n) < n
  {
    if k > 0 {
      BounceSequence(k - 1, n);
      ModSucc(k - 1, 2 * (n - 1));
    }
  }

  /** Consecutive panels of the sequence are neighbours, never the same. */
  lemma BounceNeverRepeats(k: nat, n: int)
    requires n >= 2
    ensures BouncePanel(k + 1, n) == BouncePanel(k, n) + 1 || BouncePanel(k + 1, n) == BouncePanel(k, n) - 1
  {
    BounceSequence(k, n);
    BounceSequence(k + 1, n);
    var p := AfterNexts(k, n);
    assert 0 <= p.target < n;
    assert IsDirection(p.direction) by {
      assert p.direction == BounceDirection(k, n);
    }
    RelativeMoveStaysInRow(Next, p.target, p.direction, n);
  }

  // ---------------------------------------------------------------------
  // Indicators and input mapping
  // ---------------------------------------------------------------------

  /** Edge arrows and the width of the progress bar for a panel. */
  datatype ScrollUi = ScrollUi(leftEdgeDisabled: bool, rightEdgeDisabled: bool, progressPercent: real)

  /** `updateScrollUI`: the left edge is disabled on the first panel, the
      right one on the last, and the bar is `(cur + 1) / n` of the way. */
  function ScrollUI(cur: int, n: int): ScrollUi
    requires n > 0
  {
    ScrollUi(cur == 0, cur == n - 1, ((cur + 1) as real / n as real) * 100.0)
  }

  /** The progress bar is never empty, grows with the panel, and is full
      exactly when the right edge is disabled. */
  lemma ProgressTracksPanel(c1: int, c2: int, n: int)
    requires n > 0 && 0 <= c1 < c2 < n
    ensures 0.0 < ScrollUI(c1, n).progressPercent < ScrollUI(c2, n).progressPercent <= 100.0
    ensures ScrollUI(c2, n).progressPercent == 100.0 <==> ScrollUI(c2, n).rightEdgeDisabled
    ensures !ScrollUI(c1, n).rightEdgeDisabled && !ScrollUI(c2, n).leftEdgeDisabled
  {
    var N := n as real;
    assert (c1 + 1) as real < (c2 + 1) as real <= N;
    assert (c1 + 1) as real / N < (c2 + 1) as real / N;
    assert (c2 + 1) as real / N <= 1.0;
    if ScrollUI(c2, n).progressPercent == 100.0 {
      assert (c2 + 1) as real / N == 1.0;
      assert (c2 + 1) as real == N;
    }
  }

  /** The touch handler: a swipe towards the left (start right of end) by
      more than the threshold asks for 'next', towards the right for 'prev'. */
  function SwipeRequest(startX: int, endX: int): (r: Option<Request>)
    ensures r == Some(Next) <==> startX - endX > MinSwipeDistance
    ensures r == Some(Prev) <==> startX - endX < -MinSwipeDistance
    ensures r.None? <==> -MinSwipeDistance <= startX - endX <= MinSwipeDistance
  {
    var distance := startX - endX;
    if (if distance < 0 then -distance else distance) > MinSwipeDistance then
      if distance > 0 then Some(Next) else Some(Prev)
    else None
  }

  /** The keyboard handler's switch on `e.key`. */
  function KeyRequest(key: string): (r: Option<Request>)
    ensures r == Some(Prev) <==> key == "ArrowLeft"
    ensures r == Some(Next) <==> key == "ArrowRight" || key == " "
    ensures r.None? <==> key != "ArrowLeft" && key != "ArrowRight" && key != " "
  {
    if key == "ArrowLeft" then Some(Prev)
    else if key == "ArrowRight" || key == " " then Some(Next)
    else None
  }

  // ---------------------------------------------------------------------
  // The navigator
  // ---------------------------------------------------------------------

  /** What one call of `scrollToPanel` did. */
  datatype Outcome = Ignored | AlreadyThere(panel: int) | Moved(from: int, to: int)

  class Navigator {
    var currentPanel: int
    var scrollDirection: int
    /** The lock; true exactly while an unlock callback is pending. */
    var isScrolling: bool
    var touchStartX: int
    /** True while an auto-play timeout is pending. */
    var autoPlayPending: bool
    var leftEdgeDisabled: bool
    var rightEdgeDisabled: bool
    var progressPercent: real
    /** Whether the page has the scroll track element at all. */
    const hasTrack: bool

    ghost predicate Valid()
      reads this
    {
      && 0 <= currentPanel < TotalPanels
      && IsDirection(scrollDirection)
      && ScrollUi(leftEdgeDisabled, rightEdgeDisabled, progressPercent) == ScrollUI(currentPanel, TotalPanels)
    }

    /** The module-level initial values followed by `initializeHorizontalScroll`,
        whose only state effect is `updateScrollUI`. */
    constructor (hasTrack: bool)
      ensures Valid()
      ensures currentPanel == 0 && scrollDirection == 1 && !isScrolling && !autoPlayPending
      ensures this.hasTrack == hasTrack
      ensures leftEdgeDisabled && !rightEdgeDisabled
    {
      currentPanel := 0;
      scrollDirection := 1;
      isScrolling := false;
      touchStartX := 0;
      autoPlayPending := false;
      this.hasTrack := hasTrack;
      new;
      UpdateScrollUI();
    }

    /** `updateScrollUI`. */
    method UpdateScrollUI()
      modifies this
      ensures ScrollUi(leftEdgeDisabled, rightEdgeDisabled, progressPercent) == ScrollUI(currentPanel, TotalPanels)
      ensures currentPanel == old(currentPanel) && scrollDirection == old(scrollDirection)
      ensures isScrolling == old(isScrolling) && autoPlayPending == old(autoPlayPending)
      ensures touchStartX == old(touchStartX)
    {
      leftEdgeDisabled := currentPanel == 0;
      rightEdgeDisabled := currentPanel == TotalPanels - 1;
      progressPercent := ((currentPanel + 1) as real / TotalPanels as real) * 100.0;
    }

    /** `scrollToPanel`: ignored while locked (or without a track); otherwise
        the lock is taken, the target chosen, and either released at once
        (target already current) or kept until `CompleteTransition`, with the
        panel index updated immediately. */
    method ScrollToPanel(req: Request) returns (outcome: Outcome)
      requires Valid()
      modifies this
      ensures Valid()
      ensures autoPlayPending == old(autoPlayPending) && touchStartX == old(touchStartX)
      ensures old(isScrolling) || !hasTrack ==>
        outcome == Ignored && currentPanel == old(currentPanel)
        && scrollDirection == old(scrollDirection) && isScrolling == old(isScrolling)
      ensures !old(isScrolling) && hasTrack ==>
        var p := PlanMove(req, old(currentPanel), old(scrollDirection), TotalPanels);
        && scrollDirection == p.direction
        && currentPanel == p.target
        && (p.target == old(currentPanel) ==> outcome == AlreadyThere(p.target) && !isScrolling)
        && (p.target != old(currentPanel) ==> outcome == Moved(old(currentPanel), p.target) && isScrolling)
    {
      if isScrolling || !hasTrack {
        return Ignored;
      }
      isScrolling := true;
      var plan := PlanMove(req, currentPanel, scrollDirection, TotalPanels);
      scrollDirection := plan.direction;
      if req == Next || req == Prev {
        RelativeMoveStaysInRow(req, currentPanel, old(scrollDirection), TotalPanels);
      }
      if plan.target == currentPanel {
        isScrolling := false;
        return AlreadyThere(plan.target);
      }
      var previous := currentPanel;
      currentPanel := plan.target;
      UpdateScrollUI();
      outcome := Moved(previous, currentPanel);
    }

    /** The callback scheduled `UnlockDelayMs` after a move: releases the lock. */
    method CompleteTransition()
      requires Valid() && isScrolling
      modifies this
      ensures Valid() && !isScrolling
      ensures currentPanel == old(currentPanel) && scrollDirection == old(scrollDirection)
      ensures autoPlayPending == old(autoPlayPending) && touchStartX == old(touchStartX)
    {
      isScrolling := false;
    }

    /** `touchstart`: remembers where the finger went down. */
    method TouchStart(x: int)
      requires Valid()
      modifies this
      ensures Valid() && touchStartX == x
      ensures currentPanel == old(currentPanel) && scrollDirection == old(scrollDirection)
      ensures isScrolling == old(isScrolling) && autoPlayPending == old(autoPlayPending)
    {
      touchStartX := x;
    }

    /** `touchend`: nothing while locked; otherwise the swipe's request. */
    method TouchEnd(x: int) returns (outcome: Outcome)
      requires Valid()
      modifies this
      ensures Valid()
      ensures autoPlayPending == old(autoPlayPending) && touchStartX == old(touchStartX)
      ensures old(isScrolling) || SwipeRequest(old(touchStartX), x).None? || !hasTrack ==>
        outcome == Ignored && currentPanel == old(currentPanel)
        && scrollDirection == old(scrollDirection) && isScrolling == old(isScrolling)
      ensures !old(isScrolling) && SwipeRequest(old(touchStartX), x).Some? && hasTrack ==>
        var p := PlanMove(SwipeRequest(old(touchStartX), x).value, old(currentPanel), old(scrollDirection), TotalPanels);
        currentPanel == p.target && scrollDirection == p.direction && isScrolling
        && outcome == Moved(old(currentPanel), p.target)
    {
      if isScrolling {
        return Ignored;
      }
      var req := SwipeRequest(touchStartX, x);
      if req.None? {
        return Ignored;
      }
      RelativeMoveStaysInRow(req.value, currentPanel, scrollDirection, TotalPanels);
      outcome := ScrollToPanel(req.value);
    }

    /** `keydown`: nothing while locked or while the section is out of view;
        otherwise the key's request. */
    method KeyDown(key: string, sectionInView: bool) returns (outcome: Outcome)
      requires Valid()
      modifies this
      ensures Valid()
      ensures autoPlayPending == old(autoPlayPending) && touchStartX == old(touchStartX)
      ensures old(isScrolling) || !sectionInView || KeyRequest(key).None? || !hasTrack ==>
        outcome == Ignored && currentPanel == old(currentPanel)
        && scrollDirection == old(scrollDirection) && isScrolling == old(isScrolling)
      ensures !old(isScrolling) && sectionInView && KeyRequest(key).Some? && hasTrack ==>
        var p := PlanMove(KeyRequest(key).value, old(currentPanel), old(scrollDirection), TotalPanels);
        currentPanel == p.target && scrollDirection == p.direction && isScrolling
        && outcome == Moved(old(currentPanel), p.target)
    {
      if isScrolling || !sectionInView {
        return Ignored;
      }
      var req := KeyRequest(key);
      if req.None? {
        return Ignored;
      }
      RelativeMoveStaysInRow(req.value, currentPanel, scrollDirection, TotalPanels);
      outcome := ScrollToPanel(req.value);
    }

    /** `clearAutoPlayTimer`. */
    method ClearAutoPlayTimer()
      requires Valid()
      modifies this
      ensures Valid() && !autoPlayPending
      ensures currentPanel == old(currentPanel) && scrollDirection == old(scrollDirection)
      ensures isScrolling == old(isScrolling) && touchStartX == old(touchStartX)
    {
      autoPlayPending := false;
    }

    /** `startAutoPlayTimer`: clears any pending step and arms a new one. */
    method StartAutoPlayTimer()
      requires Valid()
      modifies this
      ensures Valid() && autoPlayPending
      ensures currentPanel == old(currentPanel) && scrollDirection == old(scrollDirection)
      ensures isScrolling == old(isScrolling) && touchStartX == old(touchStartX)
    {
      ClearAutoPlayTimer();
      autoPlayPending := true;
    }

    /** The intersection observer: entering the view arms auto-play, leaving
        it clears the timer. */
    method SectionVisibility(isIntersecting: bool)
      requires Valid()
      modifies this
      ensures Valid() && autoPlayPending == isIntersecting
      ensures currentPanel == old(currentPanel) && scrollDirection == old(scrollDirection)
      ensures isScrolling == old(isScrolling) && touchStartX == old(touchStartX)
    {
      if isIntersecting {
        StartAutoPlayTimer();
      } else {
        ClearAutoPlayTimer();
      }
    }

    /** The auto-play timeout firing: when unlocked it asks for 'next' and
        re-arms; when locked it does nothing and does not re-arm, so
        auto-play stays off until the section enters the view again. */
    method AutoPlayTick()
      requires Valid() && autoPlayPending
      modifies this
      ensures Valid()
      ensures old(isScrolling) ==>
        !autoPlayPending && currentPanel == old(currentPanel)
        && scrollDirection == old(scrollDirection) && isScrolling
      ensures !old(isScrolling) ==> autoPlayPending
      ensures !old(isScrolling) && !hasTrack ==>
        currentPanel == old(currentPanel) && scrollDirection == old(scrollDirection)
      ensures !old(isScrolling) && hasTrack ==>
        var p := PlanMove(Next, old(currentPanel), old(scrollDirection), TotalPanels);
        currentPanel == p.target && scrollDirection == p.direction && isScrolling
    {
      autoPlayPending := false;
      if !isScrolling {
        RelativeMoveStaysInRow(Next, currentPanel, scrollDirection, TotalPanels);
        var _ := ScrollToPanel(Next);
        StartAutoPlayTimer();
      }
    }
  }

  /** The scenario of the page: four 'next' requests, each after the
      previous transition finished, visit 1, 2, 1, 0. */
  method PingPongScenario() returns (visited: seq<int>)
    ensures visited == [1, 2, 1, 0]
  {
    var nav := new Navigator(true);
    visited := [];
    var i := 0;
    while i < 4
      invariant 0 <= i <= 4
      invariant nav.Valid() && !nav.isScrolling && nav.hasTrack
      invariant (nav.currentPanel, nav.scrollDirection) == (AfterNexts(i, TotalPanels).target, AfterNexts(i, TotalPanels).direction)
      invariant |visited| == i
      invariant forall j :: 0 <= j < i ==> visited[j] == AfterNexts(j + 1, TotalPanels).target
    {
      var _ := nav.ScrollToPanel(Next);
      nav.CompleteTransition();
      visited := visited + [nav.currentPanel];
      i := i + 1;
    }
    assert AfterNexts(1, TotalPanels).target == 1;
    assert AfterNexts(2, TotalPanels).target == 2;
    assert AfterNexts(3, TotalPanels).target == 1;
    assert AfterNexts(4, TotalPanels).target == 0;
  }
}

=== FILE: the_challenge.dfy ===
/** The pitch-competition page: the journey's progress bar and stage dots
    follow the stage of the card in view, journey cards are revealed once,
    and award counters start only on a usable target. */
module TheChallenge {
  import opened JsRuntime
  import AboutRotators

  // ---------------------------------------------------------------------
  // Award counters
  // ---------------------------------------------------------------------

  /** What `animateAwardCounter` does. */
  datatype AwardOutcome = NoAnimation | CountsTo(target: int)

  /** A `NaN` or zero `data-target`, or a missing number element, stops the
      animation before it starts. */
  function AnimateAwardCounter(dataTarget: string, hasNumberElement: bool): (r: AwardOutcome)
    ensures r.CountsTo? ==> r.target != 0 && hasNumberElement && ParseInt(dataTarget) == Some(r.target)
    ensures r == NoAnimation <==> (ParseInt(dataTarget) == None || ParseInt(dataTarget) == Some(0) || !hasNumberElement)
  {
    match ParseInt(dataTarget)
    case None => NoAnimation
    case Some(t) => if t == 0 || !hasNumberElement then NoAnimation else CountsTo(t)
  }

  /** A target written as a non-zero integer is counted to exactly. */
  lemma AwardCounterReadsItsTarget(n: int)
    requires n != 0
    ensures AnimateAwardCounter(IntToString(n), true) == CountsTo(n)
  {
    ParseIntOfIntToString(n);
  }

  // ---------------------------------------------------------------------
  // Journey progress
  // ---------------------------------------------------------------------

  /** The two classes a stage dot can carry. */
  datatype Dot = Dot(active: bool, completed: bool)

  /** The classes of dot `index` (stage `index + 1`) once the stage is
      `stage`; `None` is a `NaN` stage, which every comparison fails. */
  function DotRule(index: nat, stage: Option<int>): (d: Dot)
    ensures !(d.active && d.completed)
  {
    Dot(stage == Some(index + 1), stage.Some? && index + 1 < stage.value)
  }

  function DotsFor(n: nat, stage: Option<int>): (ds: seq<Dot>)
    ensures |ds| == n
  {
    seq(n, i requires 0 <= i => DotRule(i, stage))
  }

  function Actives(ds: seq<Dot>): (flags: seq<bool>)
    ensures |flags| == |ds|
  {
    seq(|ds|, i requires 0 <= i < |ds| => ds[i].active)
  }

  /** The `active` classes mark exactly the dot of the stage. */
  lemma ActiveDotIsTheStage(n: nat, stage: int)
    ensures Actives(DotsFor(n, Some(stage))) == AboutRotators.OnlyAt(n, stage - 1)
  {
  }

  /** For a stage within the dots exactly one dot is active, every earlier
      dot is completed and every later one is neither. */
  lemma StageWithinDots(n: nat, stage: int)
    requires 1 <= stage <= n
    ensures AboutRotators.CountTrue(Actives(DotsFor(n, Some(stage)))) == 1
    ensures forall i :: 0 <= i < stage - 1 ==> DotsFor(n, Some(stage))[i] == Dot(false, true)
    ensures DotsFor(n, Some(stage))[stage - 1] == Dot(true, false)
    ensures forall i :: stage <= i < n ==> DotsFor(n, Some(stage))[i] == Dot(false, false)
  {
    ActiveDotIsTheStage(n, stage);
    AboutRotators.OnlyAtCount(n, stage - 1);
  }

  /** A `NaN` stage clears every dot; a stage past the last dot completes
      them all. */
  lemma StageOutsideDots(n: nat, stage: Option<int>)
    requires stage.None? || stage.value > n
    ensures AboutRotators.CountTrue(Actives(DotsFor(n, stage))) == 0
    ensures stage.None? ==> forall i :: 0 <= i < n ==> DotsFor(n, stage)[i] == Dot(false, false)
    ensures stage.Some? ==> forall i :: 0 <= i < n ==> DotsFor(n, stage)[i] == Dot(false, true)
  {
    assert Actives(DotsFor(n, stage)) == AboutRotators.OnlyAt(n, -1);
    AboutRotators.OnlyAtCount(n, -1);
  }

  /** The bar's width in percent, `(stage / 5) * 100` in exact arithmetic;
      `None` is `NaN`. */
  function ProgressPercent(stage: Option<int>): (p: Option<real>)
    ensures p.Some? <==> stage.Some?
    ensures stage.Some? ==> p.value == (stage.value * 20) as real
  {
    match stage
    case None => None
    case Some(s) => Some((s as real / 5.0) * 100.0)
  }

  /** The bar is full exactly at the fifth stage and empty exactly at the
      zeroth. */
  lemma ProgressBounds(stage: int)
    ensures ProgressPercent(Some(stage)) == Some(100.0) <==> stage == 5
    ensures ProgressPercent(Some(stage)) == Some(0.0) <==> stage == 0
    ensures 0 <= stage <= 5 ==> 0.0 <= ProgressPercent(Some(stage)).value <= 100.0
  {
  }

  /** The progress bar and the stage dots of the journey. */
  class JourneyProgress {
    var width: Option<real>
    const dots: array<Dot>

    constructor(dots: array<Dot>)
      ensures this.dots == dots && width == None
    {
      this.dots := dots;
      width := None;
    }

    /** `updateProgress`: both classes come off each dot, then at most one
        goes back on. */
    method UpdateProgress(stage: Option<int>)
      modifies this, dots
      ensures width == ProgressPercent(stage)
      ensures dots[..] == DotsFor(dots.Length, stage)
    {
      width := ProgressPercent(stage);
      var i := 0;
      while i < dots.Length
        invariant 0 <= i <= dots.Length
        invariant width == ProgressPercent(stage)
        invariant forall j :: 0 <= j < i ==> dots[j] == DotRule(j, stage)
      {
        var dotStage := i + 1;
        dots[i] := Dot(false, false);
        if stage.Some? && dotStage < stage.value {
          dots[i] := dots[i].(completed := true);
        } else if stage == Some(dotStage) {
          dots[i] := dots[i].(active := true);
        }
        i := i + 1;
      }
      assert forall j :: 0 <= j < dots.Length ==> dots[..][j] == DotsFor(dots.Length, stage)[j];
    }
  }

  // ---------------------------------------------------------------------
  // Journey cards
  // ---------------------------------------------------------------------

  /** `parseInt(stage) * 100` as a `setTimeout` delay: `NaN` and negative
      delays run as 0. */
  function RevealDelay(stage: Option<int>): (ms: nat)
    ensures stage.Some? && stage.value >= 0 ==> ms == stage.value * 100
    ensures stage.None? || stage.value < 0 ==> ms == 0
  {
    if stage.Some? && stage.value >= 0 then stage.value * 100 else 0
  }

  /** A journey card. `pending` counts reveal callbacks scheduled and not
      yet run; `revealCount` counts those that ran. */
  class JourneyCard {
    var animated: bool
    var pending: nat
    var revealCount: nat

    constructor()
      ensures !animated && pending == 0 && revealCount == 0
    {
      animated := false;
      pending := 0;
      revealCount := 0;
    }

    /** At most one reveal, ever, and none before the card is marked. */
    predicate RevealedAtMostOnce()
      reads this
    {
      pending + revealCount <= 1 && (!animated ==> pending + revealCount == 0)
    }

    /** The observer callback as written: the card is marked only when the
        delayed reveal runs. */
    method IntersectAsWritten()
      modifies this
      ensures animated == old(animated) && revealCount == old(revealCount)
      ensures pending == if old(animated) then old(pending) else old(pending) + 1
    {
      if !animated {
        pending := pending + 1;
      }
    }

    /** The observer callback with the mark set when the reveal is
        scheduled. */
    method Intersect()
      modifies this
      requires RevealedAtMostOnce()
      ensures RevealedAtMostOnce() && animated && revealCount == old(revealCount)
      ensures pending == if old(animated) then old(pending) else old(pending) + 1
    {
      if !animated {
        animated := true;
        pending := pending + 1;
      }
    }

    /** A scheduled reveal runs. */
    method Reveal()
      requires pending > 0
      modifies this
      ensures animated && pending == old(pending) - 1 && revealCount == old(revealCount) + 1
      ensures old(RevealedAtMostOnce()) ==> RevealedAtMostOnce()
    {
      pending := pending - 1;
      revealCount := revealCount + 1;
      animated := true;
    }
  }

  /** As written, a card that comes into view twice before its delay ends
      is revealed twice. */
  method TwoIntersectionsAsWritten() returns (revealCount: nat)
    ensures revealCount == 2
  {
    var card := new JourneyCard();
    card.IntersectAsWritten();
    card.IntersectAsWritten();
    card.Reveal();
    card.Reveal();
    revealCount := card.revealCount;
  }

  /** With the mark set at scheduling time the same views reveal it once. */
  method TwoIntersections() returns (revealCount: nat)
    ensures revealCount == 1
  {
    var card := new JourneyCard();
    card.Intersect();
    card.Intersect();
    card.Reveal();
    revealCount := card.revealCount;
  }
}
